=== FILE: README.md ===
# Command-line cookbook: a Dafny model of its core

Command-line cookbook is a desktop application (Tauri with a React front
end). It shows recipes, which are command templates with typed tokens, and
Markdown docs. The user fills in the tokens, and the app assembles the command
and runs it in an embedded terminal. That terminal is a PTY driven by a shell
that emits OSC 133 prompt and command markers and OSC 7 directory reports. The
app decodes those markers to keep a history of runs. It also resolves callers
that asked for the output of a captured command.

This project models that core as pure functions over immutable datatypes:

- `Sanitize` (`sanitize.dfy`): the Rust check on the binary names the
  installer looks up (`sanitize_binary_name`).
- `Ansi` (`ansi.dfy`): `stripAnsi`, the five regular-expression deletion
  passes after line-ending normalisation.
- `TerminalDecoder` (`terminal.dfy`): the OSC 133 / OSC 7 decoder of
  `useTerminal` as a state machine. Its inputs are events plus an environment
  (buffer lines, marker lines, the clock). Its outputs are effects (history
  dispatches, resolver calls, terminal writes).
- `TerminalHistory` (`history.dfy`): the history store and its
  most-recent-execution selector.
- `CommandBuilder`, `CommandBuilderSlice` and `RecipeTypes`
  (`command_builder*.dfy`): token recognition, tokens in use, colours, value
  preparation, argument filtering, the store set up for a recipe, and the
  token-value store.
- `MultiValue` (`multi_value.dfy`): the delimiter-joined multi-value input, with the delimiter optional as the token type declares it.
- `DisplayPath` (`display_path.dfy`): relative and absolute display of
  file-system paths.
- `Routes` (`routes.dfy`): the home page's recipe and doc lists.
- `RehypeShell` (`rehype_shell.dfy`): the Markdown `pre > code` rewrite, anywhere in the tree.
- `CommandUtils`, `Settings`, `PromptDisplay` and `UI`: `normalizeQuotes`,
  the settings store, the shown prompt, and the layout store.
- `Strings` (`strings.dfy`): the JavaScript string operations these modules
  share. These are trim, `indexOf`, `split`/`join` and the first-occurrence
  `replace`.

The template library, the path resolver, the file system, the clock and the
random ids are parameters or inputs of the model.

## Model

| member | source | states |
|---|---|---|
| Sanitize.OkIffValid | src-tauri/src/lib.rs:309-335 | a name is accepted exactly when its trimmed text is non-empty, at most 255 UTF-8 bytes, only ASCII letters, digits, `-`, `_`, `.`, and does not start with `.` or `-`; the accepted name is the trimmed text |
| Sanitize.ErrorIsFirstFailure | src-tauri/src/lib.rs:309-335 | the error reported is the first failing check in source order: empty, then too long, then the first invalid character (with that character), then leading dot or dash |
| Sanitize.OkNameIsInert | src-tauri/src/lib.rs:321-327 | an accepted name holds none of `;`, pipe, `&`, `$`, backquote, `<>*?`, slash, backslash, quotes, space, TAB or LF |
| Sanitize.TrimmedInputSameOutcome | src-tauri/src/lib.rs:310 | surrounding whitespace never changes the outcome |
| Sanitize.FirstInvalid | src-tauri/src/lib.rs:323-327 | the index found is the first character outside the allowed set, and none is found when all are allowed |
| Sanitize.AcceptedExamples | src-tauri/tests/security_tests.rs:4-13 | `git`, `node`, `python3`, `my-tool`, `my_tool`, `tool.exe` and `a1b2c3` are each accepted unchanged |
| Sanitize.InjectionExamples | src-tauri/tests/security_tests.rs:16-32 | shortened forms of the injection names (`git;rm`, `cmd` pipe `sh`, `tool$(id)`, and `tool` with `id` in backquotes) are refused for their first invalid character |
| Sanitize.BlankNamesAreEmpty | src-tauri/tests/security_tests.rs:37-40 | blank names are refused as empty |
| Sanitize.LeadingDotOrDashExamples | src-tauri/tests/security_tests.rs:43-44 | `.hidden` and `-flag` are refused for their first character |
| Sanitize.LengthLimit | src-tauri/tests/security_tests.rs:47-48 | a run of `n` letters is refused as too long exactly when `n` exceeds 255, and otherwise accepted |
| Sanitize.PaddedNameIsTrimmed | src-tauri/tests/security_tests.rs:51-53 | a name padded with spaces is accepted as its trimmed text |
| Sanitize.Utf8LenAtLeast | src-tauri/src/lib.rs:317-319 | the byte length used by the length check is never below the character count |
| Sanitize.Utf8LenAscii | src-tauri/src/lib.rs:317-319 | for ASCII text the byte length equals the character count |
| Ansi.StripAnsiClean | src/features/Terminal/ansi.ts:3-24 | text with no C0 control other than TAB and LF, no DEL and no CR is returned unchanged |
| Ansi.C1CsiKept | src/features/Terminal/ansi.ts:21 | the C1 control U+009B is outside the deleted class, so `"\u009B31m"` is returned unchanged |
| Ansi.StripAnsiIdempotent | src/features/Terminal/ansi.ts:3-24 | stripping twice is stripping once |
| Ansi.PassesClean | src/features/Terminal/ansi.ts:6-21 | after the passes no C0 control other than TAB and LF, no DEL and no CR is left |
| Ansi.NormalizeNewlinesNoCrLeft | src/features/Terminal/ansi.ts:6 | CRLF and lone CR both become LF, so no CR remains |
| Ansi.ScanKeeps | src/features/Terminal/ansi.ts:9-21 | a deletion pass only deletes: every kept character came from the input |
| Ansi.OscDeleted | src/features/Terminal/ansi.ts:9 | the OSC pass deletes a complete `ESC ] payload terminator` and leaves the text on either side as it would be alone |
| Ansi.CsiDeleted | src/features/Terminal/ansi.ts:15 | the CSI pass deletes a complete control sequence and leaves the text on either side as it would be alone |
| Ansi.StripAnsiDropsOsc | src/features/Terminal/ansi.ts:3-24 | a leading OSC sequence, payload included, disappears from the stripped output |
| TerminalDecoder.NextKeepsInv | src/features/Terminal/useTerminal.tsx:120-228 | the prompt-start marker and the timer exist only while the prompt is being collected, after every event |
| TerminalDecoder.RunKeepsInv | src/features/Terminal/useTerminal.tsx:120-470 | the same invariant holds after any stream of events |
| TerminalDecoder.PromptGuard | src/features/Terminal/useTerminal.tsx:158-228 | apart from the timer's fallback, the stored prompt only changes to a non-empty prompt that is not the `>>` continuation |
| TerminalDecoder.NextCaptureAccounting | src/features/Terminal/useTerminal.tsx:86-117 | one event resolves or rejects at most one captured caller, and a resolved one is the pending one, which is then cleared |
| TerminalDecoder.CaptureAccounting | src/features/Terminal/useTerminal.tsx:86-437 | over any stream, every captured call is rejected at once, resolved exactly once, or still pending |
| TerminalDecoder.RefusedCaptureIsInvisible | src/features/Terminal/useTerminal.tsx:88-92 | a captured call refused while another is pending changes nothing |
| TerminalDecoder.ResolvedIsRecorded | src/features/Terminal/useTerminal.tsx:315-383 | the result handed to a captured caller is the run recorded in history |
| TerminalDecoder.CapturedFalseResolves | src/features/Terminal/useTerminal.tsx:313-383 | a captured `false`, then `C` and `D;1` without an output range, sends `false` and a newline, resolves the caller with empty output and exit code 1, records a run with the stored prompt, the command read at `C`, empty output, exit code 1, the start time of `C` and the finish time of `D`, and leaves nothing pending |
| TerminalDecoder.CaptureTextRecoversCommand | src/features/Terminal/useTerminal.tsx:104-113 | the command is recovered from what is sent to the PTY, with or without the bracketed-paste markers |
| TerminalDecoder.OnRunCaptured | src/features/Terminal/useTerminal.tsx:86-117 | a call while one is pending is rejected with the fixed message; otherwise the capture flags are reset and the command is sent |
| TerminalDecoder.OnPromptStart | src/features/Terminal/useTerminal.tsx:123-157 | `A` starts collecting the prompt with an empty buffer, arms the timer, and takes a marker when one is available |
| TerminalDecoder.OnTimer | src/features/Terminal/useTerminal.tsx:143-157 | the timer stores the streamed buffer, trimmed at the end, and ends prompt collection only while the prompt is still being collected; it always disarms |
| TerminalDecoder.OnPromptEnd | src/features/Terminal/useTerminal.tsx:158-228 | `B` stops prompt collection, cancels the timer, releases the marker, and stores the marked prompt only when acceptable |
| TerminalDecoder.PromptFromMarkers | src/features/Terminal/useTerminal.tsx:174-193 | with both markers on existing lines, the prompt is the joined lines between them, trimmed at the end |
| TerminalDecoder.PromptLastLineShape | src/features/Terminal/useTerminal.tsx:201-204 | the remembered last prompt line has no newline and ends the prompt |
| TerminalDecoder.OnCommandStart | src/features/Terminal/useTerminal.tsx:232-312 | `C` starts output collection, resets the exit code, reads the command off the marked line, and reports a start only for a non-empty command |
| TerminalDecoder.CommandFromLine | src/features/Terminal/useTerminal.tsx:265-282 | with a non-empty known prompt line that occurs in the line, the command is the trimmed text after its first occurrence; otherwise it is the whole line, trimmed |
| TerminalDecoder.CommandAfterPrompt | src/features/Terminal/useTerminal.tsx:265-286 | on a line starting with the known prompt line, the command is the trimmed text after it |
| TerminalDecoder.CommandStartReadsTypedText | src/features/Terminal/useTerminal.tsx:249-312 | `C` after a one-line prompt reports the typed text, trimmed, as the started command, with that prompt |
| TerminalDecoder.OnCommandEnd | src/features/Terminal/useTerminal.tsx:313-437 | `D;<code>` stops collection, releases the marker, records the run with the marked output and exit code, and resolves the pending caller when it was collecting |
| TerminalDecoder.OutputFromMarkers | src/features/Terminal/useTerminal.tsx:334-351 | with both output markers on existing lines, the output is exactly the lines after the start marker up to the end marker |
| TerminalDecoder.ExitCode | src/features/Terminal/useTerminal.tsx:324 | a decimal digit string gives its value, anything else 0 |
| TerminalDecoder.ExitCodeExamples | src/features/Terminal/useTerminal.tsx:389 | `D;1` reports 1 and a non-number reports 0 |
| TerminalDecoder.OnOsc133 | src/features/Terminal/useTerminal.tsx:120-442 | a payload that is none of `A`, `B`, `C`, `D;` changes nothing |
| TerminalDecoder.Osc133Dispatch | src/features/Terminal/useTerminal.tsx:232-313 | `C` and `D;<code>` reach their handlers |
| TerminalDecoder.OnOsc7 | src/features/Terminal/useTerminal.tsx:445-452 | the path after `file://host` becomes the cwd when it is non-empty, and nothing else changes |
| TerminalDecoder.Osc7StripsHost | src/features/Terminal/useTerminal.tsx:447 | a `file://` URL with a non-empty host leaves exactly the path after it |
| TerminalDecoder.Osc7EmptyHost | src/features/Terminal/useTerminal.tsx:447 | with an empty host the pattern does not match and the payload is kept whole |
| TerminalDecoder.OnData | src/features/Terminal/useTerminal.tsx:455-470 | a chunk feeds the prompt buffer only while the prompt, and not output, is being collected; every non-empty chunk is written to the terminal |
| TerminalDecoder.CollectLinesPresent | src/features/Terminal/useTerminal.tsx:181-188 | when every line of the range exists, all of them are collected in order |
| TerminalDecoder.LastPartShape | src/features/Terminal/useTerminal.tsx:201-204 | the last part of the split is the text after the last newline |
| TerminalHistory.RecordRun | src/features/Terminal/terminalHistorySlice.ts:37-46 | the entry is appended after the unchanged earlier ones; the running commands become the order-keeping filter `WithoutCommand` by the normalised text, so exactly the matching ones are retired; the prompt is remembered |
| TerminalHistory.StartCommand | src/features/Terminal/terminalHistorySlice.ts:47-58 | the running commands become the order-keeping filter `WithoutCommand` by the new command's normalised text followed by the new command, so no earlier one has its text and nothing else is added; entries and prompt are unchanged |
| TerminalHistory.StartCommandKeepsUnique | src/features/Terminal/terminalHistorySlice.ts:47-58 | no two running commands share a normalised text, before and after a start |
| TerminalHistory.RecordRunKeepsUnique | src/features/Terminal/terminalHistorySlice.ts:37-46 | recording a run keeps the running commands pairwise distinct |
| TerminalHistory.DismissEntry | src/features/Terminal/terminalHistorySlice.ts:62-66 | the entries become the order-keeping filter `WithoutId`, so exactly the entries with another id remain, in order, and nothing else changes |
| TerminalHistory.WithoutIdConcat | src/features/Terminal/terminalHistorySlice.ts:63-65 | the entry filter distributes over concatenation |
| TerminalHistory.WithoutIdSnoc | src/features/Terminal/terminalHistorySlice.ts:63-65 | read from the front, the entry filter keeps each entry exactly when its id differs, in the original order |
| TerminalHistory.WithoutCommandConcat | src/features/Terminal/terminalHistorySlice.ts:41-43 | the running-command filter distributes over concatenation |
| TerminalHistory.WithoutCommandSnoc | src/features/Terminal/terminalHistorySlice.ts:41-43 | read from the front, the running-command filter keeps each command exactly when its normalised text differs from the key, in the original order |
| TerminalHistory.ClearHistory | src/features/Terminal/terminalHistorySlice.ts:67-71 | entries, running commands and prompt are all emptied |
| TerminalHistory.NormalizeCommandNormal | src/features/Terminal/terminalHistorySlice.ts:76-78 | the comparison key has no whitespace at the ends, only single spaces inside, and the command's non-whitespace characters in order; `CollapseWordBreak` and `TrimPadded` fix where the single spaces fall |
| TerminalHistory.NormalizeIdempotent | src/features/Terminal/terminalHistorySlice.ts:76-78 | normalising twice is normalising once |
| TerminalHistory.CollapseSpacesShape | src/features/Terminal/terminalHistorySlice.ts:77 | the collapsed text is empty only for empty input, keeps a non-whitespace first and last character, has only single plain spaces, and keeps the non-whitespace characters in order; `CollapseWordBreak` states that each run becomes exactly one space |
| TerminalHistory.CollapseRun | src/features/Terminal/terminalHistorySlice.ts:77 | a whitespace run before a non-whitespace character, or before the end, becomes one space |
| TerminalHistory.CollapseConcat | src/features/Terminal/terminalHistorySlice.ts:77 | collapsing distributes over a split just after a non-whitespace character |
| TerminalHistory.CollapseWordBreak | src/features/Terminal/terminalHistorySlice.ts:77 | between two words, a whitespace run of any length becomes exactly one space and both words are collapsed independently |
| TerminalHistory.NormalizeExample | src/features/Terminal/terminalHistorySlice.ts:76-78 | the key of `"  ls   -la  "` is `"ls -la"` |
| TerminalHistory.SelectorMeaning | src/features/Terminal/terminalHistorySlice.ts:102-163 | a running result exists exactly when some running command matches; it reports the first matching one's id, its start time as timestamp, `now` minus that as duration, exit code -1 and empty output. There is no result exactly when nothing running or finished matches. Otherwise the result is a matching entry with the greatest finish time and no earlier matching entry with an equal one, reporting its id, output, exit code, finish time and duration |
| CommandBuilder.TokenOfPlaceholder | src/features/CommandBuilder/CommandBuilder.tsx:18 | an argument with `{{name}}` after brace-free text carries that token |
| CommandBuilder.TokenShape | src/features/CommandBuilder/CommandBuilder.tsx:18 | a recognised token name is non-empty, has no `}`, and occurs in braces in the argument |
| CommandBuilder.NoBraceNoToken | src/features/CommandBuilder/CommandBuilder.tsx:18 | an argument without `{{` carries no token |
| CommandBuilder.SingleBraceExample | src/features/CommandBuilder/CommandBuilder.tsx:18 | `{x}` and `a{b}{c` carry no token: the pattern needs doubled braces |
| CommandBuilder.ArgsToTokens | src/features/CommandBuilder/CommandBuilder.tsx:74-83 | an index is mapped exactly when its argument carries a token |
| CommandBuilder.TokensInUseMeaning | src/features/CommandBuilder/CommandBuilder.tsx:85-88 | the tokens in use are the mapped tokens in ascending argument order |
| CommandBuilder.InUseIffSomeArg | src/features/CommandBuilder/CommandBuilder.tsx:85-88 | a name is in use exactly when some argument carries it |
| CommandBuilder.ColorMapMeaning | src/features/CommandBuilder/CommandBuilder.tsx:91-97 | a token takes the colour of its last position modulo the six colours |
| CommandBuilder.ColorsFromPalette | src/features/CommandBuilder/CommandBuilder.tsx:53-62 | every colour comes from the palette |
| CommandBuilder.PrepareValuesMeaning | src/features/CommandBuilder/CommandBuilder.tsx:109-127 | the computation stops exactly when a path token holds a number; otherwise the values cover the stored, defined tokens and non-path values pass through |
| CommandBuilder.PathValueMeaning | src/features/CommandBuilder/CommandBuilder.tsx:116-125 | a path is made relative when asked and non-empty, and quoted exactly when it contains a space |
| CommandBuilder.FilterArgsMembers | src/features/CommandBuilder/CommandBuilder.tsx:129-137 | the kept arguments are the arguments without a token, or whose token is enabled with a truthy value |
| CommandBuilder.DroppedArgs | src/features/CommandBuilder/CommandBuilder.tsx:129-137 | an argument whose token is missing, disabled, or empty or zero is dropped |
| CommandBuilder.FilterArgsIdempotent | src/features/CommandBuilder/CommandBuilder.tsx:129-137 | filtering the kept arguments again keeps them all |
| CommandBuilder.FormattedCommandMeaning | src/features/CommandBuilder/CommandBuilder.tsx:108-145 | no command when the library fails; otherwise the library's rendering of the base and kept arguments joined by spaces; the computation stops exactly when a path token holds a number |
| CommandBuilder.NoTokensWholeTemplate | src/features/CommandBuilder/CommandBuilder.tsx:129-140 | without tokens the whole template reaches the library |
| CommandBuilder.InitForRecipeMeaning | src/features/CommandBuilder/CommandBuilder.tsx:155-161 | the store is set up exactly when every token in use is defined, with one entry per token in use holding its default value and its `required` flag |
| CommandBuilder.AnyPathTokenMeaning | src/features/CommandBuilder/CommandBuilder.tsx:147-152 | with every token defined, the answer is whether one is an `open` or `save` token; the search stops at an undefined token unless a path token came first |
| CommandBuilder.HasPathTokensIffPathInUse | src/features/CommandBuilder/CommandBuilder.tsx:147-152 | the relative-path switch is offered exactly when some argument carries a path token |
| CommandBuilderSlice.InitMeaning | src/features/CommandBuilder/commandBuilderSlice.ts:31-44 | the map is replaced: each definition's entry holds its default value or empty text and is enabled exactly when required, whatever was stored before |
| CommandBuilderSlice.SettersTouchOneField | src/features/CommandBuilder/commandBuilderSlice.ts:45-70 | setting a value or a flag changes only that field of that token |
| CommandBuilderSlice.SettersKeepKeys | src/features/CommandBuilder/commandBuilderSlice.ts:45-70 | the setters add only the named token, remove none, and leave the switch alone |
| CommandBuilderSlice.LastValueWins | src/features/CommandBuilder/commandBuilderSlice.ts:45-57 | of two values set for a token, the second stays |
| CommandBuilderSlice.DifferentTokensCommute | src/features/CommandBuilder/commandBuilderSlice.ts:45-57 | values set for different tokens commute |
| CommandBuilderSlice.SetUseRelativePaths | src/features/CommandBuilder/commandBuilderSlice.ts:71-73 | only the switch changes |
| MultiValue.EntriesShape | src/features/CommandBuilder/TokenInputs/MultiValueInput.tsx:45 | shown entries hold no delimiter and are trimmed |
| MultiValue.AddRoundTrip | src/features/CommandBuilder/TokenInputs/MultiValueInput.tsx:53-57 | adding an item appends its trimmed text to the entries and keeps the earlier ones |
| MultiValue.RemoveRoundTrip | src/features/CommandBuilder/TokenInputs/MultiValueInput.tsx:48-51 | removing leaves the other entries in order |
| MultiValue.RemovePastEndNormalises | src/features/CommandBuilder/TokenInputs/MultiValueInput.tsx:45-51 | a removal past the end only normalises the value to its entries joined by the delimiter |
| MultiValue.NormaliseExample | src/features/CommandBuilder/TokenInputs/MultiValueInput.tsx:45-51 | spaces around the delimiter disappear on the next edit |
| MultiValue.AddToEmptyAsWritten | src/features/CommandBuilder/TokenInputs/MultiValueInput.tsx:53-57 | as written, the first item added to an empty value is stored behind a delimiter |
| MultiValue.RemoveOnlyAsWritten | src/features/CommandBuilder/TokenInputs/MultiValueInput.tsx:48-51 | as written, removing the only entry leaves one blank entry |
| MultiValue.AddToEmptyFixed | src/features/CommandBuilder/TokenInputs/MultiValueInput.tsx:53-57 | with an empty value read as no entries, the first item is the whole value |
| MultiValue.AddFixedRoundTrip | src/features/CommandBuilder/TokenInputs/MultiValueInput.tsx:53-57 | with that reading, adding a non-empty item appends it, also to an empty value |
| MultiValue.RemoveFixedRoundTrip | src/features/CommandBuilder/TokenInputs/MultiValueInput.tsx:48-51 | with that reading, removing leaves exactly the other entries, also when it was the last |
| MultiValue.MissingDelimiter | src/features/CommandBuilder/TokenInputs/MultiValueInput.tsx:45-57 | without a delimiter the trimmed value is the only entry, adding joins it and the item with `,` into again a single entry, and removing entry 0 empties the value while any other index stores it trimmed |
| DisplayPath.SegmentsOfJoin | src/features/Terminal/useDisplayPath.ts:6-8 | splitting a slash-joined list of plain names gives those names back |
| DisplayPath.RepeatedSlashIgnored | src/features/Terminal/useDisplayPath.ts:6-8 | repeated slashes do not add segments |
| DisplayPath.RelativeDot | src/features/Terminal/useDisplayPath.ts:24-36 | the relative path is `.` exactly when target and cwd have the same segments |
| DisplayPath.RelativeUnder | src/features/Terminal/useDisplayPath.ts:24-34 | a target under the cwd is shown as `./` and its remaining segments |
| DisplayPath.RelativeUp | src/features/Terminal/useDisplayPath.ts:17-30 | otherwise one `..` per cwd segment past the common prefix, then the target's remaining segments |
| DisplayPath.RelativeRoundTrip | src/features/Terminal/useDisplayPath.ts:10-37 | resolving the relative path from the cwd gives back the target's segments |
| DisplayPath.RelativeStartsWithDot | src/features/Terminal/useDisplayPath.ts:27-36 | a relative path starts with `.`, so it is never taken for an absolute one |
| DisplayPath.EditShownPathRoundTrip | src/features/Terminal/useDisplayPath.ts:58-74 | with relative paths on, handing back the shown path of an absolute file reaches the same file |
| DisplayPath.RelativeChildExample | src/features/Terminal/useDisplayPath.test.ts:16-19 | `/Users/test/test` from `/Users/test` is shown as `./test` |
| DisplayPath.RelativeSiblingExample | src/features/Terminal/useDisplayPath.test.ts:26-31 | a sibling of the cwd is shown starting with `..` |
| Routes.RecipesListed | src/routes/index.tsx:34-52 | only files are read, and a recipe is listed exactly when it is not hidden |
| Routes.ShownMeaning | src/routes/index.tsx:71-87 | a doc without a platform, or on an unknown platform, is shown; a `linux` doc is shown on the six Unix-like platforms; another doc only on its own platform |
| Routes.GetDocsOrder | src/routes/index.tsx:88-93 | when every shown file is numbered (directories and docs for another platform may have any name), the docs are a permutation of the shown ones, sorted by their `parseInt` key, with equal keys in listing order |
| Routes.GetDocsMembers | src/routes/index.tsx:54-93 | under the same condition, a doc is listed exactly when it comes from a file shown on the current platform |
| Routes.KeyIsLeadingNumber | src/routes/index.tsx:90-91 | for a name that starts with a digit: after a `0x` or `0X` prefix the key is the hexadecimal number that follows, and the name has a number only when digits follow; otherwise the key is the decimal number the name starts with |
| Routes.HexKeyExample | src/routes/index.tsx:90-91 | `0x10-a.mdx` has key 16 |
| Routes.HexNaNExample | src/routes/index.tsx:90-91 | `0x-a.mdx` has no number (`parseInt` gives `NaN`) |
| Routes.UnnumberedSkipped | src/routes/index.tsx:54-93 | on Linux, a listing with the directory `images`, the Windows doc `windows-notes.mdx` and `1-intro.mdx` meets the condition and yields only `1-intro.mdx` |
| RehypeShell.RewriteShape | src/utils/rehypeShellPlugin.ts:11-66 | only a `pre` with one `code` child that has content is replaced, by a `CodeBlock` with the language, the marker flag and the cleaned code; other nodes keep their tag and class |
| RehypeShell.LanguageMeaning | src/utils/rehypeShellPlugin.ts:22-32 | the language is the first `language-` class without its prefix, or `text` |
| RehypeShell.CleanCodeMeaning | src/utils/rehypeShellPlugin.ts:39-44 | the first marker is removed and the rest trimmed exactly when the code contains the marker |
| RehypeShell.TransformLeavesNothing | src/utils/rehypeShellPlugin.ts:9-68 | after the plugin, nothing is left to rewrite anywhere in the tree, under elements and under non-element parents such as MDX JSX elements alike |
| RehypeShell.TransformIdempotent | src/utils/rehypeShellPlugin.ts:9-68 | running the plugin twice is running it once, on any tree including non-element parents |
| RehypeShell.NestedInParentExample | src/utils/rehypeShellPlugin.ts:9-68 | a marked `bash` block inside a non-element parent becomes an interactive `CodeBlock` in place, and its sibling text is kept |
| CommandUtils.AsWrittenIsIdentity | src/components/shared/commandUtils.ts:5-9 | as written, the function returns every text unchanged |
| CommandUtils.AsWrittenKeepsSmartQuotes | src/components/shared/commandUtils.ts:5-9 | as written, `echo “hi”` comes back unchanged, while the intended classes give `echo "hi"` |
| CommandUtils.NormalizeQuotesMeaning | src/components/shared/commandUtils.ts:5-9 | with the intended classes, typographic double quotes become `"`, single ones `'`, and nothing else changes |
| CommandUtils.NormalizeQuotesIdempotent | src/components/shared/commandUtils.ts:5-9 | normalising twice is normalising once |
| Settings.Defaults | src/features/Settings/settingsSlice.ts:17-27 | the defaults are the local Ollama server, `qwen3:4b`, a 30 s timeout, temperature 0.3 and 300 tokens |
| Settings.UpdateMeaning | src/features/Settings/settingsSlice.ts:37-44 | each field is the patch's when present, otherwise the existing (or default) one |
| Settings.UpdatesCompose | src/features/Settings/settingsSlice.ts:37-44 | two updates are one update with the merged patch |
| Settings.UpdateIdempotent | src/features/Settings/settingsSlice.ts:37-44 | the same update twice is the update once |
| Settings.ReplaceForgets | src/features/Settings/settingsSlice.ts:34-36 | after a replace the previous state is forgotten |
| Settings.OptionsReplacedWhole | src/features/Settings/settingsSlice.ts:37-44 | a new `options` record replaces both its fields |
| PromptDisplay.DisplayPromptMeaning | src/components/PromptDisplay.tsx:15-23 | the shown prompt is the trimmed latest prompt if not blank, else the last entry's trimmed prompt if not blank, else the fallback |
| PromptDisplay.ShownIsTrimmedOrFallback | src/components/PromptDisplay.tsx:23 | what is shown is the fallback or a trimmed non-blank text |
| PromptDisplay.InitialShowsDollar | src/components/PromptDisplay.tsx:11 | an empty history shows `$` |
| PromptDisplay.RecordedPromptShown | src/components/PromptDisplay.tsx:15-23 | after a run is recorded with a non-blank prompt, that prompt, trimmed, is shown |
| UI.SettersCommute | src/features/UI/uiSlice.ts:22-30 | setters of different fields commute, and the last setting of a field wins |
| UI.SettersReachAll | src/features/UI/uiSlice.ts:22-30 | setting all three fields reaches any state from any state |
| Strings.TrimShape | src/features/Terminal/terminalHistorySlice.ts:77 | the trimmed text is the infix left after removing a whitespace-only prefix and a whitespace-only suffix, and it has no whitespace at either end |
| Strings.TrimPadded | src/features/Terminal/terminalHistorySlice.ts:77 | trimming a text padded with whitespace on both sides returns the text itself when it has no whitespace at its ends |
| Strings.JoinSplit | src/features/CommandBuilder/TokenInputs/MultiValueInput.tsx:45 | joining the parts of a split with the same separator restores the text |
| Strings.IndexOfSpec | src/utils/rehypeShellPlugin.ts:41-43 | `indexOf` reports the first occurrence, or none when there is none |

## Left out

- File system, PTY, network, clipboard, timers and React rendering are left out. The decoder receives the buffer lines, marker positions, clock and ids as an environment, and its effects are data.
- Sanitize.SanitizeBinaryName: letters and digits are ASCII only. Rust's `char::is_alphanumeric` also accepts non-ASCII letters and digits. The UTF-8 byte length is modelled for every character.
- Whitespace is the ASCII whitespace set (space, TAB, LF, VT, FF, CR). JavaScript's `trim` and `\s` also cover Unicode spaces.
- JavaScript numbers are integers. Timestamps are integer milliseconds, and date parsing is not modelled. Exit codes are `Number(code) || 0` over decimal digit strings only; signs, whitespace and exponents are left out.
- Ids from `nanoid` and the resolver ids of captured runs are inputs.
- The path resolver of `useDisplayPath`, `resolvePath` from the `@einheit/path-resolve` library (called synchronously at src/features/Terminal/useDisplayPath.ts:46), is a parameter. `DisplayPath.EditShownPathRoundTrip` assumes it walks relative segments as `Resolve` does.
- The template library behind `formattedCommand` is a parameter that renders or fails.
- Recipe ordering by `localeCompare` is not modelled; `Routes.RecipesListed` speaks of membership only.
- `parseInt` on doc names is modelled for names that start with a digit, including the `0x`/`0X` hexadecimal prefix. Names it reads as `NaN` (those not starting with a digit, or `0x` without hexadecimal digits) are not modelled when they are shown, because a `NaN` comparison leaves the sort order to the engine; directories and docs for another platform may have any name. Leading whitespace and signs, which `parseInt` also accepts, are left out.
- A path token holding a number throws in the component. With relative paths on it fails at `path.split("/")` inside `toRelativePath` (src/features/Terminal/useDisplayPath.ts:7); otherwise it fails at `val.includes(" ")` (src/features/CommandBuilder/CommandBuilder.tsx:122). The model reports both as `Throws`.
- A token in use that the recipe does not define throws in the token-initialisation effect and in `hasTokensThatArePaths`; the model reports `None`.
- A number added through the multi-value input is taken as its decimal text.
- `className` entries that are not strings are not modelled.
- Optional fields that are present but `undefined` in a settings patch are not modelled.
- C1 controls (U+0080 to U+009F, such as the 8-bit CSI U+009B) are outside the class the last pass of `stripAnsi` deletes (src/features/Terminal/ansi.ts:21), so they and the text they introduce pass through; `Ansi.C1CsiKept` shows one.
- Scrollback limits of the terminal buffer are not modelled.
- `lastCommandClean` and `currentPromptClean` (useTerminal.tsx:518-532) are not modelled separately. They are `stripAnsi` of the decoder's outputs, whose properties `Ansi` states.
- The retry of `C` fires when the marked line is non-empty, does not contain the last line of the stored prompt, and that prompt line is non-empty. It registers a second marker at the same offset -1 from the unmoved cursor, so the model reads the same line again as one read.
- `CommandTemplateDisplay` and the rest of the component tree are rendering only.

## Findings

| source | as written | input that shows it | evidently intended | confidence | as-written member | corrected member |
|---|---|---|---|---|---|---|
| src/components/shared/commandUtils.ts:7-8 | the character classes `[""]` and `['']` hold only ASCII quotes, so `normalizeQuotes` returns every text unchanged | `echo “hi”` comes back unchanged instead of as `echo "hi"` | typographic quotes (U+201C, U+201D, U+2018, U+2019) become ASCII quotes | not executed | CommandUtils.AsWrittenKeepsSmartQuotes | CommandUtils.NormalizeQuotesMeaning |
| src/features/CommandBuilder/TokenInputs/MultiValueInput.tsx:45-57 | an empty stored value splits into one blank entry, so the first added item is stored as `,x` | value `""`, delimiter `,`, add `x` | the first item added to an empty value is the whole value `x` | not executed | MultiValue.AddToEmptyAsWritten | MultiValue.AddFixedRoundTrip |

=== FILE: ansi.dfy ===
/** The escape-sequence stripper of src/features/Terminal/ansi.ts.

    `stripAnsi` rewrites line endings and then makes five deletion passes,
    each a global regular-expression replacement. A global replacement
    scans left to right: where the pattern matches it deletes the match
    and resumes after it, elsewhere it keeps one character and moves on.
    Every pattern here is deterministic (its repeated classes exclude what
    follows them), so a match is a function of the remaining text and
    `MatchLen` computes it directly. */
module Ansi {
  import opened Strings

  const ESC: char := '\U{1B}'
  const BEL: char := '\U{07}'

  /** The characters the final pass deletes: C0 controls other than TAB, LF
      and CR, plus DEL. */
  predicate IsStrippedControl(c: char) {
    c <= '\U{08}' || c == '\U{0B}' || c == '\U{0C}' || ('\U{0E}' <= c <= '\U{1F}') || c == '\U{7F}'
  }

  /** A character that survives stripping untouched: anything but a C0
      control other than TAB and LF, DEL or CR. C1 controls (U+0080 to
      U+009F) are not in the deleted class and survive. */
  predicate IsCleanChar(c: char) {
    !IsStrippedControl(c) && c != '\r'
  }

  predicate IsClean(s: string) {
    forall i :: 0 <= i < |s| ==> IsCleanChar(s[i])
  }

  /** First replacement: `\r\n` and a lone `\r` both become `\n`. */
  function NormalizeNewlines(s: string): (r: string)
    decreases |s|
    ensures |r| <= |s|
  {
    if s == [] then []
    else if s[0] == '\r' then
      if |s| > 1 && s[1] == '\n' then "\n" + NormalizeNewlines(s[2..])
      else "\n" + NormalizeNewlines(s[1..])
    else [s[0]] + NormalizeNewlines(s[1..])
  }

  /** The five deletion passes, in the order they run. */
  datatype Pass =
    | Osc            // ESC ] ... (BEL | ESC \)
    | StringControl  // ESC P, ESC X, ESC ^, ESC _ ... (BEL | ESC \)
    | Csi            // ESC [ parameters intermediates final
    | Escape         // ESC intermediates final
    | Control        // one stripped control character

  predicate IsStringIntroducer(c: char) {
    c == 'P' || c == 'X' || c == '_' || c == '^'
  }

  predicate InRange(c: char, lo: char, hi: char) {
    lo <= c <= hi
  }

  /** The first index at or after `k` whose character is outside `lo..hi`
      (greedy `[lo-hi]*`). */
  function SkipWhile(s: string, k: nat, lo: char, hi: char): (j: nat)
    requires k <= |s|
    decreases |s| - k
    ensures k <= j <= |s|
    ensures forall i :: k <= i < j ==> InRange(s[i], lo, hi)
    ensures j == |s| || !InRange(s[j], lo, hi)
  {
    if k < |s| && InRange(s[k], lo, hi) then SkipWhile(s, k + 1, lo, hi) else k
  }

  /** `[^BEL ESC]*(BEL | ESC \)` from index `k`: the end of the match, if any. */
  function TerminatedAt(s: string, k: nat): (r: Option<nat>)
    decreases |s| - k
    ensures r.Some? ==> k < r.value <= |s|
  {
    if k >= |s| then None
    else if s[k] == BEL then Some(k + 1)
    else if s[k] == ESC then
      if k + 1 < |s| && s[k + 1] == '\\' then Some(k + 2) else None
    else TerminatedAt(s, k + 1)
  }

  /** `ESC ] [^BEL ESC]* (BEL | ESC \)` at the start of `s`. */
  function OscLen(s: string): (r: Option<nat>)
    ensures r.Some? ==> 2 < r.value <= |s| && s[0] == ESC
  {
    if |s| >= 2 && s[0] == ESC && s[1] == ']' then TerminatedAt(s, 2) else None
  }

  /** `ESC [PX^_] [^BEL ESC]* (BEL | ESC \)` at the start of `s`. */
  function StringControlLen(s: string): (r: Option<nat>)
    ensures r.Some? ==> 2 < r.value <= |s| && s[0] == ESC
  {
    if |s| >= 2 && s[0] == ESC && IsStringIntroducer(s[1]) then TerminatedAt(s, 2) else None
  }

  /** `ESC [ [0-?]* [ -/]* [@-~]` at the start of `s`. */
  function CsiLen(s: string): (r: Option<nat>)
    ensures r.Some? ==> 2 < r.value <= |s| && s[0] == ESC
  {
    if |s| >= 2 && s[0] == ESC && s[1] == '[' then
      var q := SkipWhile(s, SkipWhile(s, 2, '0', '?'), ' ', '/');
      if q < |s| && InRange(s[q], '@', '~') then Some(q + 1) else None
    else None
  }

  /** `ESC [ -/]* [0-~]` at the start of `s`. */
  function EscapeLen(s: string): (r: Option<nat>)
    ensures r.Some? ==> 1 < r.value <= |s| && s[0] == ESC
  {
    if |s| >= 1 && s[0] == ESC then
      var q := SkipWhile(s, 1, ' ', '/');
      if q < |s| && InRange(s[q], '0', '~') then Some(q + 1) else None
    else None
  }

  /** The length of the match of pass `p`'s pattern at the start of `s`. */
  function MatchLen(p: Pass, s: string): (r: Option<nat>)
    ensures r.Some? ==> 0 < r.value <= |s|
    ensures r.Some? && p != Control ==> s[0] == ESC
    ensures r.Some? && p == Control ==> r.value == 1 && IsStrippedControl(s[0])
    ensures r.None? && p == Control && s != [] ==> !IsStrippedControl(s[0])
  {
    match p
    case Osc => OscLen(s)
    case StringControl => StringControlLen(s)
    case Csi => CsiLen(s)
    case Escape => EscapeLen(s)
    case Control => if |s| >= 1 && IsStrippedControl(s[0]) then Some(1) else None
  }

  /** One global deletion pass of pattern `p` over `s`. */
  function Scan(p: Pass, s: string): (r: string)
    decreases |s|
    ensures |r| <= |s|
  {
    if s == [] then []
    else match MatchLen(p, s)
      case Some(n) => Scan(p, s[n..])
      case None => [s[0]] + Scan(p, s[1..])
  }

  /** The five passes after line-ending normalisation. */
  function Passes(s: string): string {
    Scan(Control, Scan(Escape, Scan(Csi, Scan(StringControl, Scan(Osc, NormalizeNewlines(s))))))
  }

  /** `stripAnsi`: empty input gives the empty string; otherwise the passes. */
  function StripAnsi(s: string): (r: string)
    ensures s == [] ==> r == []
    ensures |r| <= |s|
    ensures IsClean(r)
  {
    if s == [] then "" else
      PassesClean(s);
      Passes(s)
  }

  /** Line-ending normalisation leaves no CR. */
  lemma {:induction false} NormalizeNewlinesNoCrLeft(s: string)
    ensures NoChar(NormalizeNewlines(s), '\r')
    decreases |s|
  {
    if s != [] {
      if s[0] == '\r' && |s| > 1 && s[1] == '\n' {
        NormalizeNewlinesNoCrLeft(s[2..]);
      } else {
        NormalizeNewlinesNoCrLeft(s[1..]);
      }
    }
  }

  /** A pass only deletes: every character it keeps was in its input. */
  lemma {:induction false} ScanKeeps(p: Pass, s: string)
    ensures forall c :: c in Scan(p, s) ==> c in s
    decreases |s|
  {
    if s != [] {
      match MatchLen(p, s)
      case Some(n) =>
        ScanKeeps(p, s[n..]);
      case None =>
        ScanKeeps(p, s[1..]);
    }
  }

  /** The control pass leaves no stripped control character. */
  lemma {:induction false} ControlScanClean(s: string)
    ensures forall i :: 0 <= i < |Scan(Control, s)| ==> !IsStrippedControl(Scan(Control, s)[i])
    decreases |s|
  {
    if s != [] {
      match MatchLen(Control, s)
      case Some(n) =>
        ControlScanClean(s[n..]);
      case None =>
        ControlScanClean(s[1..]);
        var r := Scan(Control, s[1..]);
        assert Scan(Control, s) == [s[0]] + r;
        assert !IsStrippedControl(s[0]);
    }
  }

  /** The output of the passes holds only clean characters. */
  lemma PassesClean(s: string)
    ensures IsClean(Passes(s))
  {
    var n := NormalizeNewlines(s);
    NormalizeNewlinesNoCrLeft(s);
    var a := Scan(Osc, n);
    var b := Scan(StringControl, a);
    var c := Scan(Csi, b);
    var d := Scan(Escape, c);
    var r := Scan(Control, d);
    ScanKeeps(Osc, n);
    ScanKeeps(StringControl, a);
    ScanKeeps(Csi, b);
    ScanKeeps(Escape, c);
    ScanKeeps(Control, d);
    ControlScanClean(d);
    forall i | 0 <= i < |r|
      ensures IsCleanChar(r[i])
    {
      assert r[i] in r;
    }
  }

  // ---------------------------------------------------------------------
  // Strings without escape or control characters pass through.

  lemma {:induction false} NormalizeNewlinesNoCr(s: string)
    requires NoChar(s, '\r')
    ensures NormalizeNewlines(s) == s
    decreases |s|
  {
    if s != [] {
      NormalizeNewlinesNoCr(s[1..]);
    }
  }

  /** A pass that matches nowhere in `s` leaves it unchanged. */
  lemma {:induction false} ScanNoMatch(p: Pass, s: string)
    requires forall i :: 0 <= i < |s| ==> MatchLen(p, s[i..]).None?
    ensures Scan(p, s) == s
    decreases |s|
  {
    if s != [] {
      assert MatchLen(p, s[0..]).None? && s[0..] == s;
      forall i | 0 <= i < |s[1..]|
        ensures MatchLen(p, s[1..][i..]).None?
      {
        assert s[1..][i..] == s[i + 1..];
      }
      ScanNoMatch(p, s[1..]);
    }
  }

  lemma ScanClean(p: Pass, s: string)
    requires IsClean(s)
    ensures Scan(p, s) == s
  {
    forall i | 0 <= i < |s|
      ensures MatchLen(p, s[i..]).None?
    {
      assert s[i..][0] == s[i];
    }
    ScanNoMatch(p, s);
  }

  /** A string with no C0 control other than TAB and LF, no DEL and no CR
      is returned unchanged. */
  lemma StripAnsiClean(s: string)
    requires IsClean(s)
    ensures StripAnsi(s) == s
  {
    NormalizeNewlinesNoCr(s);
    ScanClean(Osc, s);
    ScanClean(StringControl, s);
    ScanClean(Csi, s);
    ScanClean(Escape, s);
    ScanClean(Control, s);
  }

  /** The 8-bit CSI U+009B is a C1 control, which no pass deletes: a
      sequence introduced by it is kept whole. */
  lemma C1CsiKept(s: string)
    requires s == "\U{9B}31m"
    ensures StripAnsi(s) == s
  {
    assert IsClean(s) by {
      assert forall i :: 0 <= i < |s| ==> s[i] in {'\U{9B}', '3', '1', 'm'};
    }
    StripAnsiClean(s);
  }

  /** Stripping twice is stripping once. */
  lemma StripAnsiIdempotent(s: string)
    ensures StripAnsi(StripAnsi(s)) == StripAnsi(s)
  {
    StripAnsiClean(StripAnsi(s));
  }

  // ---------------------------------------------------------------------
  // Complete sequences are deleted together with their payload.

  /** A pass distributes over `a + b` when no match attempt inside `a` can
      see past the end of `a`. */
  lemma {:induction false} ScanConcat(p: Pass, a: string, b: string)
    requires forall i :: 0 <= i < |a| ==> MatchLen(p, a[i..] + b) == MatchLen(p, a[i..])
    ensures Scan(p, a + b) == Scan(p, a) + Scan(p, b)
    decreases |a|
  {
    if a == [] {
      assert a + b == b;
    } else {
      var s := a + b;
      assert a[0..] == a;
      assert MatchLen(p, s) == MatchLen(p, a);
      var n: nat := if MatchLen(p, a).Some? then MatchLen(p, a).value else 1;
      ScanConcatTail(p, a, b, n);
      ScanUnfold(p, s);
      ScanUnfold(p, a);
      DropConcat(a, b, n);
      if MatchLen(p, a).None? {
        assert s[0] == a[0];
        ConsAssoc(a[0], Scan(p, a[1..]), Scan(p, b));
      }
    }
  }

  lemma ConcatAssoc(x: string, y: string, z: string)
    ensures (x + y) + z == x + (y + z)
  {
  }

  lemma ConsAssoc(x: char, u: string, v: string)
    ensures [x] + (u + v) == ([x] + u) + v
  {
  }

  lemma DropConcat(a: string, b: string, n: nat)
    requires n <= |a|
    ensures (a + b)[n..] == a[n..] + b
  {
  }

  /** One step of a pass. */
  lemma ScanUnfold(p: Pass, s: string)
    requires s != []
    ensures MatchLen(p, s).Some? ==> Scan(p, s) == Scan(p, s[MatchLen(p, s).value..])
    ensures MatchLen(p, s).None? ==> Scan(p, s) == [s[0]] + Scan(p, s[1..])
  {
  }

  lemma {:induction false} ScanConcatTail(p: Pass, a: string, b: string, n: nat)
    requires 0 < n <= |a|
    requires forall i :: 0 <= i < |a| ==> MatchLen(p, a[i..] + b) == MatchLen(p, a[i..])
    ensures Scan(p, a[n..] + b) == Scan(p, a[n..]) + Scan(p, b)
    decreases |a|, 0
  {
    var t := a[n..];
    forall i | 0 <= i < |t|
      ensures MatchLen(p, t[i..] + b) == MatchLen(p, t[i..])
    {
      assert t[i..] == a[n + i..];
    }
    ScanConcat(p, t, b);
  }

  lemma {:induction false} TerminatedAtExtend(t: string, b: string, k: nat)
    requires k <= |t|
    requires b != [] && b[0] == ESC && (|b| >= 2 ==> b[1] != '\\')
    ensures TerminatedAt(t + b, k) == TerminatedAt(t, k)
    decreases |t| - k
  {
    if k < |t| && t[k] != BEL && t[k] != ESC {
      TerminatedAtExtend(t, b, k + 1);
    }
  }

  lemma {:induction false} SkipWhileExtend(t: string, b: string, k: nat, lo: char, hi: char)
    requires k <= |t|
    requires b != [] && !InRange(b[0], lo, hi)
    ensures SkipWhile(t + b, k, lo, hi) == SkipWhile(t, k, lo, hi)
    decreases |t| - k
  {
    if k < |t| && InRange(t[k], lo, hi) {
      SkipWhileExtend(t, b, k + 1, lo, hi);
    }
  }

  /** Appending text that starts with ESC (and not `ESC \`) cannot complete
      a match of any escape pass that was incomplete before. */
  lemma MatchLenExtend(p: Pass, t: string, b: string)
    requires p != Control && t != []
    requires b != [] && b[0] == ESC && (|b| >= 2 ==> b[1] != '\\')
    ensures MatchLen(p, t + b) == MatchLen(p, t)
  {
    var s := t + b;
    match p
    case Osc =>
      if |t| >= 2 { TerminatedAtExtend(t, b, 2); }
    case StringControl =>
      if |t| >= 2 { TerminatedAtExtend(t, b, 2); }
    case Csi =>
      if |t| >= 2 && t[0] == ESC && t[1] == '[' {
        SkipWhileExtend(t, b, 2, '0', '?');
        SkipWhileExtend(t, b, SkipWhile(t, 2, '0', '?'), ' ', '/');
      }
    case Escape =>
      if t[0] == ESC {
        SkipWhileExtend(t, b, 1, ' ', '/');
      }
  }

  lemma ScanBeforeEscape(p: Pass, a: string, b: string)
    requires p != Control
    requires b != [] && b[0] == ESC && (|b| >= 2 ==> b[1] != '\\')
    ensures Scan(p, a + b) == Scan(p, a) + Scan(p, b)
  {
    forall i | 0 <= i < |a|
      ensures MatchLen(p, a[i..] + b) == MatchLen(p, a[i..])
    {
      MatchLenExtend(p, a[i..], b);
    }
    ScanConcat(p, a, b);
  }

  predicate NoBelNoEsc(s: string) {
    forall i :: 0 <= i < |s| ==> s[i] != BEL && s[i] != ESC
  }

  /** A string terminator: BEL or `ESC \`. */
  predicate IsTerminator(term: string) {
    term == [BEL] || term == [ESC, '\\']
  }

  lemma {:induction false} TerminatedAfterPayload(s: string, k: nat, payload: string, term: string)
    requires NoBelNoEsc(payload) && IsTerminator(term)
    requires k + |payload| + |term| <= |s|
    requires s[k..k + |payload|] == payload && s[k + |payload|..k + |payload| + |term|] == term
    ensures TerminatedAt(s, k) == Some(k + |payload| + |term|)
    decreases |payload|
  {
    if payload == [] {
      assert s[k] == term[0];
      if term != [BEL] {
        assert s[k + 1] == term[1];
      }
    } else {
      assert s[k] == payload[0];
      TerminatedAfterPayload(s, k + 1, payload[1..], term);
    }
  }

  /** A complete OSC at the start of the text is one match of the OSC pass. */
  lemma OscMatch(payload: string, term: string, after: string)
    requires NoBelNoEsc(payload) && IsTerminator(term)
    ensures var osc := [ESC, ']'] + payload + term;
      MatchLen(Osc, osc + after) == Some(|osc|)
  {
    var osc := [ESC, ']'] + payload + term;
    var b := osc + after;
    assert b[2..2 + |payload|] == payload;
    assert b[2 + |payload|..2 + |payload| + |term|] == term;
    TerminatedAfterPayload(b, 2, payload, term);
  }

  /** The OSC pass deletes a complete `ESC ] payload terminator`, payload
      included, and leaves the text on either side as it would be alone. */
  lemma OscDeleted(before: string, payload: string, term: string, after: string)
    requires NoBelNoEsc(payload) && IsTerminator(term)
    ensures Scan(Osc, before + ([ESC, ']'] + payload + term) + after)
         == Scan(Osc, before) + Scan(Osc, after)
  {
    var osc := [ESC, ']'] + payload + term;
    var b := osc + after;
    assert b[0] == ESC && b[1] == ']';
    ScanBeforeEscape(Osc, before, b);
    OscMatch(payload, term, after);
    ScanUnfold(Osc, b);
    DropConcat(osc, after, |osc|);
    ConcatAssoc(before, osc, after);
  }

  lemma {:induction false} SkipWhileRun(s: string, k: nat, j: nat, lo: char, hi: char)
    requires k <= j <= |s|
    requires forall i :: k <= i < j ==> InRange(s[i], lo, hi)
    requires j == |s| || !InRange(s[j], lo, hi)
    ensures SkipWhile(s, k, lo, hi) == j
    decreases j - k
  {
    if k < j {
      SkipWhileRun(s, k + 1, j, lo, hi);
    }
  }

  /** A control sequence `ESC [ parameters intermediates final` in the
      syntax of section 5.4 of ECMA-48. */
  predicate IsCsiParts(params: string, inters: string, final: char) {
    && (forall i :: 0 <= i < |params| ==> InRange(params[i], '0', '?'))
    && (forall i :: 0 <= i < |inters| ==> InRange(inters[i], ' ', '/'))
    && InRange(final, '@', '~')
  }

  /** A complete control sequence at the start of the text is one match of the CSI pass. */
  lemma CsiMatch(params: string, inters: string, final: char, after: string)
    requires IsCsiParts(params, inters, final)
    ensures var csi := [ESC, '['] + params + inters + [final];
      MatchLen(Csi, csi + after) == Some(|csi|)
  {
    var csi := [ESC, '['] + params + inters + [final];
    var b := csi + after;
    var p := 2 + |params|;
    var q := p + |inters|;
    assert b[q] == final;
    assert forall i :: 2 <= i < p ==> b[i] == params[i - 2];
    SkipWhileRun(b, 2, p, '0', '?');
    assert forall i :: p <= i < q ==> b[i] == inters[i - p];
    SkipWhileRun(b, p, q, ' ', '/');
  }

  /** The CSI pass deletes a complete control sequence and leaves the text
      on either side as it would be alone. */
  lemma CsiDeleted(before: string, params: string, inters: string, final: char, after: string)
    requires IsCsiParts(params, inters, final)
    ensures Scan(Csi, before + ([ESC, '['] + params + inters + [final]) + after)
         == Scan(Csi, before) + Scan(Csi, after)
  {
    var csi := [ESC, '['] + params + inters + [final];
    var b := csi + after;
    assert b[0] == ESC && b[1] == '[';
    ScanBeforeEscape(Csi, before, b);
    CsiMatch(params, inters, final, after);
    ScanUnfold(Csi, b);
    DropConcat(csi, after, |csi|);
    ConcatAssoc(before, csi, after);
  }

  lemma {:induction false} NormalizeNewlinesPrefix(a: string, b: string)
    requires NoChar(a, '\r')
    ensures NormalizeNewlines(a + b) == a + NormalizeNewlines(b)
    decreases |a|
  {
    if a != [] {
      NormalizeNewlinesPrefix(a[1..], b);
      DropConcat(a, b, 1);
      assert [a[0]] + a[1..] == a;
      ConcatAssoc([a[0]], a[1..], NormalizeNewlines(b));
    } else {
      assert a + b == b;
    }
  }

  /** `stripAnsi` removes an OSC at the start of its input, payload and all. */
  lemma StripAnsiDropsOsc(payload: string, term: string, after: string)
    requires NoBelNoEsc(payload) && IsTerminator(term) && NoChar(payload, '\r')
    ensures StripAnsi([ESC, ']'] + payload + term + after) == StripAnsi(after)
  {
    var osc := [ESC, ']'] + payload + term;
    OscPassDropsOsc(payload, term, after);
    assert [ESC, ']'] + payload + term + after == osc + after;
    SameAfterOscPass(osc + after, after);
  }

  /** The OSC pass, after newline normalisation, drops a leading OSC. */
  lemma OscPassDropsOsc(payload: string, term: string, after: string)
    requires NoBelNoEsc(payload) && IsTerminator(term) && NoChar(payload, '\r')
    ensures var osc := [ESC, ']'] + payload + term;
      Scan(Osc, NormalizeNewlines(osc + after)) == Scan(Osc, NormalizeNewlines(after))
  {
    var osc := [ESC, ']'] + payload + term;
    var n := NormalizeNewlines(after);
    assert NormalizeNewlines(osc + after) == osc + n by {
      assert NoChar(osc, '\r') by {
        assert forall i :: 2 <= i < 2 + |payload| ==> osc[i] == payload[i - 2];
      }
      NormalizeNewlinesPrefix(osc, after);
    }
    assert Scan(Osc, osc + n) == Scan(Osc, n) by {
      OscMatch(payload, term, n);
      ScanUnfold(Osc, osc + n);
      assert (osc + n)[|osc|..] == n;
    }
  }

  /** Inputs that agree after the OSC pass agree after stripping. */
  lemma SameAfterOscPass(s: string, t: string)
    requires s != []
    requires Scan(Osc, NormalizeNewlines(s)) == Scan(Osc, NormalizeNewlines(t))
    ensures StripAnsi(s) == StripAnsi(t)
  {
    if t == [] {
      assert Scan(Osc, NormalizeNewlines(s)) == [];
      assert Scan(StringControl, []) == [] && Scan(Csi, []) == [] && Scan(Escape, []) == [] && Scan(Control, []) == [];
    }
  }
}

=== FILE: command_builder.dfy ===
/** The command assembly of src/features/CommandBuilder/CommandBuilder.tsx:
    which argument holds which token, the tokens in use and their colours,
    the values handed to the template (paths made relative and quoted),
    the arguments kept, and the final command. The template library is a
    parameter: it either renders the filtered template with the values or
    fails, which the component turns into no command. */
module CommandBuilder {
  import opened Strings
  import opened RecipeTypes
  import opened CommandBuilderSlice
  import DisplayPath

  // ---------------------------------------------------------------------
  // The token pattern `{{name}}`: two opening braces, at least one
  // character other than `}`, two closing braces. The leftmost match wins.

  /** The number of characters other than `}` from `i` on. */
  function RunLen(s: string, i: nat): (k: nat)
    requires i <= |s|
    ensures i + k <= |s|
    ensures forall j :: i <= j < i + k ==> s[j] != '}'
    ensures i + k < |s| ==> s[i + k] == '}'
    decreases |s| - i
  {
    if i == |s| || s[i] == '}' then 0 else 1 + RunLen(s, i + 1)
  }

  /** The pattern matches at `p`. Since the name runs over every character
      other than `}`, the closing braces can only follow the whole run. */
  predicate MatchAt(s: string, p: nat) {
    && p + 2 <= |s| && s[p] == '{' && s[p + 1] == '{'
    && var k := RunLen(s, p + 2);
    && k >= 1 && p + k + 4 <= |s| && s[p + k + 2] == '}' && s[p + k + 3] == '}'
  }

  /** The captured name at a match. */
  function NameAt(s: string, p: nat): string
    requires MatchAt(s, p)
  {
    s[p + 2..p + 2 + RunLen(s, p + 2)]
  }

  /** The leftmost match at or after `from`. */
  function FirstMatch(s: string, from: nat): (r: Option<nat>)
    ensures r.Some? ==> from <= r.value && MatchAt(s, r.value)
    ensures r.Some? ==> forall q :: from <= q < r.value ==> !MatchAt(s, q)
    ensures r.None? ==> forall q :: from <= q ==> !MatchAt(s, q)
    decreases |s| - from
  {
    if from + 4 > |s| then None
    else if MatchAt(s, from) then Some(from)
    else FirstMatch(s, from + 1)
  }

  /** `arg.match(tokenRegex)[1]`: the name of the first token in an argument. */
  function TokenOf(arg: string): Option<string> {
    match FirstMatch(arg, 0)
    case None => None
    case Some(p) => Some(NameAt(arg, p))
  }

  /** The pattern read literally: `{{`, then `k >= 1` characters none of
      which is `}`, then `}}`. */
  predicate PatternAt(s: string, p: nat, k: nat) {
    && k >= 1 && p + k + 4 <= |s|
    && s[p] == '{' && s[p + 1] == '{'
    && (forall j :: p + 2 <= j < p + 2 + k ==> s[j] != '}')
    && s[p + k + 2] == '}' && s[p + k + 3] == '}'
  }

  /** `MatchAt` is the pattern, and the pattern fixes the name's length. */
  lemma MatchAtIsPattern(s: string, p: nat, k: nat)
    ensures PatternAt(s, p, k) <==> MatchAt(s, p) && k == RunLen(s, p + 2)
  {
  }

  /** The token of `pre{{name}}post`, when `pre` has no `{` and `name` has no
      `}`, is `name`. */
  lemma TokenOfPlaceholder(pre: string, name: string, post: string)
    requires NoChar(pre, '{') && name != "" && NoChar(name, '}')
    ensures TokenOf(pre + "{{" + name + "}}" + post) == Some(name)
  {
    var s := pre + "{{" + name + "}}" + post;
    var p := |pre|;
    assert MatchAt(s, p) && RunLen(s, p + 2) == |name| by {
      assert PatternAt(s, p, |name|) by {
        assert forall j :: p + 2 <= j < p + 2 + |name| ==> s[j] == name[j - p - 2];
      }
      MatchAtIsPattern(s, p, |name|);
    }
    assert FirstMatch(s, 0) == Some(p) by {
      assert forall q :: 0 <= q < p ==> s[q] == pre[q];
    }
    assert s[p + 2..p + 2 + |name|] == name;
  }

  /** An argument without `{{` has no token. */
  lemma NoBraceNoToken(arg: string)
    requires forall p :: 0 <= p < |arg| - 1 ==> !(arg[p] == '{' && arg[p + 1] == '{')
    ensures TokenOf(arg).None?
  {
  }

  /** Single braces do not make a token. */
  lemma SingleBraceExample(arg: string)
    requires arg == "{x}" || arg == "a{b}{c"
    ensures TokenOf(arg).None?
  {
  }

  /** A token name is never empty and never holds `}`, and `{{name}}` occurs
      in the argument. */
  lemma TokenShape(arg: string)
    requires TokenOf(arg).Some?
    ensures var name := TokenOf(arg).value;
      && name != "" && NoChar(name, '}')
      && exists p :: 0 <= p && OccursAt(arg, "{{" + name + "}}", p)
  {
    var p := FirstMatch(arg, 0).value;
    var name := NameAt(arg, p);
    var k := RunLen(arg, p + 2);
    assert |name| == k && name != "";
    assert NoChar(name, '}') by {
      assert forall j :: 0 <= j < k ==> name[j] == arg[p + 2 + j];
    }
    assert arg[p..p + k + 4] == "{{" + name + "}}";
    assert OccursAt(arg, "{{" + name + "}}", p);
  }

  // ---------------------------------------------------------------------
  // argsToTokens and tokensInUse.

  /** `argsToTokens`: argument index to token name. */
  function ArgsToTokens(args: seq<string>): (m: map<int, string>)
    ensures forall i :: i in m <==> 0 <= i < |args| && TokenOf(args[i]).Some?
  {
    map i | 0 <= i < |args| && TokenOf(args[i]).Some? :: TokenOf(args[i]).value
  }

  /** The token of every argument, by position. */
  function ArgTokens(args: seq<string>): (r: seq<Option<string>>)
    ensures |r| == |args|
  {
    seq(|args|, i requires 0 <= i < |args| => TokenOf(args[i]))
  }

  /** The names present in a list of optional names, in list order. */
  function Present(opts: seq<Option<string>>): seq<string> {
    if opts == [] then []
    else (if opts[0].Some? then [opts[0].value] else []) + Present(opts[1..])
  }

  /** `tokensInUse`: the token names of the arguments, in argument order. */
  function TokensInUse(args: seq<string>): seq<string> {
    Present(ArgTokens(args))
  }

  /** The positions from `i` on that hold a name, ascending. */
  function IndicesFrom(opts: seq<Option<string>>, i: nat): (r: seq<nat>)
    requires i <= |opts|
    ensures forall j :: 0 <= j < |r| ==> i <= r[j] < |opts| && opts[r[j]].Some?
    decreases |opts| - i
  {
    if i == |opts| then []
    else (if opts[i].Some? then [i] else []) + IndicesFrom(opts, i + 1)
  }

  predicate Ascending(r: seq<nat>) {
    forall j, l :: 0 <= j < l < |r| ==> r[j] < r[l]
  }

  /** The positions are ascending. */
  lemma {:induction false} IndicesFromAscending(opts: seq<Option<string>>, i: nat)
    requires i <= |opts|
    ensures Ascending(IndicesFrom(opts, i))
    decreases |opts| - i
  {
    if i < |opts| {
      IndicesFromAscending(opts, i + 1);
      var rest := IndicesFrom(opts, i + 1);
      if opts[i].Some? {
        var r := [i] + rest;
        assert IndicesFrom(opts, i) == r;
        forall j, l | 0 <= j < l < |r|
          ensures r[j] < r[l]
        {
          assert r[l] == rest[l - 1] && i + 1 <= rest[l - 1];
          if j > 0 {
            assert r[j] == rest[j - 1];
          }
        }
      } else {
        assert IndicesFrom(opts, i) == rest;
      }
    }
  }

  /** No position that holds a name is missed. */
  lemma {:induction false} IndicesFromComplete(opts: seq<Option<string>>, i: nat)
    requires i <= |opts|
    ensures forall q :: i <= q < |opts| && opts[q].Some? ==> q in IndicesFrom(opts, i)
    decreases |opts| - i
  {
    if i < |opts| {
      IndicesFromComplete(opts, i + 1);
      var rest := IndicesFrom(opts, i + 1);
      var r := IndicesFrom(opts, i);
      assert r == (if opts[i].Some? then [i] else []) + rest;
      forall q | i <= q < |opts| && opts[q].Some?
        ensures q in r
      {
        if q > i {
          assert q in rest;
        }
      }
    }
  }

  /** The names at the listed positions, in list order. */
  function NamesAt(opts: seq<Option<string>>, idx: seq<nat>): (r: seq<string>)
    requires forall j :: 0 <= j < |idx| ==> idx[j] < |opts| && opts[idx[j]].Some?
    ensures |r| == |idx|
    ensures forall j :: 0 <= j < |idx| ==> r[j] == opts[idx[j]].value
  {
    seq(|idx|, j requires 0 <= j < |idx| => opts[idx[j]].value)
  }

  lemma NamesAtCons(opts: seq<Option<string>>, i: nat, rest: seq<nat>)
    requires i < |opts| && opts[i].Some?
    requires forall j :: 0 <= j < |rest| ==> rest[j] < |opts| && opts[rest[j]].Some?
    ensures NamesAt(opts, [i] + rest) == [opts[i].value] + NamesAt(opts, rest)
  {
    var all := NamesAt(opts, [i] + rest);
    var tail := NamesAt(opts, rest);
    forall j | 1 <= j < |all|
      ensures all[j] == tail[j - 1]
    {
      assert ([i] + rest)[j] == rest[j - 1];
    }
  }

  lemma {:induction false} PresentFrom(opts: seq<Option<string>>, i: nat)
    requires i <= |opts|
    ensures Present(opts[i..]) == NamesAt(opts, IndicesFrom(opts, i))
    decreases |opts| - i
  {
    if i < |opts| {
      PresentFrom(opts, i + 1);
      var rest := IndicesFrom(opts, i + 1);
      assert opts[i..][0] == opts[i] && opts[i..][1..] == opts[i + 1..];
      if opts[i].Some? {
        assert IndicesFrom(opts, i) == [i] + rest;
        NamesAtCons(opts, i, rest);
      } else {
        assert IndicesFrom(opts, i) == rest;
      }
    }
  }

  /** `tokensInUse` lists the values of `argsToTokens` in ascending index
      order: a name for every argument with a token, in argument order. */
  lemma TokensInUseMeaning(args: seq<string>)
    ensures var idx := IndicesFrom(ArgTokens(args), 0);
      && (forall j, l :: 0 <= j < l < |idx| ==> idx[j] < idx[l])
      && (forall i :: i in ArgsToTokens(args) <==> i in idx)
      && |TokensInUse(args)| == |idx|
      && (forall j :: 0 <= j < |idx| ==> TokensInUse(args)[j] == ArgsToTokens(args)[idx[j]])
  {
    var opts := ArgTokens(args);
    PresentFrom(opts, 0);
    IndicesFromAscending(opts, 0);
    IndicesFromComplete(opts, 0);
    assert opts[0..] == opts;
  }

  /** A name is in use exactly when some argument carries it. */
  lemma InUseIffSomeArg(args: seq<string>, name: string)
    ensures name in TokensInUse(args) <==> exists i :: 0 <= i < |args| && TokenOf(args[i]) == Some(name)
  {
    TokensInUseMeaning(args);
    var idx := IndicesFrom(ArgTokens(args), 0);
    if name in TokensInUse(args) {
      var j :| 0 <= j < |idx| && TokensInUse(args)[j] == name;
      assert TokenOf(args[idx[j]]) == Some(name);
    }
    if i :| 0 <= i < |args| && TokenOf(args[i]) == Some(name) {
      assert i in idx;
      var j :| 0 <= j < |idx| && idx[j] == i;
      assert TokensInUse(args)[j] == name;
    }
  }

  // ---------------------------------------------------------------------
  // Token colours.

  const TokenColors: seq<string> := ["hue-blue", "hue-yellow", "hue-pink", "hue-teal", "hue-lavender", "hue-peach"]

  /** `tokenColorMap`: the token at position `i` takes colour `i mod 6`; a
      token listed twice keeps the colour of its later position. */
  function ColorMap(tokens: seq<string>): (m: map<string, string>)
    ensures forall t :: t in m <==> t in tokens
    decreases |tokens|
  {
    if tokens == [] then map[]
    else
      var n := |tokens| - 1;
      ColorMap(tokens[..n])[tokens[n] := TokenColors[n % |TokenColors|]]
  }

  /** `j` is the last position of `tokens[j]`. */
  predicate LastAt(tokens: seq<string>, j: int) {
    0 <= j < |tokens| && forall l :: j < l < |tokens| ==> tokens[l] != tokens[j]
  }

  lemma {:induction false} ColorMapMeaning(tokens: seq<string>)
    ensures forall j :: LastAt(tokens, j) ==> ColorMap(tokens)[tokens[j]] == TokenColors[j % 6]
    decreases |tokens|
  {
    if tokens != [] {
      var n := |tokens| - 1;
      var init := tokens[..n];
      ColorMapMeaning(init);
      var m := ColorMap(tokens);
      assert m == ColorMap(init)[tokens[n] := TokenColors[n % 6]];
      forall j | LastAt(tokens, j)
        ensures m[tokens[j]] == TokenColors[j % 6]
      {
        if j < n {
          assert tokens[j] != tokens[n];
          assert init[j] == tokens[j];
          forall l | j < l < n
            ensures init[l] != init[j]
          {
            assert init[l] == tokens[l];
          }
          assert LastAt(init, j);
          assert ColorMap(init)[init[j]] == TokenColors[j % 6];
          assert m[tokens[j]] == ColorMap(init)[tokens[j]];
        } else {
          assert j == n;
        }
      }
    }
  }

  /** Every colour is one of the six. */
  lemma ColorsFromPalette(tokens: seq<string>, t: string)
    requires t in tokens
    ensures ColorMap(tokens)[t] in TokenColors
  {
    ColorMapMeaning(tokens);
    var j :| 0 <= j < |tokens| && tokens[j] == t;
    while !LastAt(tokens, j)
      invariant 0 <= j < |tokens| && tokens[j] == t
      decreases |tokens| - j
    {
      var l :| j < l < |tokens| && tokens[l] == tokens[j];
      j := l;
    }
  }

  // ---------------------------------------------------------------------
  // Values, kept arguments and the command.

  /** The value a token contributes to the template. A path token's value is
      made relative when asked and non-empty, then quoted when it holds a
      space; it must be text, and a number there stops the component
      (`None`). Other tokens pass their value through. */
  function PreparedValue(def: TokenDef, v: Value, useRelative: bool, cwd: string): Option<Value> {
    if !IsPathKind(def.kind) then Some(v)
    else match v
      case Num(_) => None
      case Str(s) =>
        var p := if useRelative && s != "" then DisplayPath.ToRelativePath(s, cwd) else s;
        Some(Str(if ' ' in p then "\"" + p + "\"" else p))
  }

  /** The `values` record: one prepared value per stored token the recipe
      defines; stale entries of other recipes are skipped. `None` when some
      path token holds a number. */
  function PrepareValues(tokenValues: map<string, TokenValue>, defs: map<string, TokenDef>,
                         useRelative: bool, cwd: string): Option<map<string, Value>>
  {
    if exists k | k in tokenValues && k in defs :: PreparedValue(defs[k], tokenValues[k].value, useRelative, cwd).None?
    then None
    else Some(map k | k in tokenValues && k in defs :: PreparedValue(defs[k], tokenValues[k].value, useRelative, cwd).value)
  }

  /** JavaScript truthiness of a value. */
  predicate Truthy(v: Value) {
    match v
    case Str(s) => s != ""
    case Num(n) => n != 0
  }

  /** Whether an argument stays: one without a token always does; one with a
      token when that token is enabled and its value is non-empty. */
  predicate Keep(arg: string, tokenValues: map<string, TokenValue>, values: map<string, Value>) {
    match TokenOf(arg)
    case None => true
    case Some(t) => t in tokenValues && tokenValues[t].enabled && t in values && Truthy(values[t])
  }

  /** `argsWithValues`. */
  function FilterArgs(args: seq<string>, tokenValues: map<string, TokenValue>, values: map<string, Value>): seq<string> {
    if args == [] then []
    else (if Keep(args[0], tokenValues, values) then [args[0]] else []) + FilterArgs(args[1..], tokenValues, values)
  }

  datatype Formatted =
    | Command(text: string)  // the rendered command
    | NoCommand              // the template library failed; the component shows nothing
    | Throws                 // a path token held a number and the computation stopped

  /** `formattedCommand`. */
  function FormattedCommand(recipe: Recipe, st: State, cwd: string,
                            render: (string, map<string, Value>) -> Option<string>): Formatted
  {
    match PrepareValues(st.tokenValues, recipe.tokens, st.useRelativePaths, cwd)
    case None => Throws
    case Some(values) =>
      var filtered := Join([recipe.base] + FilterArgs(recipe.args, st.tokenValues, values), " ");
      match render(filtered, values)
      case None => NoCommand
      case Some(c) => Command(c)
  }

  // ---------------------------------------------------------------------
  // Properties of the values.

  /** The values cover exactly the stored tokens the recipe defines; a value
      other than a path token's is the stored one. */
  lemma PrepareValuesMeaning(tokenValues: map<string, TokenValue>, defs: map<string, TokenDef>,
                             useRelative: bool, cwd: string)
    ensures var r := PrepareValues(tokenValues, defs, useRelative, cwd);
      && (r.None? <==> exists k :: k in tokenValues && k in defs && IsPathKind(defs[k].kind) && tokenValues[k].value.Num?)
      && (r.Some? ==> forall k :: k in r.value <==> k in tokenValues && k in defs)
      && (r.Some? ==> forall k :: k in r.value && !IsPathKind(defs[k].kind) ==> r.value[k] == tokenValues[k].value)
  {
  }

  /** A path value comes out quoted exactly when it (after relativising)
      holds a space, and otherwise unchanged; an empty path stays empty
      even when relative paths are asked for. */
  lemma PathValueMeaning(def: TokenDef, s: string, useRelative: bool, cwd: string)
    requires IsPathKind(def.kind)
    ensures var p := if useRelative && s != "" then DisplayPath.ToRelativePath(s, cwd) else s;
      var r := PreparedValue(def, Str(s), useRelative, cwd);
      && r.Some? && r.value.Str?
      && (' ' in p ==> r.value.s == "\"" + p + "\"" && r.value.s[1..|r.value.s| - 1] == p)
      && (' ' !in p ==> r.value.s == p)
    ensures PreparedValue(def, Str(""), useRelative, cwd) == Some(Str(""))
    ensures !useRelative ==> Truthy(PreparedValue(def, Str(s), useRelative, cwd).value) == (s != "")
  {
    var p := if useRelative && s != "" then DisplayPath.ToRelativePath(s, cwd) else s;
    if ' ' in p {
      var q := "\"" + p + "\"";
      assert q[1..|q| - 1] == p;
    }
  }

  /** With relative paths on, a non-empty path is replaced by its path
      relative to the cwd. */
  lemma RelativePathValue(def: TokenDef, s: string, cwd: string, rel: string)
    requires IsPathKind(def.kind) && s != ""
    requires DisplayPath.ToRelativePath(s, cwd) == rel && ' ' !in rel
    ensures PreparedValue(def, Str(s), true, cwd) == Some(Str(rel))
  {
  }

  /** With relative paths on, the file `/Users/test/test` seen from
      `/Users/test` becomes `./test`. */
  lemma RelativePathValueExample(def: TokenDef, cwd: string, file: string)
    requires IsPathKind(def.kind) && cwd == "/Users/test" && file == "/Users/test/test"
    ensures PreparedValue(def, Str(file), true, cwd) == Some(Str("./test"))
  {
    DisplayPath.ChildPathExample(file, cwd);
    NoSpaceInChild();
    RelativePathValue(def, file, cwd, "./test");
  }

  lemma NoSpaceInChild()
    ensures ' ' !in "./test"
  {
    var s := "./test";
    assert s == ['.', '/', 't', 'e', 's', 't'];
  }

  // ---------------------------------------------------------------------
  // Properties of the kept arguments.

  /** Filtering keeps exactly the arguments that pass, in their order. */
  lemma {:induction false} FilterArgsConcat(a: seq<string>, b: seq<string>,
                                            tokenValues: map<string, TokenValue>, values: map<string, Value>)
    ensures FilterArgs(a + b, tokenValues, values) == FilterArgs(a, tokenValues, values) + FilterArgs(b, tokenValues, values)
    decreases |a|
  {
    if a != [] {
      assert (a + b)[1..] == a[1..] + b;
      assert (a + b)[0] == a[0];
      FilterArgsConcat(a[1..], b, tokenValues, values);
      var head := if Keep(a[0], tokenValues, values) then [a[0]] else [];
      Assoc(head, FilterArgs(a[1..], tokenValues, values), FilterArgs(b, tokenValues, values));
    } else {
      assert a + b == b;
    }
  }

  lemma {:induction false} FilterArgsMembers(args: seq<string>,
                                             tokenValues: map<string, TokenValue>, values: map<string, Value>)
    ensures forall x :: x in FilterArgs(args, tokenValues, values) <==> x in args && Keep(x, tokenValues, values)
    decreases |args|
  {
    if args != [] {
      FilterArgsMembers(args[1..], tokenValues, values);
      assert args == [args[0]] + args[1..];
    }
  }

  /** Filtering again changes nothing. */
  lemma {:induction false} FilterArgsIdempotent(args: seq<string>,
                                                tokenValues: map<string, TokenValue>, values: map<string, Value>)
    ensures var once := FilterArgs(args, tokenValues, values);
      FilterArgs(once, tokenValues, values) == once
    decreases |args|
  {
    if args != [] {
      var head := if Keep(args[0], tokenValues, values) then [args[0]] else [];
      var rest := FilterArgs(args[1..], tokenValues, values);
      FilterArgsIdempotent(args[1..], tokenValues, values);
      FilterArgsConcat(head, rest, tokenValues, values);
      if head != [] {
        assert FilterArgs(head, tokenValues, values) == head by {
          assert head[1..] == [];
        }
      }
    }
  }

  /** Arguments without tokens are all kept. */
  lemma {:induction false} UntokenedArgsKept(args: seq<string>,
                                             tokenValues: map<string, TokenValue>, values: map<string, Value>)
    requires forall i :: 0 <= i < |args| ==> TokenOf(args[i]).None?
    ensures FilterArgs(args, tokenValues, values) == args
    decreases |args|
  {
    if args != [] {
      UntokenedArgsKept(args[1..], tokenValues, values);
      assert args == [args[0]] + args[1..];
    }
  }

  /** An argument whose token is disabled, missing, or has an empty value is
      dropped. */
  lemma DroppedArgs(arg: string, t: string, tokenValues: map<string, TokenValue>, values: map<string, Value>)
    requires TokenOf(arg) == Some(t)
    requires t !in tokenValues || !tokenValues[t].enabled || t !in values || values[t] in {Str(""), Num(0)}
    ensures arg !in FilterArgs([arg], tokenValues, values)
  {
    assert [arg][1..] == [];
  }

  // ---------------------------------------------------------------------
  // Properties of the command.

  /** The command: `Throws` exactly when a path token holds a number; else
      whatever the template library makes of the base and the kept
      arguments joined by spaces, or nothing when it fails. */
  lemma FormattedCommandMeaning(recipe: Recipe, st: State, cwd: string,
                                render: (string, map<string, Value>) -> Option<string>)
    ensures var f := FormattedCommand(recipe, st, cwd, render);
      var pv := PrepareValues(st.tokenValues, recipe.tokens, st.useRelativePaths, cwd);
      && (f.Throws? <==> exists k :: k in st.tokenValues && k in recipe.tokens
                                     && IsPathKind(recipe.tokens[k].kind) && st.tokenValues[k].value.Num?)
      && (pv.Some? ==>
            var t := Join([recipe.base] + FilterArgs(recipe.args, st.tokenValues, pv.value), " ");
            && (f.NoCommand? <==> render(t, pv.value).None?)
            && (f.Command? ==> f.text == render(t, pv.value).value))
  {
    PrepareValuesMeaning(st.tokenValues, recipe.tokens, st.useRelativePaths, cwd);
  }

  /** A recipe without tokens hands the whole template, base and arguments
      joined by spaces, to the library. */
  lemma NoTokensWholeTemplate(recipe: Recipe, st: State, cwd: string,
                              render: (string, map<string, Value>) -> Option<string>)
    requires forall i :: 0 <= i < |recipe.args| ==> TokenOf(recipe.args[i]).None?
    requires PrepareValues(st.tokenValues, recipe.tokens, st.useRelativePaths, cwd).Some?
    ensures var values := PrepareValues(st.tokenValues, recipe.tokens, st.useRelativePaths, cwd).value;
      FormattedCommand(recipe, st, cwd, render) ==
        match render(Join([recipe.base] + recipe.args, " "), values)
        case None => NoCommand
        case Some(c) => Command(c)
  {
    var values := PrepareValues(st.tokenValues, recipe.tokens, st.useRelativePaths, cwd).value;
    UntokenedArgsKept(recipe.args, st.tokenValues, values);
  }

  // ---------------------------------------------------------------------
  // The token store set up for a recipe, and the relative-paths switch.

  /** The token-initialisation effect: the definition of every token in use
      is handed to `initTokenValues`. A token in use that the recipe does not
      define reaches `initTokenValues` as no definition, and reading its
      default value stops the computation (`None`). */
  function InitForRecipe(st: State, recipe: Recipe): Option<State> {
    var inUse := TokensInUse(recipe.args);
    if forall i :: 0 <= i < |inUse| ==> inUse[i] in recipe.tokens then
      Some(InitTokenValues(st, map t | t in inUse && t in recipe.tokens :: recipe.tokens[t]))
    else None
  }

  /** The store is set up exactly when every token in use is defined; it then
      holds one entry per token in use, its definition's default value and
      its `required` flag as enabled, and nothing else. */
  lemma InitForRecipeMeaning(st: State, recipe: Recipe)
    ensures var r := InitForRecipe(st, recipe);
      && (r.None? <==> exists i :: 0 <= i < |recipe.args| && TokenOf(recipe.args[i]).Some?
                                   && TokenOf(recipe.args[i]).value !in recipe.tokens)
      && (r.Some? ==>
            && r.value.useRelativePaths == st.useRelativePaths
            && (forall t :: t in r.value.tokenValues <==> t in TokensInUse(recipe.args))
            && (forall t :: t in r.value.tokenValues ==>
                  t in recipe.tokens
                  && r.value.tokenValues[t].value == Str(recipe.tokens[t].defaultValue.GetOr(""))
                  && r.value.tokenValues[t].enabled == recipe.tokens[t].required.GetOr(false)))
  {
    var inUse := TokensInUse(recipe.args);
    if i :| 0 <= i < |recipe.args| && TokenOf(recipe.args[i]).Some? && TokenOf(recipe.args[i]).value !in recipe.tokens {
      var name := TokenOf(recipe.args[i]).value;
      InUseIffSomeArg(recipe.args, name);
      var j :| 0 <= j < |inUse| && inUse[j] == name;
    }
    if j :| 0 <= j < |inUse| && inUse[j] !in recipe.tokens {
      InUseIffSomeArg(recipe.args, inUse[j]);
    }
  }

  /** `hasTokensThatArePaths`: whether some token in use, in order, is an
      `open` or `save` token. Looking up a token the recipe does not define
      stops the computation (`None`) unless a path token came first. */
  function AnyPathToken(tokens: seq<string>, defs: map<string, TokenDef>): Option<bool> {
    if tokens == [] then Some(false)
    else if tokens[0] !in defs then None
    else if IsPathKind(defs[tokens[0]].kind) then Some(true)
    else AnyPathToken(tokens[1..], defs)
  }

  /** When every token is defined, the answer is whether one of them holds a
      path; the answer is `true` only for a path token defined after
      defined tokens alone. */
  lemma {:induction false} AnyPathTokenMeaning(tokens: seq<string>, defs: map<string, TokenDef>)
    ensures (forall i :: 0 <= i < |tokens| ==> tokens[i] in defs) ==>
      AnyPathToken(tokens, defs) == Some(exists i :: 0 <= i < |tokens| && IsPathKind(defs[tokens[i]].kind))
    ensures AnyPathToken(tokens, defs) == Some(true) ==>
      exists i :: 0 <= i < |tokens| && tokens[i] in defs && IsPathKind(defs[tokens[i]].kind)
                  && forall j :: 0 <= j < i ==> tokens[j] in defs
    ensures AnyPathToken(tokens, defs).None? ==> exists i :: 0 <= i < |tokens| && tokens[i] !in defs
  {
    if tokens != [] && tokens[0] in defs && !IsPathKind(defs[tokens[0]].kind) {
      var rest := tokens[1..];
      AnyPathTokenMeaning(rest, defs);
      if forall i :: 0 <= i < |tokens| ==> tokens[i] in defs {
        assert forall i :: 0 <= i < |rest| ==> rest[i] in defs by {
          forall i | 0 <= i < |rest| ensures rest[i] in defs {
            assert rest[i] == tokens[i + 1];
          }
        }
        if i :| 0 <= i < |tokens| && IsPathKind(defs[tokens[i]].kind) {
          assert i > 0 && rest[i - 1] == tokens[i];
        }
      }
      if AnyPathToken(rest, defs) == Some(true) {
        var i :| 0 <= i < |rest| && rest[i] in defs && IsPathKind(defs[rest[i]].kind)
                 && forall j :: 0 <= j < i ==> rest[j] in defs;
        assert tokens[i + 1] == rest[i];
        assert forall j :: 0 <= j < i + 1 ==> tokens[j] in defs by {
          forall j | 0 <= j < i + 1 ensures tokens[j] in defs {
            if j > 0 { assert tokens[j] == rest[j - 1]; }
          }
        }
      }
      if AnyPathToken(rest, defs).None? {
        var i :| 0 <= i < |rest| && rest[i] !in defs;
        assert tokens[i + 1] == rest[i];
      }
    }
  }

  /** The switch for relative paths is offered for a recipe with a path
      token in use and not for one whose tokens in use are all defined and
      none a path. */
  lemma HasPathTokensIffPathInUse(recipe: Recipe)
    requires forall t :: t in TokensInUse(recipe.args) ==> t in recipe.tokens
    ensures AnyPathToken(TokensInUse(recipe.args), recipe.tokens) ==
      Some(exists i :: 0 <= i < |recipe.args| && TokenOf(recipe.args[i]).Some?
                       && TokenOf(recipe.args[i]).value in recipe.tokens
                       && IsPathKind(recipe.tokens[TokenOf(recipe.args[i]).value].kind))
  {
    var inUse := TokensInUse(recipe.args);
    AnyPathTokenMeaning(inUse, recipe.tokens);
    if i :| 0 <= i < |recipe.args| && TokenOf(recipe.args[i]).Some?
           && TokenOf(recipe.args[i]).value in recipe.tokens
           && IsPathKind(recipe.tokens[TokenOf(recipe.args[i]).value].kind) {
      InUseIffSomeArg(recipe.args, TokenOf(recipe.args[i]).value);
    }
    if j :| 0 <= j < |inUse| && IsPathKind(recipe.tokens[inUse[j]].kind) {
      InUseIffSomeArg(recipe.args, inUse[j]);
    }
  }
}

=== FILE: command_builder_slice.dfy ===
/** The token-value store of src/features/CommandBuilder/commandBuilderSlice.ts:
    one value and one enabled flag per token name, and the relative-paths
    switch. Numbers are integers here. */
module CommandBuilderSlice {
  import opened Strings
  import opened RecipeTypes

  datatype Value = Str(s: string) | Num(n: int)

  datatype TokenValue = TokenValue(value: Value, enabled: bool, error: Option<string>)

  datatype State = State(tokenValues: map<string, TokenValue>, useRelativePaths: bool)

  const InitialState := State(map[], false)

  /** The entry a definition starts with. */
  function InitialValue(def: TokenDef): TokenValue {
    TokenValue(Str(def.defaultValue.GetOr("")), def.required.GetOr(false), None)
  }

  /** `initTokenValues`: the map is replaced by one entry per definition. */
  function InitTokenValues(st: State, defs: map<string, TokenDef>): (r: State)
    ensures r.tokenValues.Keys == defs.Keys
    ensures r.useRelativePaths == st.useRelativePaths
  {
    st.(tokenValues := map name | name in defs :: InitialValue(defs[name]))
  }

  /** `setTokenValue`. */
  function SetTokenValue(st: State, name: string, value: Value): State {
    if name in st.tokenValues then
      st.(tokenValues := st.tokenValues[name := st.tokenValues[name].(value := value)])
    else
      st.(tokenValues := st.tokenValues[name := TokenValue(value, true, None)])
  }

  /** `setTokenEnabled`. */
  function SetTokenEnabled(st: State, name: string, enabled: bool): State {
    if name in st.tokenValues then
      st.(tokenValues := st.tokenValues[name := st.tokenValues[name].(enabled := enabled)])
    else
      st.(tokenValues := st.tokenValues[name := TokenValue(Str(""), enabled, None)])
  }

  /** `setUseRelativePaths`. */
  function SetUseRelativePaths(st: State, flag: bool): (r: State)
    ensures r.useRelativePaths == flag && r.tokenValues == st.tokenValues
  {
    st.(useRelativePaths := flag)
  }

  // ---------------------------------------------------------------------
  // Properties.

  /** Every initialised entry takes the default value (or "") and is
      enabled exactly when the token is required; the previous map plays
      no part. */
  lemma InitMeaning(st: State, other: State, defs: map<string, TokenDef>)
    ensures forall name :: name in defs ==>
      var e := InitTokenValues(st, defs).tokenValues[name];
      && e.value == Str(if defs[name].defaultValue.Some? then defs[name].defaultValue.value else "")
      && (e.enabled <==> defs[name].required == Some(true))
      && e.error.None?
    ensures InitTokenValues(st, defs).tokenValues == InitTokenValues(other, defs).tokenValues
  {
  }

  /** The two setters change only their own field of their own key; a
      missing key is created with the other field at its default. */
  lemma SettersTouchOneField(st: State, name: string, value: Value, enabled: bool)
    ensures var r := SetTokenValue(st, name, value).tokenValues[name];
      && r.value == value
      && (name in st.tokenValues ==> r.enabled == st.tokenValues[name].enabled && r.error == st.tokenValues[name].error)
      && (name !in st.tokenValues ==> r.enabled)
    ensures var r := SetTokenEnabled(st, name, enabled).tokenValues[name];
      && r.enabled == enabled
      && (name in st.tokenValues ==> r.value == st.tokenValues[name].value && r.error == st.tokenValues[name].error)
      && (name !in st.tokenValues ==> r.value == Str(""))
    ensures forall k :: k in st.tokenValues && k != name ==>
      && SetTokenValue(st, name, value).tokenValues[k] == st.tokenValues[k]
      && SetTokenEnabled(st, name, enabled).tokenValues[k] == st.tokenValues[k]
  {
  }

  /** Both setters add their key (if missing) and keep every other key and
      the relative-paths switch. */
  lemma SettersKeepKeys(st: State, name: string, value: Value, enabled: bool)
    ensures SetTokenValue(st, name, value).tokenValues.Keys == st.tokenValues.Keys + {name}
    ensures SetTokenEnabled(st, name, enabled).tokenValues.Keys == st.tokenValues.Keys + {name}
    ensures SetTokenValue(st, name, value).useRelativePaths == st.useRelativePaths
    ensures SetTokenEnabled(st, name, enabled).useRelativePaths == st.useRelativePaths
  {
  }

  /** Setting the value and the flag of one token gives the same entry in
      either order, also for a token not yet in the map. */
  lemma SettersCommute(st: State, name: string, value: Value, enabled: bool)
    ensures SetTokenEnabled(SetTokenValue(st, name, value), name, enabled)
         == SetTokenValue(SetTokenEnabled(st, name, enabled), name, value)
  {
  }

  /** The last value set wins. */
  lemma LastValueWins(st: State, name: string, v1: Value, v2: Value)
    ensures SetTokenValue(SetTokenValue(st, name, v1), name, v2) == SetTokenValue(st, name, v2)
  {
    var m := SetTokenValue(SetTokenValue(st, name, v1), name, v2).tokenValues;
    assert m == SetTokenValue(st, name, v2).tokenValues;
  }

  lemma UpdatesCommute<K, V>(m: map<K, V>, a: K, b: K, x: V, y: V)
    requires a != b
    ensures m[a := x][b := y] == m[b := y][a := x]
  {
  }

  /** Settings of different tokens do not interfere. */
  lemma DifferentTokensCommute(st: State, a: string, b: string, va: Value, vb: Value)
    requires a != b
    ensures SetTokenValue(SetTokenValue(st, a, va), b, vb) == SetTokenValue(SetTokenValue(st, b, vb), a, va)
  {
    var m := st.tokenValues;
    var ea := if a in m then m[a].(value := va) else TokenValue(va, true, None);
    var eb := if b in m then m[b].(value := vb) else TokenValue(vb, true, None);
    assert SetTokenValue(SetTokenValue(st, a, va), b, vb) == State(m[a := ea][b := eb], st.useRelativePaths) by {
      assert SetTokenValue(st, a, va) == State(m[a := ea], st.useRelativePaths);
    }
    assert SetTokenValue(SetTokenValue(st, b, vb), a, va) == State(m[b := eb][a := ea], st.useRelativePaths) by {
      assert SetTokenValue(st, b, vb) == State(m[b := eb], st.useRelativePaths);
    }
    UpdatesCommute(m, a, b, ea, eb);
  }
}

=== FILE: command_builder_types.dfy ===
/** The recipe and token shapes of src/features/CommandBuilder/commandBuilderTypes.ts. */
module RecipeTypes {
  import opened Strings

  datatype TokenKind = TextToken | NumberToken | OpenToken | SaveToken | UrlToken | TemplateToken

  /** The fields of a token definition that the modelled code reads. */
  datatype TokenDef = TokenDef(
    kind: TokenKind,
    required: Option<bool>,
    defaultValue: Option<string>,
    multivalue: Option<bool>,
    delimiter: Option<string>)

  datatype Recipe = Recipe(
    name: string,
    description: string,
    hidden: Option<bool>,
    base: string,
    args: seq<string>,
    tokens: map<string, TokenDef>)

  /** `open` and `save` tokens hold file-system paths. */
  predicate IsPathKind(kind: TokenKind) {
    kind == OpenToken || kind == SaveToken
  }
}

=== FILE: command_utils.dfy ===
/** `normalizeQuotes` of src/components/shared/commandUtils.ts: two
    character-class replacements, the first mapping its class to `"`, the
    second mapping its class to `'`. In the file both classes hold only the
    ASCII quote itself (`[""]` and `['']`), so the function as written
    changes nothing; the classes evidently meant are the typographic quotes
    U+201C and U+201D, and U+2018 and U+2019. Both are modelled; the
    second is the definition the properties are about. */
module CommandUtils {
  /** `s.replace(/[cls]/g, to)`: every character of the class replaced. */
  function ReplaceClass(s: string, cls: set<char>, to: char): (r: string)
    ensures |r| == |s|
    ensures forall i :: 0 <= i < |s| ==> r[i] == (if s[i] in cls then to else s[i])
  {
    if s == [] then []
    else [if s[0] in cls then to else s[0]] + ReplaceClass(s[1..], cls, to)
  }

  const AsciiDouble := '"'
  const AsciiSingle := '\''

  /** The classes as they are written in the file. */
  const DoubleClassAsWritten: set<char> := {'"', '"'}
  const SingleClassAsWritten: set<char> := {'\'', '\''}

  /** The classes evidently meant: left and right typographic quotes. */
  const DoubleClass: set<char> := {'“', '”'}
  const SingleClass: set<char> := {'‘', '’'}

  function NormalizeQuotesAsWritten(s: string): string {
    ReplaceClass(ReplaceClass(s, DoubleClassAsWritten, AsciiDouble), SingleClassAsWritten, AsciiSingle)
  }

  function NormalizeQuotes(s: string): string {
    ReplaceClass(ReplaceClass(s, DoubleClass, AsciiDouble), SingleClass, AsciiSingle)
  }

  /** As written, every text comes back unchanged, typographic quotes
      included. */
  lemma AsWrittenIsIdentity(s: string)
    ensures NormalizeQuotesAsWritten(s) == s
  {
  }

  lemma AsWrittenKeepsSmartQuotes(s: string)
    requires s == "echo “hi”"
    ensures NormalizeQuotesAsWritten(s) == s
    ensures NormalizeQuotes(s) == "echo \"hi\""
  {
    AsWrittenIsIdentity(s);
  }

  /** Typographic double quotes become `"`, typographic single quotes
      become `'`, and every other character stays; the length is kept. */
  lemma NormalizeQuotesMeaning(s: string)
    ensures |NormalizeQuotes(s)| == |s|
    ensures forall i :: 0 <= i < |s| ==>
      NormalizeQuotes(s)[i] ==
        if s[i] == '“' || s[i] == '”' then '"'
        else if s[i] == '‘' || s[i] == '’' then '\''
        else s[i]
  {
  }

  /** No typographic quote is left. */
  lemma NoSmartQuotesLeft(s: string)
    ensures forall i :: 0 <= i < |NormalizeQuotes(s)| ==>
      NormalizeQuotes(s)[i] !in DoubleClass && NormalizeQuotes(s)[i] !in SingleClass
  {
  }

  /** Normalising twice is normalising once. */
  lemma NormalizeQuotesIdempotent(s: string)
    ensures NormalizeQuotes(NormalizeQuotes(s)) == NormalizeQuotes(s)
  {
    NoSmartQuotesLeft(s);
  }
}

=== FILE: display_path.dfy ===
/** Path relativisation of src/features/Terminal/useDisplayPath.ts: paths
    as segment lists, the common-prefix walk of `toRelativePath`, the
    absolute branch of `toAbsolutePath`, and the display choice of
    `useDisplayPath`. The relative branch of `toAbsolutePath` calls a
    foreign resolver and is a parameter here; `Resolve` is an independent
    reference definition of segment resolution used to state that a
    relative path leads back to its target. */
module DisplayPath {
  import opened Strings

  // ---------------------------------------------------------------------
  // Segments.

  /** The parts that are not empty, in order (`filter(s => s.length > 0)`). */
  function DropEmpty(parts: seq<string>): (r: seq<string>)
    ensures forall i :: 0 <= i < |r| ==> r[i] != ""
  {
    if parts == [] then []
    else
      var rest := DropEmpty(parts[1..]);
      if parts[0] == "" then rest
      else
        assert forall i :: 1 <= i < |rest| + 1 ==> ([parts[0]] + rest)[i] == rest[i - 1];
        [parts[0]] + rest
  }

  lemma {:induction false} DropEmptyConcat(a: seq<string>, b: seq<string>)
    ensures DropEmpty(a + b) == DropEmpty(a) + DropEmpty(b)
    decreases |a|
  {
    if a != [] {
      assert (a + b)[0] == a[0] && (a + b)[1..] == a[1..] + b;
      DropEmptyConcat(a[1..], b);
    } else {
      assert a + b == b;
    }
  }

  /** Parts that are all non-empty are kept as they are. */
  lemma {:induction false} DropEmptyKeeps(parts: seq<string>)
    requires forall i :: 0 <= i < |parts| ==> parts[i] != ""
    ensures DropEmpty(parts) == parts
    decreases |parts|
  {
    if parts != [] {
      DropEmptyKeeps(parts[1..]);
    }
  }

  /** Dropping parts keeps what holds of every part. */
  lemma {:induction false} DropEmptyNoChar(parts: seq<string>, c: char)
    requires forall i :: 0 <= i < |parts| ==> NoChar(parts[i], c)
    ensures forall i :: 0 <= i < |DropEmpty(parts)| ==> NoChar(DropEmpty(parts)[i], c)
    decreases |parts|
  {
    if parts != [] {
      DropEmptyNoChar(parts[1..], c);
    }
  }

  /** `splitPathIntoSegments`. */
  function Segments(path: string): seq<string> {
    DropEmpty(Split(path, "/"))
  }

  /** A segment is a non-empty text without `/`. */
  predicate IsSegment(seg: string) {
    seg != "" && NoChar(seg, '/')
  }

  predicate AllSegments(segs: seq<string>) {
    forall i :: 0 <= i < |segs| ==> IsSegment(segs[i])
  }

  lemma SegmentsShape(path: string)
    ensures AllSegments(Segments(path))
  {
    SplitPartsNoChar(path, '/');
    DropEmptyNoChar(Split(path, "/"), '/');
  }

  /** A `/` separates the segments of what is before it from those after
      it; empty segments vanish, so doubled, leading and trailing slashes
      make no difference. */
  lemma SegmentsAroundSlash(a: string, b: string)
    ensures Segments(a + "/" + b) == Segments(a) + Segments(b)
  {
    SplitAround(a, '/', b);
    DropEmptyConcat(Split(a, "/"), Split(b, "/"));
  }

  lemma SegmentsOfEmpty()
    ensures Segments("") == []
  {
    SplitNoSep("", '/');
  }

  lemma RepeatedSlashIgnored(a: string, b: string)
    ensures Segments(a + "//" + b) == Segments(a + "/" + b)
  {
    assert a + "//" + b == a + "/" + ("/" + b);
    SegmentsAroundSlash(a, "/" + b);
    assert "/" + b == "" + "/" + b;
    SegmentsAroundSlash("", b);
    SegmentsAroundSlash(a, b);
    SegmentsOfEmpty();
  }

  lemma TrailingSlashIgnored(a: string)
    ensures Segments(a + "/") == Segments(a)
  {
    assert a + "/" == a + "/" + "";
    SegmentsAroundSlash(a, "");
    SegmentsOfEmpty();
  }

  /** Joining segments with `/` and splitting again gives them back. */
  lemma SegmentsOfJoin(segs: seq<string>)
    requires AllSegments(segs)
    ensures Segments(Join(segs, "/")) == segs
  {
    if segs == [] {
      SegmentsOfEmpty();
    } else {
      SplitJoin(segs, '/');
      DropEmptyKeeps(segs);
    }
  }

  /** A leading `/` adds no segment. */
  lemma LeadingSlashIgnored(a: string)
    ensures Segments("/" + a) == Segments(a)
  {
    assert "/" + a == "" + "/" + a;
    SegmentsAroundSlash("", a);
    SegmentsOfEmpty();
  }

  // ---------------------------------------------------------------------
  // Relativisation.

  /** The length of the longest shared prefix (the `while` loop counting `common`). */
  function CommonLen(a: seq<string>, b: seq<string>): (n: nat)
    ensures n <= |a| && n <= |b| && a[..n] == b[..n]
    ensures n < |a| && n < |b| ==> a[n] != b[n]
  {
    if a != [] && b != [] && a[0] == b[0] then
      var n := CommonLen(a[1..], b[1..]);
      assert a[..n + 1] == [a[0]] + a[1..][..n] && b[..n + 1] == [b[0]] + b[1..][..n];
      n + 1
    else 0
  }

  /** No longer prefix is shared. */
  lemma CommonLenLongest(a: seq<string>, b: seq<string>, k: nat)
    requires k <= |a| && k <= |b| && a[..k] == b[..k]
    ensures k <= CommonLen(a, b)
  {
  }

  /** The whole of `b` is shared exactly when it is a prefix of `a`. */
  lemma CommonLenWhole(a: seq<string>, b: seq<string>)
    ensures CommonLen(a, b) == |b| <==> |b| <= |a| && a[..|b|] == b
  {
    if |b| <= |a| && a[..|b|] == b {
      assert b[..|b|] == b;
      CommonLenLongest(a, b, |b|);
    }
  }

  /** `k` copies of `..`. */
  function Ups(k: nat): (r: seq<string>)
    ensures |r| == k && forall i :: 0 <= i < k ==> r[i] == ".."
  {
    seq(k, _ => "..")
  }

  /** The relative path from the segments `f` of the cwd to the segments `t`
      of the target: `..` for each cwd segment past the common prefix, then
      the target's remaining segments. */
  function RelativeOf(t: seq<string>, f: seq<string>): string {
    var common := CommonLen(t, f);
    RelativeText(|f| - common, t[common..])
  }

  /** The text for `ups` steps up (none when `ups <= 0`) and the remaining
      target segments. */
  function RelativeText(ups: int, rest: seq<string>): string {
    if ups > 0 then UpText(ups, rest) else DownText(rest)
  }

  /** The `ups > 0` branch: `../..`, then `/` and the rest when there is any. */
  function UpText(ups: nat, rest: seq<string>): string {
    var upPath := Join(Ups(ups), "/");
    var downs := Join(rest, "/");
    if downs != "" then upPath + "/" + downs else upPath
  }

  /** The other branch: `./` and the rest, or `.` when there is none. */
  function DownText(rest: seq<string>): string {
    var downs := Join(rest, "/");
    if downs != "" then "./" + downs else "."
  }

  /** `toRelativePath(target, cwd)`. */
  function ToRelativePath(target: string, cwd: string): string {
    RelativeOf(Segments(target), Segments(cwd))
  }

  /** The relative path is `.` exactly when target and cwd have the same segments. */
  lemma RelativeDot(t: seq<string>, f: seq<string>)
    requires AllSegments(t)
    ensures RelativeOf(t, f) == "." <==> t == f
  {
    var c := CommonLen(t, f);
    JoinEmptyIff(t[c..], "/");
    if |f| - c > 0 {
      assert Join(Ups(|f| - c), "/")[..2] == "..";
    } else if t == f {
      assert t[c..] == [];
    } else {
      assert ("./" + Join(t[c..], "/"))[1] == '/';
    }
  }

  /** A target strictly under the cwd gives `./` and the remaining segments. */
  lemma RelativeUnder(t: seq<string>, f: seq<string>)
    requires AllSegments(t)
    requires |f| < |t| && t[..|f|] == f
    ensures RelativeOf(t, f) == "./" + Join(t[|f|..], "/")
  {
    assert f[..|f|] == f;
    CommonLenLongest(t, f, |f|);
    JoinEmptyIff(t[|f|..], "/");
  }

  /** The `..` branch is the join of the `..`s and the rest. */
  lemma UpTextJoin(k: nat, rest: seq<string>)
    requires k > 0 && AllSegments(rest)
    ensures UpText(k, rest) == Join(Ups(k) + rest, "/")
  {
    JoinEmptyIff(rest, "/");
    if rest != [] {
      JoinConcat(Ups(k), rest, "/");
    } else {
      assert Ups(k) + rest == Ups(k);
    }
  }

  /** Otherwise each cwd segment past the common prefix becomes `..`,
      followed by the target's remaining segments. */
  lemma RelativeUp(t: seq<string>, f: seq<string>)
    requires AllSegments(t)
    requires !(|f| <= |t| && t[..|f|] == f)
    ensures var c := CommonLen(t, f);
      c < |f| && RelativeOf(t, f) == Join(Ups(|f| - c) + t[c..], "/")
  {
    var c := CommonLen(t, f);
    CommonLenWhole(t, f);
    AllSegmentsSuffix(t, c);
    UpTextJoin(|f| - c, t[c..]);
  }

  // ---------------------------------------------------------------------
  // Resolution: the relative path leads back to the target.

  /** Walking `rel` from `base`: `..` goes up (staying at the root), `.`
      stays, any other segment goes down. */
  function Resolve(base: seq<string>, rel: seq<string>): seq<string>
    decreases |rel|
  {
    if rel == [] then base
    else if rel[0] == ".." then Resolve(if base == [] then [] else base[..|base| - 1], rel[1..])
    else if rel[0] == "." then Resolve(base, rel[1..])
    else Resolve(base + [rel[0]], rel[1..])
  }

  /** Segments that name directory entries rather than moving. */
  predicate Plain(segs: seq<string>) {
    forall i :: 0 <= i < |segs| ==> segs[i] != "." && segs[i] != ".."
  }

  lemma {:induction false} ResolveUps(base: seq<string>, k: nat, rest: seq<string>)
    requires k <= |base|
    ensures Resolve(base, Ups(k) + rest) == Resolve(base[..|base| - k], rest)
    decreases k
  {
    if k > 0 {
      var rel := Ups(k) + rest;
      assert rel[0] == ".." && rel[1..] == Ups(k - 1) + rest;
      var up := base[..|base| - 1];
      assert Resolve(base, rel) == Resolve(up, rel[1..]);
      ResolveUps(up, k - 1, rest);
      assert up[..|up| - (k - 1)] == base[..|base| - k];
    } else {
      assert Ups(k) + rest == rest && base[..|base| - k] == base;
    }
  }

  lemma {:induction false} ResolvePlain(base: seq<string>, rest: seq<string>)
    requires Plain(rest)
    ensures Resolve(base, rest) == base + rest
    decreases |rest|
  {
    if rest != [] {
      ResolvePlain(base + [rest[0]], rest[1..]);
      assert base + [rest[0]] + rest[1..] == base + rest;
    } else {
      assert base + rest == base;
    }
  }

  /** The segments of `../..` joined with the rest. */
  lemma UpSegments(k: nat, rest: seq<string>)
    requires k > 0 && AllSegments(rest)
    ensures Segments(UpText(k, rest)) == Ups(k) + rest
  {
    var ups := Ups(k);
    assert AllSegments(ups);
    SegmentsOfJoin(ups);
    SegmentsOfJoin(rest);
    JoinEmptyIff(rest, "/");
    if rest != [] {
      SegmentsAroundSlash(Join(ups, "/"), Join(rest, "/"));
    } else {
      assert ups + rest == ups;
    }
  }

  /** The segments of `./rest`, or of `.`. */
  lemma DotSegments(rest: seq<string>)
    requires AllSegments(rest)
    ensures Segments(DownText(rest)) == ["."] + rest
  {
    SegmentsOfJoin(rest);
    JoinEmptyIff(rest, "/");
    SplitNoSep(".", '/');
    assert DropEmpty(["."]) == ["."];
    if rest != [] {
      assert "./" + Join(rest, "/") == "." + "/" + Join(rest, "/");
      SegmentsAroundSlash(".", Join(rest, "/"));
    } else {
      assert ["."] + rest == ["."];
    }
  }

  lemma AllSegmentsSuffix(t: seq<string>, c: nat)
    requires AllSegments(t) && c <= |t|
    ensures AllSegments(t[c..])
  {
  }

  /** The segments of a relative text: the `..`s, or `.`, then the rest. */
  lemma RelativeTextSegments(ups: int, rest: seq<string>)
    requires AllSegments(rest)
    ensures ups > 0 ==> Segments(RelativeText(ups, rest)) == Ups(ups) + rest
    ensures ups <= 0 ==> Segments(RelativeText(ups, rest)) == ["."] + rest
  {
    if ups > 0 {
      UpSegments(ups, rest);
    } else {
      DotSegments(rest);
    }
  }

  /** Walking the `..`s (or `.`) and then the rest of a plain target from
      the cwd's segments arrives at the target. */
  lemma ResolveRelativeSegments(t: seq<string>, f: seq<string>)
    requires Plain(t)
    ensures var c := CommonLen(t, f);
      Resolve(f, (if |f| > c then Ups(|f| - c) else ["."]) + t[c..]) == t
  {
    var c := CommonLen(t, f);
    var rest := t[c..];
    if |f| > c {
      assert Resolve(f, Ups(|f| - c) + rest) == t by {
        ResolveUps(f, |f| - c, rest);
        ResolveCommon(t, f);
      }
    } else {
      assert Resolve(f, ["."] + rest) == t by {
        var rel := ["."] + rest;
        assert rel[0] == "." && rel[1..] == rest;
        assert f[..c] == f;
        ResolveCommon(t, f);
      }
    }
  }

  /** Walking down from the common prefix reaches the target. */
  lemma ResolveCommon(t: seq<string>, f: seq<string>)
    requires Plain(t)
    ensures Resolve(f[..CommonLen(t, f)], t[CommonLen(t, f)..]) == t
  {
    var c := CommonLen(t, f);
    var rest := t[c..];
    assert Plain(rest);
    ResolvePlain(f[..c], rest);
    assert f[..c] + rest == t;
  }

  /** Resolving the relative path from the cwd gives back the target, when
      the target's segments are plain names. */
  lemma RelativeRoundTrip(target: string, cwd: string)
    requires Plain(Segments(target))
    ensures Resolve(Segments(cwd), Segments(ToRelativePath(target, cwd))) == Segments(target)
  {
    var t, f := Segments(target), Segments(cwd);
    var c := CommonLen(t, f);
    var walk := (if |f| > c then Ups(|f| - c) else ["."]) + t[c..];
    assert Segments(ToRelativePath(target, cwd)) == walk by {
      SegmentsShape(target);
      AllSegmentsSuffix(t, c);
      RelativeTextSegments(|f| - c, t[c..]);
      assert ToRelativePath(target, cwd) == RelativeText(|f| - c, t[c..]);
    }
    assert Resolve(f, walk) == t by {
      ResolveRelativeSegments(t, f);
    }
  }

  // ---------------------------------------------------------------------
  // The two directions of `useDisplayPath`.

  /** `toAbsolutePath(value, cwd)`: an absolute value is returned as is; a
      relative one goes to the resolver, which is a parameter of the model. */
  function ToAbsolutePath(value: string, cwd: string, resolvePath: (string, string) -> string): string {
    if StartsWith(value, "/") then value else resolvePath(cwd, value)
  }

  /** The `path` shown for an absolute path. */
  function ShownPath(absolutePath: string, cwd: string, useRelative: bool): string {
    if absolutePath == "" || !StartsWith(absolutePath, "/") then absolutePath
    else if useRelative then ToRelativePath(absolutePath, cwd)
    else absolutePath
  }

  /** The path handed to `_onChange` for an edited value. */
  function ChangedPath(value: string, cwd: string, useRelative: bool, resolvePath: (string, string) -> string): string {
    if useRelative then ToAbsolutePath(value, cwd, resolvePath) else value
  }

  /** A relative path starts with `.`, so it is never taken for an absolute one. */
  lemma RelativeStartsWithDot(t: seq<string>, f: seq<string>)
    ensures var r := RelativeOf(t, f);
      r != "" && r[0] == '.' && !StartsWith(r, "/")
  {
    var c := CommonLen(t, f);
    var rest := t[c..];
    if |f| - c > 0 {
      var k := |f| - c;
      var upPath := Join(Ups(k), "/");
      assert upPath != "" && upPath[0] == '.' by {
        if k > 1 {
          JoinCons("..", Ups(k - 1), "/");
          assert Ups(k) == [".."] + Ups(k - 1);
        }
      }
      var downs := Join(rest, "/");
      if downs != "" {
        assert (upPath + "/" + downs)[0] == upPath[0];
      }
    } else {
      var downs := Join(rest, "/");
      if downs != "" {
        assert ("./" + downs)[0] == '.';
      }
    }
  }

  /** A resolver that, for a relative path, walks its segments from the
      base's segments as `Resolve` does. */
  ghost predicate ResolvesRelative(resolvePath: (string, string) -> string) {
    forall base, rel :: !StartsWith(rel, "/") ==>
      Segments(resolvePath(base, rel)) == Resolve(Segments(base), Segments(rel))
  }

  /** With relative paths on, handing the shown path of an absolute file
      back unedited reaches the same file: the relative display and the
      resolution of an edit are inverse. */
  lemma EditShownPathRoundTrip(p: string, cwd: string, resolvePath: (string, string) -> string)
    requires StartsWith(p, "/") && Plain(Segments(p))
    requires ResolvesRelative(resolvePath)
    ensures Segments(ChangedPath(ShownPath(p, cwd, true), cwd, true, resolvePath)) == Segments(p)
  {
    var shown := ToRelativePath(p, cwd);
    assert ShownPath(p, cwd, true) == shown;
    RelativeStartsWithDot(Segments(p), Segments(cwd));
    assert ChangedPath(shown, cwd, true, resolvePath) == resolvePath(cwd, shown);
    RelativeRoundTrip(p, cwd);
  }

  /** The segments of an absolute path written out. */
  lemma AbsoluteSegments(segs: seq<string>)
    requires AllSegments(segs)
    ensures Segments("/" + Join(segs, "/")) == segs
  {
    SegmentsOfJoin(segs);
    LeadingSlashIgnored(Join(segs, "/"));
  }

  lemma CwdSegments(cwd: string)
    requires cwd == "/Users/test"
    ensures Segments(cwd) == ["Users", "test"]
  {
    var f := ["Users", "test"];
    assert cwd == "/" + Join(f, "/");
    AbsoluteSegments(f);
  }

  lemma ChildSegments(path: string)
    requires path == "/Users/test/test"
    ensures Segments(path) == ["Users", "test", "test"]
  {
    var t := ["Users", "test", "test"];
    assert path == "/" + Join(t, "/");
    AbsoluteSegments(t);
  }

  lemma SiblingJoin(path: string)
    requires path == "/Users/test2/one/two"
    ensures path == "/" + Join(["Users", "test2", "one", "two"], "/")
  {
    JoinCons("one", ["two"], "/");
    JoinCons("test2", ["one", "two"], "/");
    JoinCons("Users", ["test2", "one", "two"], "/");
  }

  lemma SiblingNames()
    ensures AllSegments(["Users", "test2", "one", "two"])
  {
    var t := ["Users", "test2", "one", "two"];
    assert IsSegment(t[0]) by { assert t[0] == ['U', 's', 'e', 'r', 's']; }
    assert IsSegment(t[1]) by { assert t[1] == ['t', 'e', 's', 't', '2']; }
    assert IsSegment(t[2]) by { assert t[2] == ['o', 'n', 'e']; }
    assert IsSegment(t[3]) by { assert t[3] == ['t', 'w', 'o']; }
  }

  lemma SiblingSegments(path: string)
    requires path == "/Users/test2/one/two"
    ensures Segments(path) == ["Users", "test2", "one", "two"]
  {
    SiblingJoin(path);
    SiblingNames();
    AbsoluteSegments(["Users", "test2", "one", "two"]);
  }

  /** From `/Users/test`, `/Users/test/test` is `./test`. */
  lemma RelativeChildExample()
    ensures RelativeOf(["Users", "test", "test"], ["Users", "test"]) == "./test"
  {
    var t := ["Users", "test", "test"];
    var f := ["Users", "test"];
    RelativeUnder(t, f);
    assert t[|f|..] == ["test"];
  }

  /** The same child, from the path texts. */
  lemma ChildPathExample(target: string, cwd: string)
    requires target == "/Users/test/test" && cwd == "/Users/test"
    ensures ToRelativePath(target, cwd) == "./test"
  {
    CwdSegments(cwd);
    ChildSegments(target);
    RelativeChildExample();
  }

  /** From `/Users/test`, the sibling `/Users/test2/one/two` is
      `../test2/one/two`. */
  lemma RelativeSiblingExample()
    ensures RelativeOf(["Users", "test2", "one", "two"], ["Users", "test"]) == "../test2/one/two"
  {
    var t := ["Users", "test2", "one", "two"];
    var f := ["Users", "test"];
    assert t[1] != f[1];
    assert CommonLen(t, f) == 1 by {
      CommonLenLongest(t, f, 1);
    }
    RelativeUp(t, f);
    assert Ups(1) + t[1..] == ["..", "test2", "one", "two"];
  }

  /** The same sibling, from the path texts. */
  lemma SiblingPathExample(target: string, cwd: string)
    requires target == "/Users/test2/one/two" && cwd == "/Users/test"
    ensures ToRelativePath(target, cwd) == "../test2/one/two"
  {
    CwdSegments(cwd);
    SiblingSegments(target);
    RelativeSiblingExample();
  }
}

=== FILE: history.dfy ===
/** The terminal history slice of src/features/Terminal/terminalHistorySlice.ts:
    completed runs, the commands still running, the latest prompt, and the
    "most recent execution of this command" selector.

    Identifiers come from `nanoid()` and timestamps from the clock, so both
    are inputs here; timestamps are milliseconds since the epoch. */
module TerminalHistory {
  import opened Strings

  datatype Entry = Entry(
    id: string,
    prompt: string,
    command: string,
    output: string,
    exitCode: int,
    startedAt: int,
    finishedAt: int)

  datatype RunningCommand = RunningCommand(id: string, prompt: string, command: string, startedAt: int)

  datatype HistoryState = HistoryState(
    entries: seq<Entry>,
    runningCommands: seq<RunningCommand>,
    latestPrompt: string)

  /** The payload of `recordRun`: an entry without its id. */
  datatype RunPayload = RunPayload(
    prompt: string,
    command: string,
    output: string,
    exitCode: int,
    startedAt: int,
    finishedAt: int)

  /** The payload of `startCommand`: a running command without its id. */
  datatype StartPayload = StartPayload(prompt: string, command: string, startedAt: int)

  const InitialState := HistoryState([], [], "")

  // ---------------------------------------------------------------------
  // Command normalisation: trim, then every whitespace run becomes one space.

  /** Whitespace at `i` and at `i + 1`. */
  predicate DoubleSpaceAt(s: string, i: nat)
    requires i + 1 < |s|
  {
    IsSpace(s[i]) && IsSpace(s[i + 1])
  }

  /** The commands normalisation produces: no whitespace at either end, no
      whitespace other than single spaces. */
  predicate IsNormal(s: string) {
    && (s == [] || (!IsSpace(s[0]) && !IsSpace(s[|s| - 1])))
    && (forall i :: 0 <= i < |s| && IsSpace(s[i]) ==> s[i] == ' ')
    && (forall i :: 0 <= i < |s| - 1 ==> !DoubleSpaceAt(s, i))
  }

  /** The characters of `s` that are not whitespace, in order. */
  function NonSpace(s: string): string {
    if s == [] then []
    else if IsSpace(s[0]) then NonSpace(s[1..])
    else [s[0]] + NonSpace(s[1..])
  }

  /** `replace(/\s+/g, " ")`: a whitespace character followed by another is
      dropped, and the last one of each run becomes a single space. */
  function CollapseSpaces(s: string): string {
    if s == [] then []
    else if IsSpace(s[0]) then
      if |s| > 1 && IsSpace(s[1]) then CollapseSpaces(s[1..]) else " " + CollapseSpaces(s[1..])
    else [s[0]] + CollapseSpaces(s[1..])
  }

  /** What collapsing produces: single spaces as the only whitespace, never
      two in a row, the same non-whitespace text, and the same kind of
      character at each end. */
  lemma {:induction false} CollapseSpacesShape(s: string)
    ensures var r := CollapseSpaces(s);
      && |r| <= |s|
      && (r == [] <==> s == [])
      && (s != [] && !IsSpace(s[0]) ==> r[0] == s[0])
      && (s != [] && IsSpace(s[0]) ==> r[0] == ' ')
      && (s != [] && !IsSpace(s[|s| - 1]) ==> r[|r| - 1] == s[|s| - 1])
      && (forall i :: 0 <= i < |r| && IsSpace(r[i]) ==> r[i] == ' ')
      && (forall i :: 0 <= i < |r| - 1 ==> !DoubleSpaceAt(r, i))
      && NonSpace(r) == NonSpace(s)
    decreases |s|
  {
    if s != [] {
      var t := s[1..];
      CollapseSpacesShape(t);
      var rt := CollapseSpaces(t);
      if IsSpace(s[0]) && |s| > 1 && IsSpace(s[1]) {
        assert CollapseSpaces(s) == rt;
      } else {
        var r := CollapseSpaces(s);
        assert r == (if IsSpace(s[0]) then " " else [s[0]]) + rt;
        assert forall i :: 0 < i < |r| ==> r[i] == rt[i - 1];
        forall i | 0 <= i < |r| - 1
          ensures !DoubleSpaceAt(r, i)
        {
          if i > 0 {
            assert !DoubleSpaceAt(rt, i - 1);
          }
        }
        assert t != [] ==> t[|t| - 1] == s[|s| - 1];
      }
    }
  }

  lemma {:induction false} NonSpaceDropsSpaces(s: string, k: nat)
    requires k <= |s| && AllSpace(s[..k])
    ensures NonSpace(s) == NonSpace(s[k..])
    decreases k
  {
    if k > 0 {
      assert IsSpace(s[..k][0]);
      assert s[1..][..k - 1] == s[1..k];
      assert forall i :: 0 <= i < k - 1 ==> s[1..k][i] == s[..k][i + 1];
      NonSpaceDropsSpaces(s[1..], k - 1);
      assert s[1..][k - 1..] == s[k..];
    }
  }

  /** `normalizeCommand`: the key under which commands are compared. */
  function NormalizeCommand(command: string): string {
    CollapseSpaces(Trim(command))
  }

  /** The key is in normal form and keeps the command's non-whitespace text. */
  lemma NormalizeCommandNormal(command: string)
    ensures IsNormal(NormalizeCommand(command))
    ensures NonSpace(NormalizeCommand(command)) == NonSpace(command)
  {
    var t := Trim(command);
    TrimShape(command);
    TrimKeepsNonSpace(command);
    CollapseSpacesShape(t);
  }

  lemma TrimKeepsNonSpace(s: string)
    ensures NonSpace(Trim(s)) == NonSpace(s)
  {
    var a := TrimStart(s);
    TrimStartShape(s);
    NonSpaceDropsSpaces(s, |s| - |a|);
    var b := TrimEnd(a);
    TrimEndShape(a);
    NonSpaceTrailing(a, |b|);
  }

  lemma {:induction false} NonSpaceTrailing(s: string, k: nat)
    requires k <= |s| && AllSpace(s[k..])
    ensures NonSpace(s) == NonSpace(s[..k])
    decreases k
  {
    if k == 0 {
      NonSpaceDropsSpaces(s, |s|);
      assert s[|s|..] == [];
      assert s[..|s|] == s;
    } else {
      assert s[1..][k - 1..] == s[k..];
      NonSpaceTrailing(s[1..], k - 1);
      assert s[..k][1..] == s[1..][..k - 1];
    }
  }

  /** A command already in normal form is its own key. */
  lemma {:induction false} CollapseNormal(s: string)
    requires forall i :: 0 <= i < |s| && IsSpace(s[i]) ==> s[i] == ' '
    requires forall i :: 0 <= i < |s| - 1 ==> !DoubleSpaceAt(s, i)
    ensures CollapseSpaces(s) == s
    decreases |s|
  {
    if s != [] {
      assert |s| > 1 ==> !DoubleSpaceAt(s, 0);
      forall i | 0 <= i < |s| - 2
        ensures !DoubleSpaceAt(s[1..], i)
      {
        assert !DoubleSpaceAt(s, i + 1);
      }
      CollapseNormal(s[1..]);
    }
  }

  /** A whitespace run in front of a non-whitespace character (or of the end)
      collapses to one space. */
  lemma {:induction false} CollapseRun(w: string, b: string)
    requires w != [] && AllSpace(w)
    requires b == [] || !IsSpace(b[0])
    ensures CollapseSpaces(w + b) == " " + CollapseSpaces(b)
    decreases |w|
  {
    var x := w + b;
    assert x[0] == w[0] && x[1..] == w[1..] + b;
    if |w| > 1 {
      assert x[1] == w[1];
      CollapseRun(w[1..], b);
    } else {
      assert w[1..] + b == b;
    }
  }

  /** Collapsing distributes over a split just after a non-whitespace
      character. */
  lemma {:induction false} CollapseConcat(a: string, b: string)
    requires a != [] && !IsSpace(a[|a| - 1])
    ensures CollapseSpaces(a + b) == CollapseSpaces(a) + CollapseSpaces(b)
    decreases |a|
  {
    var x := a + b;
    assert x[0] == a[0] && x[1..] == a[1..] + b;
    if |a| == 1 {
      assert a[1..] + b == b && a[1..] == [];
    } else {
      assert x[1] == a[1];
      CollapseConcat(a[1..], b);
    }
  }

  /** Between two words, a whitespace run of any length and kind becomes
      exactly one space. */
  lemma CollapseWordBreak(a: string, w: string, b: string)
    requires a != [] && !IsSpace(a[|a| - 1])
    requires w != [] && AllSpace(w)
    requires b == [] || !IsSpace(b[0])
    ensures CollapseSpaces(a + w + b) == CollapseSpaces(a) + " " + CollapseSpaces(b)
  {
    assert a + w + b == a + (w + b);
    CollapseConcat(a, w + b);
    CollapseRun(w, b);
  }

  /** A text without whitespace is its own collapse. */
  lemma CollapseNoSpace(s: string)
    requires NoSpace(s)
    ensures CollapseSpaces(s) == s
  {
    CollapseNormal(s);
  }

  /** Trimming `"  ls   -la  "` leaves `"ls   -la"`. */
  lemma TrimExample()
    ensures Trim("  ls   -la  ") == "ls   -la"
  {
    var front, word, back := "  ", "ls   -la", "  ";
    assert AllSpace(front) by { assert front[0] == ' ' && front[1] == ' '; }
    assert word[0] == 'l' && word[|word| - 1] == 'a';
    assert front + word + back == "  ls   -la  ";
    TrimPadded(front, word, back);
  }

  /** Collapsing `"ls   -la"` leaves `"ls -la"`. */
  lemma CollapseExample()
    ensures CollapseSpaces("ls   -la") == "ls -la"
  {
    var a, w, b := "ls", "   ", "-la";
    assert AllSpace(w) by { assert w[0] == ' ' && w[1] == ' ' && w[2] == ' '; }
    assert a[1] == 's' && b[0] == '-';
    assert a + w + b == "ls   -la";
    CollapseWordBreak(a, w, b);
    assert NoSpace(a) by { assert a[0] == 'l'; }
    assert NoSpace(b) by { assert b[1] == 'l' && b[2] == 'a'; }
    CollapseNoSpace(a);
    CollapseNoSpace(b);
    assert a + " " + b == "ls -la";
  }

  /** `normalizeCommand("  ls   -la  ")` is `"ls -la"`. */
  lemma NormalizeExample()
    ensures NormalizeCommand("  ls   -la  ") == "ls -la"
  {
    TrimExample();
    CollapseExample();
  }

  lemma NormalizeFixed(s: string)
    requires IsNormal(s)
    ensures NormalizeCommand(s) == s
  {
    TrimFixed(s);
    CollapseNormal(s);
  }

  /** Normalising twice is normalising once. */
  lemma NormalizeIdempotent(s: string)
    ensures NormalizeCommand(NormalizeCommand(s)) == NormalizeCommand(s)
  {
    NormalizeCommandNormal(s);
    NormalizeFixed(NormalizeCommand(s));
  }

  // ---------------------------------------------------------------------
  // Reducers.

  predicate SameCommand(a: string, b: string) {
    NormalizeCommand(a) == NormalizeCommand(b)
  }

  /** The running commands whose normalised text differs from `key`, in order. */
  function WithoutCommand(running: seq<RunningCommand>, key: string): (r: seq<RunningCommand>)
    ensures |r| <= |running|
    ensures forall i :: 0 <= i < |r| ==> NormalizeCommand(r[i].command) != key
    ensures forall x :: x in r ==> x in running
    ensures forall x :: x in running && NormalizeCommand(x.command) != key ==> x in r
  {
    if running == [] then []
    else if NormalizeCommand(running[0].command) != key then [running[0]] + WithoutCommand(running[1..], key)
    else WithoutCommand(running[1..], key)
  }

  /** The filter is determined piecewise: it distributes over concatenation. */
  lemma {:induction false} WithoutCommandConcat(a: seq<RunningCommand>, b: seq<RunningCommand>, key: string)
    ensures WithoutCommand(a + b, key) == WithoutCommand(a, key) + WithoutCommand(b, key)
    decreases |a|
  {
    if a == [] {
      assert a + b == b;
    } else {
      assert (a + b)[1..] == a[1..] + b;
      WithoutCommandConcat(a[1..], b, key);
    }
  }

  /** An independent, left-to-right reading of the filter: walking the list
      from the front, each command is kept exactly when its normalised text
      differs from `key`, and kept ones stay in their original order. */
  lemma WithoutCommandSnoc(a: seq<RunningCommand>, x: RunningCommand, key: string)
    ensures WithoutCommand([], key) == []
    ensures WithoutCommand(a + [x], key)
         == WithoutCommand(a, key) + (if NormalizeCommand(x.command) == key then [] else [x])
  {
    WithoutCommandConcat(a, [x], key);
    assert [x][1..] == [];
  }

  /** `recordRun`: append the finished entry, retire the running command with
      the same normalised text, and remember the prompt. */
  function RecordRun(st: HistoryState, payload: RunPayload, id: string): (r: HistoryState)
    ensures |r.entries| == |st.entries| + 1 && r.entries[..|st.entries|] == st.entries
    ensures r.entries[|st.entries|] == Entry(id, payload.prompt, payload.command, payload.output,
                                            payload.exitCode, payload.startedAt, payload.finishedAt)
    ensures r.runningCommands == WithoutCommand(st.runningCommands, NormalizeCommand(payload.command))
    ensures forall x :: x in r.runningCommands ==> !SameCommand(x.command, payload.command)
    ensures forall x :: x in st.runningCommands && !SameCommand(x.command, payload.command) ==> x in r.runningCommands
    ensures r.latestPrompt == payload.prompt
  {
    var entry := Entry(id, payload.prompt, payload.command, payload.output,
                       payload.exitCode, payload.startedAt, payload.finishedAt);
    HistoryState(
      st.entries + [entry],
      WithoutCommand(st.runningCommands, NormalizeCommand(payload.command)),
      payload.prompt)
  }

  /** `startCommand`: replace any running command with the same normalised
      text by the new one, at the end. */
  function StartCommand(st: HistoryState, payload: StartPayload, id: string): (r: HistoryState)
    ensures r.entries == st.entries && r.latestPrompt == st.latestPrompt
    ensures r.runningCommands == WithoutCommand(st.runningCommands, NormalizeCommand(payload.command))
                                 + [RunningCommand(id, payload.prompt, payload.command, payload.startedAt)]
    ensures |r.runningCommands| > 0
    ensures r.runningCommands[|r.runningCommands| - 1] == RunningCommand(id, payload.prompt, payload.command, payload.startedAt)
    ensures forall i :: 0 <= i < |r.runningCommands| - 1 ==>
      !SameCommand(r.runningCommands[i].command, payload.command)
    ensures forall x :: x in st.runningCommands && !SameCommand(x.command, payload.command) ==> x in r.runningCommands
  {
    var kept := WithoutCommand(st.runningCommands, NormalizeCommand(payload.command));
    st.(runningCommands := kept + [RunningCommand(id, payload.prompt, payload.command, payload.startedAt)])
  }

  /** `setLatestPrompt`. */
  function SetLatestPrompt(st: HistoryState, prompt: string): (r: HistoryState)
    ensures r.entries == st.entries && r.runningCommands == st.runningCommands
    ensures r.latestPrompt == prompt
  {
    st.(latestPrompt := prompt)
  }

  /** The entries whose id differs from `id`, in order. */
  function WithoutId(entries: seq<Entry>, id: string): (r: seq<Entry>)
    ensures |r| <= |entries|
    ensures forall i :: 0 <= i < |r| ==> r[i].id != id
    ensures forall x :: x in r ==> x in entries
    ensures forall x :: x in entries && x.id != id ==> x in r
  {
    if entries == [] then []
    else if entries[0].id != id then [entries[0]] + WithoutId(entries[1..], id)
    else WithoutId(entries[1..], id)
  }

  /** The filter is determined piecewise: it distributes over concatenation. */
  lemma {:induction false} WithoutIdConcat(a: seq<Entry>, b: seq<Entry>, id: string)
    ensures WithoutId(a + b, id) == WithoutId(a, id) + WithoutId(b, id)
    decreases |a|
  {
    if a == [] {
      assert a + b == b;
    } else {
      assert (a + b)[1..] == a[1..] + b;
      WithoutIdConcat(a[1..], b, id);
    }
  }

  /** An independent, left-to-right reading of the filter: each entry is kept
      exactly when its id differs from `id`, in the original order. */
  lemma WithoutIdSnoc(a: seq<Entry>, x: Entry, id: string)
    ensures WithoutId([], id) == []
    ensures WithoutId(a + [x], id) == WithoutId(a, id) + (if x.id == id then [] else [x])
  {
    WithoutIdConcat(a, [x], id);
    assert [x][1..] == [];
  }

  /** `dismissEntry`: drop the entries with that id; nothing else changes. */
  function DismissEntry(st: HistoryState, id: string): (r: HistoryState)
    ensures r.entries == WithoutId(st.entries, id)
    ensures forall x :: x in r.entries <==> x in st.entries && x.id != id
    ensures r.runningCommands == st.runningCommands && r.latestPrompt == st.latestPrompt
  {
    st.(entries := WithoutId(st.entries, id))
  }

  /** `clearHistory`. */
  function ClearHistory(st: HistoryState): (r: HistoryState)
    ensures r.entries == [] && r.runningCommands == [] && r.latestPrompt == ""
  {
    InitialState
  }

  /** No two of the running commands share a normalised text. */
  predicate UniqueCommands(running: seq<RunningCommand>) {
    forall i, j :: 0 <= i < j < |running| ==> !SameCommand(running[i].command, running[j].command)
  }

  /** The invariant `startCommand` maintains. */
  predicate RunningUnique(st: HistoryState) {
    UniqueCommands(st.runningCommands)
  }

  /** Filtering keeps the running commands pairwise distinct. */
  lemma {:induction false} WithoutCommandUnique(running: seq<RunningCommand>, key: string)
    requires UniqueCommands(running)
    ensures UniqueCommands(WithoutCommand(running, key))
    decreases |running|
  {
    if running != [] {
      UniqueTail(running);
      WithoutCommandUnique(running[1..], key);
      if NormalizeCommand(running[0].command) != key {
        UniqueCons(running[0], running[1..], WithoutCommand(running[1..], key));
      }
    }
  }

  lemma UniqueTail(running: seq<RunningCommand>)
    requires running != [] && UniqueCommands(running)
    ensures UniqueCommands(running[1..])
  {
    var rest := running[1..];
    forall i, j | 0 <= i < j < |rest|
      ensures !SameCommand(rest[i].command, rest[j].command)
    {
      assert rest[i] == running[i + 1] && rest[j] == running[j + 1];
    }
  }

  /** Putting a command in front of distinct commands taken from a list it
      heads keeps them distinct. */
  lemma UniqueCons(x: RunningCommand, rest: seq<RunningCommand>, tail: seq<RunningCommand>)
    requires UniqueCommands([x] + rest) && UniqueCommands(tail)
    requires forall y :: y in tail ==> y in rest
    ensures UniqueCommands([x] + tail)
  {
    var all := [x] + rest;
    var r := [x] + tail;
    forall i, j | 0 <= i < j < |r|
      ensures !SameCommand(r[i].command, r[j].command)
    {
      if i == 0 {
        assert r[j] == tail[j - 1] && tail[j - 1] in rest;
        var k :| 0 <= k < |rest| && rest[k] == r[j];
        assert all[0] == x && all[k + 1] == r[j];
      } else {
        assert r[i] == tail[i - 1] && r[j] == tail[j - 1];
      }
    }
  }

  /** After `startCommand` exactly one running command carries the started
      command's normalised text, the last one, and uniqueness is kept. */
  lemma StartCommandKeepsUnique(st: HistoryState, payload: StartPayload, id: string)
    requires RunningUnique(st)
    ensures RunningUnique(StartCommand(st, payload, id))
    ensures var rc := StartCommand(st, payload, id).runningCommands;
      forall i :: 0 <= i < |rc| && SameCommand(rc[i].command, payload.command) <==> i == |rc| - 1
  {
    WithoutCommandUnique(st.runningCommands, NormalizeCommand(payload.command));
  }

  lemma RecordRunKeepsUnique(st: HistoryState, payload: RunPayload, id: string)
    requires RunningUnique(st)
    ensures RunningUnique(RecordRun(st, payload, id))
  {
    WithoutCommandUnique(st.runningCommands, NormalizeCommand(payload.command));
  }

  // ---------------------------------------------------------------------
  // The most-recent-execution selector.

  datatype ExecutionResult = ExecutionResult(
    id: string,
    output: string,
    exitCode: int,
    timestamp: int,
    duration: int,
    isRunning: bool)

  /** The first running command whose normalised text is `key`. */
  function FindRunning(running: seq<RunningCommand>, key: string): (r: Option<nat>)
    ensures r.Some? ==> r.value < |running| && NormalizeCommand(running[r.value].command) == key
    ensures r.Some? ==> forall j :: 0 <= j < r.value ==> NormalizeCommand(running[j].command) != key
    ensures r.None? ==> forall j :: 0 <= j < |running| ==> NormalizeCommand(running[j].command) != key
  {
    if running == [] then None
    else if NormalizeCommand(running[0].command) == key then Some(0)
    else match FindRunning(running[1..], key)
      case None => None
      case Some(k) => Some(k + 1)
  }

  /** The matching entry a stable descending sort on `finishedAt` puts
      first: the earliest of those with the greatest `finishedAt`. */
  function MostRecent(es: seq<Entry>, key: string): (r: Option<nat>)
    ensures r.Some? ==> r.value < |es| && NormalizeCommand(es[r.value].command) == key
    ensures r.Some? ==> forall j :: 0 <= j < |es| && NormalizeCommand(es[j].command) == key ==>
      es[j].finishedAt <= es[r.value].finishedAt
    ensures r.Some? ==> forall j :: 0 <= j < r.value && NormalizeCommand(es[j].command) == key ==>
      es[j].finishedAt < es[r.value].finishedAt
    ensures r.None? <==> forall j :: 0 <= j < |es| ==> NormalizeCommand(es[j].command) != key
  {
    if es == [] then None
    else
      var last := |es| - 1;
      var prev := MostRecent(es[..last], key);
      assert forall j :: 0 <= j < last ==> es[..last][j] == es[j];
      if NormalizeCommand(es[last].command) != key then prev
      else if prev.None? then Some(last)
      else if es[last].finishedAt > es[prev.value].finishedAt then Some(last)
      else prev
  }

  /** `selectMostRecentExecution(command)` applied to the state at time `now`. */
  function SelectMostRecentExecution(st: HistoryState, command: string, now: int): Option<ExecutionResult>
  {
    var key := NormalizeCommand(command);
    match FindRunning(st.runningCommands, key)
    case Some(k) =>
      var rc := st.runningCommands[k];
      Some(ExecutionResult(rc.id, "", -1, rc.startedAt, now - rc.startedAt, true))
    case None =>
      match MostRecent(st.entries, key)
      case Some(k) =>
        var e := st.entries[k];
        Some(ExecutionResult(e.id, e.output, e.exitCode, e.finishedAt, e.finishedAt - e.startedAt, false))
      case None => None
  }

  /** What the selector reports, stated without the search helpers: a running
      match wins, otherwise the latest finished match, otherwise nothing. */
  lemma SelectorMeaning(st: HistoryState, command: string, now: int)
    ensures var r := SelectMostRecentExecution(st, command, now);
      && (r.Some? && r.value.isRunning <==>
            exists i :: 0 <= i < |st.runningCommands| && SameCommand(st.runningCommands[i].command, command))
      && (r.Some? && r.value.isRunning ==> r.value.exitCode == -1 && r.value.output == "")
      && (r.None? <==>
            (forall i :: 0 <= i < |st.runningCommands| ==> !SameCommand(st.runningCommands[i].command, command)) &&
            (forall j :: 0 <= j < |st.entries| ==> !SameCommand(st.entries[j].command, command)))
      && (r.Some? && r.value.isRunning ==>
            exists i :: 0 <= i < |st.runningCommands| && SameCommand(st.runningCommands[i].command, command) &&
              (forall j :: 0 <= j < i ==> !SameCommand(st.runningCommands[j].command, command)) &&
              r.value.id == st.runningCommands[i].id &&
              r.value.timestamp == st.runningCommands[i].startedAt &&
              r.value.duration == now - st.runningCommands[i].startedAt)
      && (r.Some? && !r.value.isRunning ==>
            exists k :: 0 <= k < |st.entries| && SameCommand(st.entries[k].command, command) &&
              r.value.id == st.entries[k].id &&
              r.value.output == st.entries[k].output &&
              r.value.exitCode == st.entries[k].exitCode &&
              r.value.timestamp == st.entries[k].finishedAt &&
              r.value.duration == st.entries[k].finishedAt - st.entries[k].startedAt &&
              (forall j :: 0 <= j < |st.entries| && SameCommand(st.entries[j].command, command) ==>
                st.entries[j].finishedAt <= st.entries[k].finishedAt) &&
              (forall j :: 0 <= j < k && SameCommand(st.entries[j].command, command) ==>
                st.entries[j].finishedAt < st.entries[k].finishedAt))
  {
    var key := NormalizeCommand(command);
    match FindRunning(st.runningCommands, key)
    case Some(k) =>
    case None =>
      match MostRecent(st.entries, key)
      case Some(k) =>
      case None =>
  }
}

=== FILE: multi_value.dfy ===
/** The multi-value token editor of
    src/features/CommandBuilder/TokenInputs/MultiValueInput.tsx. The stored
    value is one text; its entries are the parts between delimiters, each
    trimmed. Removing an entry or adding one rewrites the value as the
    entries joined by the bare delimiter. The delimiter is optional on a
    token: without one, the split keeps the whole value as one part and the
    join falls back to `,`. Values added from a number field are their
    decimal text, so an added value is a text here. */
module MultiValue {
  import opened Strings

  /** Every part trimmed. */
  function TrimAll(parts: seq<string>): (r: seq<string>)
    ensures |r| == |parts|
    ensures forall i :: 0 <= i < |r| ==> r[i] == Trim(parts[i])
  {
    seq(|parts|, i requires 0 <= i < |parts| => Trim(parts[i]))
  }

  /** `raw.split(item.delimiter!)`: a token without a delimiter passes
      `undefined`, and the whole value is one part. */
  function SplitBy(raw: string, delimiter: Option<string>): (r: seq<string>)
    ensures delimiter.None? ==> r == [raw]
  {
    match delimiter
    case None => [raw]
    case Some(d) => Split(raw, d)
  }

  /** `parts.join(item.delimiter!)`: without a delimiter `join` uses `,`. */
  function JoinBy(parts: seq<string>, delimiter: Option<string>): string {
    Join(parts, delimiter.GetOr(","))
  }

  /** The entries shown for a stored value. */
  function Entries(raw: string, delimiter: Option<string>): seq<string> {
    TrimAll(SplitBy(raw, delimiter))
  }

  /** Every entry but the one at `index`; an index outside the list removes
      nothing. */
  function RemoveAt(values: seq<string>, index: int): (r: seq<string>)
    ensures 0 <= index < |values| ==> |r| == |values| - 1
    ensures 0 <= index < |values| ==> forall j :: 0 <= j < |r| ==> r[j] == values[if j < index then j else j + 1]
    ensures !(0 <= index < |values|) ==> r == values
  {
    if 0 <= index < |values| then values[..index] + values[index + 1..] else values
  }

  /** `handleRemoveValue`. */
  function RemoveValue(raw: string, delimiter: Option<string>, index: int): string {
    JoinBy(RemoveAt(Entries(raw, delimiter), index), delimiter)
  }

  /** `handleAddValue`: the new stored value, and the input field cleared. */
  datatype AddResult = AddResult(value: string, inputValue: string)

  function AddValue(raw: string, delimiter: Option<string>, item: string): (r: AddResult)
    ensures r.inputValue == ""
  {
    AddResult(JoinBy(Entries(raw, delimiter) + [item], delimiter), "")
  }

  // ---------------------------------------------------------------------
  // Properties, for a one-character delimiter.

  /** Trimming keeps a character out. */
  lemma TrimNoChar(s: string, c: char)
    requires NoChar(s, c)
    ensures NoChar(Trim(s), c)
  {
    TrimStartShape(s);
    var a := TrimStart(s);
    TrimEndShape(a);
  }

  /** Entries hold no delimiter and are already trimmed. */
  lemma EntriesShape(raw: string, c: char)
    ensures forall i :: 0 <= i < |Entries(raw, Some([c]))| ==>
      NoChar(Entries(raw, Some([c]))[i], c) && Trim(Entries(raw, Some([c]))[i]) == Entries(raw, Some([c]))[i]
  {
    var parts := Split(raw, [c]);
    SplitPartsNoChar(raw, c);
    forall i | 0 <= i < |parts|
      ensures NoChar(Trim(parts[i]), c) && Trim(Trim(parts[i])) == Trim(parts[i])
    {
      TrimNoChar(parts[i], c);
      TrimShape(parts[i]);
      TrimFixed(Trim(parts[i]));
    }
  }

  /** Joining entries back and reading them again gives the same entries. */
  lemma EntriesOfJoin(values: seq<string>, c: char)
    requires values != []
    requires forall i :: 0 <= i < |values| ==> NoChar(values[i], c) && Trim(values[i]) == values[i]
    ensures Entries(Join(values, [c]), Some([c])) == values
  {
    SplitJoin(values, c);
  }

  /** Adding an item (without the delimiter) appends its trimmed text to the
      entries and keeps every earlier entry. */
  lemma AddRoundTrip(raw: string, c: char, item: string)
    requires NoChar(item, c)
    ensures Entries(AddValue(raw, Some([c]), item).value, Some([c])) == Entries(raw, Some([c])) + [Trim(item)]
  {
    var e := Entries(raw, Some([c]));
    var parts := e + [item];
    assert Split(Join(parts, [c]), [c]) == parts by {
      EntriesShape(raw, c);
      forall i | 0 <= i < |parts|
        ensures NoChar(parts[i], c)
      {
        if i < |e| {
          assert parts[i] == e[i];
        }
      }
      SplitJoin(parts, c);
    }
    assert AddValue(raw, Some([c]), item).value == Join(parts, [c]);
    assert TrimAll(parts) == e + [Trim(item)] by {
      EntriesShape(raw, c);
      forall i | 0 <= i < |e|
        ensures Trim(parts[i]) == e[i]
      {
        assert parts[i] == e[i];
      }
    }
  }

  /** Removing the entry at an index leaves the other entries in order, as
      long as some entry is left. */
  lemma RemoveRoundTrip(raw: string, c: char, index: int)
    requires RemoveAt(Entries(raw, Some([c])), index) != []
    ensures Entries(RemoveValue(raw, Some([c]), index), Some([c])) == RemoveAt(Entries(raw, Some([c])), index)
  {
    EntriesShape(raw, c);
    EntriesOfJoin(RemoveAt(Entries(raw, Some([c])), index), c);
  }

  /** An edit leaves the value in its normal form: the entries joined by the
      bare delimiter. Removing at an index past the end only normalises. */
  lemma RemovePastEndNormalises(raw: string, c: char)
    ensures var n := RemoveValue(raw, Some([c]), |Entries(raw, Some([c]))|);
      && n == Join(Entries(raw, Some([c])), [c])
      && Entries(n, Some([c])) == Entries(raw, Some([c]))
  {
    EntriesShape(raw, c);
    EntriesOfJoin(Entries(raw, Some([c])), c);
  }

  lemma SplitAroundComma(raw: string)
    requires raw == "a , b"
    ensures Split(raw, ",") == ["a ", " b"]
  {
    SplitFirstSep("a ", ',', " b");
    SplitNoSep(" b", ',');
    assert raw == "a " + [','] + " b";
  }

  lemma TrimAroundComma()
    ensures TrimAll(["a ", " b"]) == ["a", "b"]
  {
    assert Trim("a ") == "a" by {
      assert "a "[..1] == "a";
    }
    assert Trim(" b") == "b" by {
      assert " b"[1..] == "b";
    }
  }

  /** Spaces around the delimiter disappear on the next edit. */
  lemma NormaliseExample(raw: string)
    requires raw == "a , b"
    ensures Entries(raw, Some(",")) == ["a", "b"]
    ensures RemoveValue(raw, Some(","), 2) == "a,b"
  {
    SplitAroundComma(raw);
    TrimAroundComma();
    JoinCons("a", ["b"], ",");
  }

  /** A token without a delimiter: the whole value, trimmed, is the only
      entry; adding joins it and the item with `,` into what is again a
      single entry; removing it empties the value, and removing anything
      else stores it trimmed. */
  lemma MissingDelimiter(raw: string, item: string, index: int)
    ensures Entries(raw, None) == [Trim(raw)]
    ensures AddValue(raw, None, item).value == Trim(raw) + "," + item
    ensures Entries(AddValue(raw, None, item).value, None) == [Trim(Trim(raw) + "," + item)]
    ensures RemoveValue(raw, None, index) == if index == 0 then "" else Trim(raw)
  {
    JoinCons(Trim(raw), [item], ",");
    assert [Trim(raw)][..0] + [Trim(raw)][1..] == [];
  }

  // ---------------------------------------------------------------------
  // An empty stored value, as written and as evidently intended.

  /** As written, an empty value shows one blank entry, and the first item
      added to it is stored behind a delimiter. */
  lemma AddToEmptyAsWritten(c: char, item: string)
    requires NoChar(item, c)
    ensures Entries("", Some([c])) == [""]
    ensures AddValue("", Some([c]), item).value == [c] + item
    ensures Entries(AddValue("", Some([c]), item).value, Some([c])) == ["", Trim(item)]
  {
    JoinCons("", [item], [c]);
    AddRoundTrip("", c, item);
  }

  /** As written, removing the only entry leaves one blank entry. */
  lemma RemoveOnlyAsWritten(raw: string, c: char)
    requires |Entries(raw, Some([c]))| == 1
    ensures RemoveValue(raw, Some([c]), 0) == ""
    ensures Entries(RemoveValue(raw, Some([c]), 0), Some([c])) == [""]
  {
  }

  /** The entries when an empty value means no entries. */
  function EntriesFixed(raw: string, delimiter: Option<string>): seq<string> {
    if raw == "" then [] else Entries(raw, delimiter)
  }

  function AddValueFixed(raw: string, delimiter: Option<string>, item: string): (r: AddResult)
    ensures r.inputValue == ""
  {
    AddResult(JoinBy(EntriesFixed(raw, delimiter) + [item], delimiter), "")
  }

  function RemoveValueFixed(raw: string, delimiter: Option<string>, index: int): string {
    JoinBy(RemoveAt(EntriesFixed(raw, delimiter), index), delimiter)
  }

  /** The first item added to an empty value is the whole value. */
  lemma AddToEmptyFixed(c: char, item: string)
    ensures AddValueFixed("", Some([c]), item).value == item
  {
  }

  /** Adding a non-empty item appends its trimmed text to the entries, also
      when the value was empty. */
  lemma AddFixedRoundTrip(raw: string, c: char, item: string)
    requires NoChar(item, c) && item != ""
    ensures EntriesFixed(AddValueFixed(raw, Some([c]), item).value, Some([c])) == EntriesFixed(raw, Some([c])) + [Trim(item)]
  {
    var parts := EntriesFixed(raw, Some([c])) + [item];
    var v := Join(parts, [c]);
    if raw == "" {
      assert parts == [item];
    } else {
      AddRoundTrip(raw, c, item);
      assert v == AddValue(raw, Some([c]), item).value;
    }
    if |parts| > 1 {
      JoinConcat(parts[..|parts| - 1], [item], [c]);
      assert parts[..|parts| - 1] + [item] == parts;
    }
  }

  /** With no blank entries, removing an entry leaves exactly the others,
      also when it was the last one. */
  lemma RemoveFixedRoundTrip(raw: string, c: char, index: int)
    requires forall i :: 0 <= i < |EntriesFixed(raw, Some([c]))| ==> EntriesFixed(raw, Some([c]))[i] != ""
    ensures EntriesFixed(RemoveValueFixed(raw, Some([c]), index), Some([c])) == RemoveAt(EntriesFixed(raw, Some([c])), index)
  {
    var rest := RemoveAt(EntriesFixed(raw, Some([c])), index);
    JoinEmptyIff(rest, [c]);
    if rest != [] {
      EntriesShape(raw, c);
      EntriesOfJoin(rest, c);
    }
  }
}

=== FILE: prompt_display.dfy ===
/** The prompt shown above a recipe, from src/components/PromptDisplay.tsx:
    the latest prompt when it is not blank, else the prompt of the last
    history entry; shown trimmed, and the fallback (by default `$`) when
    that is blank or there is none. */
module PromptDisplay {
  import opened Strings
  import opened TerminalHistory

  const DefaultFallback := "$"

  /** The selector: the prompt to show, if any. */
  function LatestPrompt(st: HistoryState): Option<string> {
    if Trim(st.latestPrompt) != "" then Some(st.latestPrompt)
    else if st.entries == [] then None
    else Some(st.entries[|st.entries| - 1].prompt)
  }

  /** The text handed to the terminal view. */
  function DisplayPrompt(st: HistoryState, fallback: string): string {
    match LatestPrompt(st)
    case None => fallback
    case Some(p) => if Trim(p) != "" then Trim(p) else fallback
  }

  /** The three cases, in order of preference. */
  lemma DisplayPromptMeaning(st: HistoryState, fallback: string)
    ensures Trim(st.latestPrompt) != "" ==> DisplayPrompt(st, fallback) == Trim(st.latestPrompt)
    ensures Trim(st.latestPrompt) == "" && st.entries != [] && Trim(st.entries[|st.entries| - 1].prompt) != ""
      ==> DisplayPrompt(st, fallback) == Trim(st.entries[|st.entries| - 1].prompt)
    ensures Trim(st.latestPrompt) == "" && (st.entries == [] || Trim(st.entries[|st.entries| - 1].prompt) == "")
      ==> DisplayPrompt(st, fallback) == fallback
  {
  }

  /** Whatever is shown is the fallback or a trimmed, non-blank text. */
  lemma ShownIsTrimmedOrFallback(st: HistoryState, fallback: string)
    ensures var d := DisplayPrompt(st, fallback);
      d == fallback || (d != "" && !IsSpace(d[0]) && !IsSpace(d[|d| - 1]))
  {
    match LatestPrompt(st)
    case None =>
    case Some(p) =>
      TrimShape(p);
  }

  /** With an empty history the default shows `$`. */
  lemma InitialShowsDollar()
    ensures DisplayPrompt(TerminalHistory.InitialState, DefaultFallback) == "$"
  {
  }

  /** A command recorded with a prompt makes that prompt (trimmed) the one
      shown, when it is not blank. */
  lemma RecordedPromptShown(st: HistoryState, payload: RunPayload, id: string, fallback: string)
    requires Trim(payload.prompt) != ""
    ensures DisplayPrompt(RecordRun(st, payload, id), fallback) == Trim(payload.prompt)
  {
  }

  /** A blank latest prompt falls back to the last entry's prompt. */
  lemma BlankLatestUsesLastEntry(st: HistoryState, blank: string, fallback: string)
    requires AllSpace(blank) && st.entries != []
    ensures var last := st.entries[|st.entries| - 1].prompt;
      DisplayPrompt(SetLatestPrompt(st, blank), fallback) == if Trim(last) != "" then Trim(last) else fallback
  {
    TrimEmptyIffAllSpace(blank);
  }
}

=== FILE: rehype_shell.dfy ===
/** The Markdown code-block rewrite of src/utils/rehypeShellPlugin.ts: every
    `pre` element whose only child is a `code` element with content becomes
    a `CodeBlock` element carrying the code's language, whether it is marked
    `# @interactive`, and its text with the marker removed. The HTML tree is
    a datatype, and every node with children is descended into, element or
    not (an MDX JSX element such as `<PromptDisplay>` included). The visit
    in tree order, which sees a replaced `pre` only before its replacement,
    is a structural recursion that does not descend into a replaced node. */
module RehypeShell {
  import opened Strings

  datatype Node =
    | Element(tagName: string, className: Option<seq<string>>, children: seq<Node>)
    | CodeBlock(language: string, isShellInteractive: bool, children: seq<Node>)
    | Text(value: string)
    | Parent(children: seq<Node>)   // a non-element node with children, such as an MDX JSX element
    | Other   // comments, doctypes and other leaves that are not text

  const LanguagePrefix := "language-"
  const InteractiveMarker := "# @interactive"

  /** The first class that starts with `language-`. */
  function FindLanguageClass(classes: seq<string>): (r: Option<nat>)
    ensures r.Some? ==> r.value < |classes| && StartsWith(classes[r.value], LanguagePrefix)
    ensures r.Some? ==> forall i :: 0 <= i < r.value ==> !StartsWith(classes[i], LanguagePrefix)
    ensures r.None? ==> forall i :: 0 <= i < |classes| ==> !StartsWith(classes[i], LanguagePrefix)
  {
    if classes == [] then None
    else if StartsWith(classes[0], LanguagePrefix) then Some(0)
    else match FindLanguageClass(classes[1..])
      case None => None
      case Some(k) => Some(k + 1)
  }

  /** The language: the first `language-` class without its prefix, or `text`. */
  function Language(className: Option<seq<string>>): string {
    match className
    case None => "text"
    case Some(classes) =>
      match FindLanguageClass(classes)
      case None => "text"
      case Some(i) => ReplaceFirst(classes[i], LanguagePrefix, "")
  }

  /** The code text: the value of the first child when it is a text node. */
  function CodeText(children: seq<Node>): string
    requires children != []
  {
    if children[0].Text? then children[0].value else ""
  }

  /** The code with the first marker removed and the rest trimmed, when it is
      marked; otherwise the code unchanged. */
  function CleanCode(code: string): string {
    if Contains(code, InteractiveMarker) then Trim(ReplaceFirst(code, InteractiveMarker, ""))
    else code
  }

  /** A `pre` with a single `code` child that has content. */
  predicate Rewritable(n: Node) {
    && n.Element? && n.tagName == "pre"
    && |n.children| == 1
    && n.children[0].Element? && n.children[0].tagName == "code"
    && n.children[0].children != []
  }

  /** The `CodeBlock` that replaces a rewritable `pre`. */
  function Replacement(n: Node): Node
    requires Rewritable(n)
  {
    var code := n.children[0];
    var text := CodeText(code.children);
    CodeBlock(Language(code.className), Contains(text, InteractiveMarker), [Text(CleanCode(text))])
  }

  /** The plugin on a subtree. */
  function Transform(n: Node): Node
    decreases n
  {
    if Rewritable(n) then Replacement(n)
    else match n
      case Element(tag, cls, children) =>
        Element(tag, cls, seq(|children|, i requires 0 <= i < |children| => Transform(children[i])))
      case CodeBlock(lang, interactive, children) =>
        CodeBlock(lang, interactive, seq(|children|, i requires 0 <= i < |children| => Transform(children[i])))
      case Parent(children) =>
        Parent(seq(|children|, i requires 0 <= i < |children| => Transform(children[i])))
      case _ => n
  }

  /** The plugin on the root's children. */
  function TransformRoot(children: seq<Node>): (r: seq<Node>)
    ensures |r| == |children|
    ensures forall i :: 0 <= i < |r| ==> r[i] == Transform(children[i])
  {
    seq(|children|, i requires 0 <= i < |children| => Transform(children[i]))
  }

  // ---------------------------------------------------------------------
  // Properties.

  /** The language is the first `language-` class with the prefix removed,
      and `text` when there is none. */
  lemma LanguageMeaning(classes: seq<string>)
    ensures (forall i :: 0 <= i < |classes| ==> !StartsWith(classes[i], LanguagePrefix))
      ==> Language(Some(classes)) == "text"
    ensures forall i :: (0 <= i < |classes| && StartsWith(classes[i], LanguagePrefix)
      && (forall j :: 0 <= j < i ==> !StartsWith(classes[j], LanguagePrefix))
      ==> Language(Some(classes)) == classes[i][|LanguagePrefix|..])
  {
    forall i | 0 <= i < |classes| && StartsWith(classes[i], LanguagePrefix)
        && (forall j :: 0 <= j < i ==> !StartsWith(classes[j], LanguagePrefix))
      ensures Language(Some(classes)) == classes[i][|LanguagePrefix|..]
    {
      var r := FindLanguageClass(classes);
      assert r.Some?;
      assert r.value == i;
      ReplaceLeadingPrefix(classes[i], LanguagePrefix);
    }
  }

  /** The marker is removed exactly when present: the cleaned code is the
      text around its first occurrence, trimmed. */
  lemma CleanCodeMeaning(code: string)
    ensures !Contains(code, InteractiveMarker) ==> CleanCode(code) == code
    ensures Contains(code, InteractiveMarker) ==>
      var i := IndexOf(code, InteractiveMarker).value;
      CleanCode(code) == Trim(code[..i] + code[i + |InteractiveMarker|..])
  {
    if Contains(code, InteractiveMarker) {
      var i := IndexOf(code, InteractiveMarker).value;
      assert code[..i] + "" + code[i + |InteractiveMarker|..] == code[..i] + code[i + |InteractiveMarker|..];
    }
  }

  /** Only a `pre` with one `code` child that has content is replaced, and it
      becomes a `CodeBlock` with one text child. */
  lemma RewriteShape(n: Node)
    ensures Rewritable(n) ==>
      var t := Transform(n);
      && t.CodeBlock? && |t.children| == 1 && t.children[0].Text?
      && t.language == Language(n.children[0].className)
      && (t.isShellInteractive <==> Contains(CodeText(n.children[0].children), InteractiveMarker))
      && t.children[0].value == CleanCode(CodeText(n.children[0].children))
    ensures !Rewritable(n) && n.Element? ==>
      var t := Transform(n);
      t.Element? && t.tagName == n.tagName && t.className == n.className && |t.children| == |n.children|
    ensures n.Parent? ==> Transform(n).Parent? && |Transform(n).children| == |n.children|
    ensures n.Text? || n.Other? ==> Transform(n) == n
  {
  }

  /** A tree with no rewritable node anywhere. */
  predicate NoRewritable(n: Node)
    decreases n
  {
    && !Rewritable(n)
    && (!n.Text? && !n.Other? ==> forall i :: 0 <= i < |n.children| ==> NoRewritable(n.children[i]))
  }

  /** A code element stays a code element with as many children. */
  lemma TransformKeepsCode(n: Node)
    requires n.Element? && n.tagName == "code"
    ensures Transform(n).Element? && Transform(n).tagName == "code"
    ensures |Transform(n).children| == |n.children|
  {
  }

  /** After the plugin has run, nothing is left to rewrite. */
  lemma {:induction false} TransformLeavesNothing(n: Node)
    ensures NoRewritable(Transform(n))
    decreases n
  {
    if Rewritable(n) {
      var t := Transform(n);
      assert !Rewritable(t.children[0]);
    } else if !n.Text? && !n.Other? {
      var t := Transform(n);
      forall i | 0 <= i < |t.children|
        ensures NoRewritable(t.children[i])
      {
        TransformLeavesNothing(n.children[i]);
      }
      if n.Element? && n.tagName == "pre" && |n.children| == 1 && n.children[0].Element? && n.children[0].tagName == "code" {
        TransformKeepsCode(n.children[0]);
      }
      if n.Element? && n.tagName == "pre" && |n.children| == 1 && !(n.children[0].Element? && n.children[0].tagName == "code") {
        NotCodeStaysNotCode(n.children[0]);
      }
    }
  }

  /** A node that is not a code element does not become one. */
  lemma NotCodeStaysNotCode(n: Node)
    requires !(n.Element? && n.tagName == "code")
    ensures !(Transform(n).Element? && Transform(n).tagName == "code")
  {
  }

  /** A tree with nothing to rewrite is left as it is. */
  lemma {:induction false} NothingToRewrite(n: Node)
    requires NoRewritable(n)
    ensures Transform(n) == n
    decreases n
  {
    if !n.Text? && !n.Other? {
      forall i | 0 <= i < |n.children|
        ensures Transform(n.children[i]) == n.children[i]
      {
        NothingToRewrite(n.children[i]);
      }
      assert Transform(n).children == n.children;
    }
  }

  /** Running the plugin twice is running it once. */
  lemma TransformIdempotent(n: Node)
    ensures Transform(Transform(n)) == Transform(n)
  {
    TransformLeavesNothing(n);
    NothingToRewrite(Transform(n));
  }

  /** A marked block: the marker line goes, the block is interactive and
      shell. */
  lemma InteractiveExample(n: Node)
    requires n == Element("pre", None, [Element("code", Some(["language-bash"]),
                                                [Text("# @interactive\nls -la")])])
    ensures Transform(n) == CodeBlock("bash", true, [Text("ls -la")])
  {
    MarkedExampleCode();
    BashExampleLanguage();
  }

  /** A fenced block inside a non-element parent, such as an MDX JSX
      element, is rewritten too. */
  lemma NestedInParentExample(n: Node)
    requires n == Element("pre", None, [Element("code", Some(["language-bash"]),
                                                [Text("# @interactive\nls -la")])])
    ensures Transform(Parent([Text("Prompt: "), n])) == Parent([Text("Prompt: "), CodeBlock("bash", true, [Text("ls -la")])])
  {
    InteractiveExample(n);
    var p := Parent([Text("Prompt: "), n]);
    assert !Rewritable(p);
    assert Transform(p).children[1] == Transform(n);
  }

  lemma MarkedExampleCode()
    ensures Contains("# @interactive\nls -la", InteractiveMarker)
    ensures CleanCode("# @interactive\nls -la") == "ls -la"
  {
    var code := "# @interactive\nls -la";
    assert StartsWith(code, InteractiveMarker);
    assert OccursAt(code, InteractiveMarker, 0);
    ContainsAt(code, InteractiveMarker, 0);
    ReplaceLeadingPrefix(code, InteractiveMarker);
    assert code[|InteractiveMarker|..] == "\nls -la";
    TrimExample();
  }

  lemma TrimExample()
    ensures Trim("\nls -la") == "ls -la"
  {
    assert TrimStart("\nls -la") == "ls -la" by {
      assert "\nls -la"[1..] == "ls -la";
    }
    TrimEndFixed("ls -la");
  }

  lemma BashExampleLanguage()
    ensures Language(Some(["language-bash"])) == "bash"
  {
    assert StartsWith("language-bash", LanguagePrefix);
    ReplaceLeadingPrefix("language-bash", LanguagePrefix);
    assert "language-bash"[|LanguagePrefix|..] == "bash";
  }
}

=== FILE: routes.dfy ===
/** The home page lists of src/routes/index.tsx: the recipes and docs read
    from the resource directories, keeping files only, dropping hidden
    recipes and docs for another platform, and ordering docs by the number
    their file name starts with. Reading directories, files and front
    matter is I/O: a directory listing and each doc's `platform` attribute
    are inputs. */
module Routes {
  import opened Strings
  import opened RecipeTypes

  /** The elements that satisfy `p`, in order. */
  function Filter<T>(s: seq<T>, p: T -> bool): seq<T> {
    if s == [] then []
    else (if p(s[0]) then [s[0]] else []) + Filter(s[1..], p)
  }

  lemma {:induction false} FilterMembers<T>(s: seq<T>, p: T -> bool)
    ensures forall x :: x in Filter(s, p) <==> x in s && p(x)
    ensures multiset(Filter(s, p)) <= multiset(s)
    decreases |s|
  {
    if s != [] {
      FilterMembers(s[1..], p);
      assert s == [s[0]] + s[1..];
    }
  }

  datatype DirEntry = DirEntry(name: string, isFile: bool)

  /** `readDir(...).filter((file) => file.isFile)`. */
  function Files(entries: seq<DirEntry>): seq<DirEntry> {
    Filter(entries, (e: DirEntry) => e.isFile)
  }

  // ---------------------------------------------------------------------
  // Recipes.

  datatype LoadedRecipe = LoadedRecipe(recipe: Recipe, path: string)

  /** A recipe is hidden when its `hidden` field is true. */
  predicate Hidden(r: LoadedRecipe) {
    r.recipe.hidden == Some(true)
  }

  /** `recipes.filter((r) => !r.hidden)`. */
  function VisibleRecipes(recipes: seq<LoadedRecipe>): seq<LoadedRecipe> {
    Filter(recipes, (r: LoadedRecipe) => !Hidden(r))
  }

  /** Only files are read, and a recipe is listed exactly when it is not
      hidden. */
  lemma RecipesListed(entries: seq<DirEntry>, recipes: seq<LoadedRecipe>)
    ensures forall e :: e in Files(entries) <==> e in entries && e.isFile
    ensures forall r :: r in VisibleRecipes(recipes) <==> r in recipes && r.recipe.hidden != Some(true)
  {
    FilterMembers(entries, (e: DirEntry) => e.isFile);
    FilterMembers(recipes, (r: LoadedRecipe) => !Hidden(r));
  }

  // ---------------------------------------------------------------------
  // The platform filter.

  datatype Doc = Doc(path: string, platform: Option<string>)

  const LinuxPlatforms: seq<string> := ["linux", "freebsd", "dragonfly", "netbsd", "openbsd", "solaris"]

  /** The current platform is known when it was reported and not empty. */
  predicate Known(current: Option<string>) {
    current.Some? && current.value != ""
  }

  /** The filter of `getDocs`. */
  predicate Shown(doc: Doc, current: Option<string>) {
    if doc.platform.None? || doc.platform.value == "" then true
    else if doc.platform.value == "linux" then !Known(current) || current.value in LinuxPlatforms
    else !Known(current) || doc.platform.value == current.value
  }

  /** A doc without a platform is always shown; a `linux` doc on the
      Unix-like platforms; any other doc on its own platform; and every doc
      when the platform is unknown. */
  lemma ShownMeaning(doc: Doc, current: Option<string>)
    ensures doc.platform.None? ==> Shown(doc, current)
    ensures !Known(current) ==> Shown(doc, current)
    ensures doc.platform == Some("linux") && Known(current) ==>
      (Shown(doc, current) <==> current.value in {"linux", "freebsd", "dragonfly", "netbsd", "openbsd", "solaris"})
    ensures doc.platform.Some? && doc.platform.value !in {"", "linux"} && Known(current) ==>
      (Shown(doc, current) <==> doc.platform.value == current.value)
  {
  }

  /** A `linux` doc is not shown on macOS or Windows. */
  lemma LinuxDocElsewhere(doc: Doc, current: string)
    requires doc.platform == Some("linux") && current in ["macos", "windows"]
    ensures !Shown(doc, Some(current))
  {
  }

  // ---------------------------------------------------------------------
  // The numeric order.

  /** A hexadecimal digit, in either case. */
  predicate IsHexDigit(c: char) {
    IsDigit(c) || 'a' <= c <= 'f' || 'A' <= c <= 'F'
  }

  predicate AllHexDigits(s: string) {
    forall i :: 0 <= i < |s| ==> IsHexDigit(s[i])
  }

  function HexDigitValue(c: char): (v: nat)
    requires IsHexDigit(c)
    ensures v < 16
  {
    if IsDigit(c) then c as int - '0' as int
    else if 'a' <= c <= 'f' then c as int - 'a' as int + 10
    else c as int - 'A' as int + 10
  }

  /** The value of a hexadecimal digit string (empty gives 0). */
  function HexValue(s: string): nat
    requires AllHexDigits(s)
  {
    if s == [] then 0
    else 16 * HexValue(s[..|s| - 1]) + HexDigitValue(s[|s| - 1])
  }

  /** The longest run of hexadecimal digits at the start of `s`. */
  function LeadingHexDigits(s: string): (r: string)
    ensures AllHexDigits(r) && StartsWith(s, r)
    ensures |r| == |s| || !IsHexDigit(s[|r|])
  {
    if s != [] && IsHexDigit(s[0]) then [s[0]] + LeadingHexDigits(s[1..]) else ""
  }

  /** `parseInt` without a radix reads a leading `0x` or `0X` as base 16. */
  predicate HexPrefixed(s: string) {
    |s| >= 2 && s[0] == '0' && (s[1] == 'x' || s[1] == 'X')
  }

  /** `parseInt(s)` without a radix, for text with no leading whitespace or
      sign: the longest digit run after the optional `0x` prefix, read in
      its base, or `None` for `NaN` when that run is empty. */
  function ParseInt(s: string): (r: Option<nat>)
    ensures r.None? <==> (if HexPrefixed(s) then LeadingHexDigits(s[2..]) == "" else LeadingDigits(s) == "")
  {
    if HexPrefixed(s) then
      var h := LeadingHexDigits(s[2..]);
      if h == "" then None else Some(HexValue(h))
    else
      var d := LeadingDigits(s);
      if d == "" then None else Some(DigitsValue(d))
  }

  /** `path.split("-")[0]`. */
  function FirstPart(path: string): string {
    Split(path, "-")[0]
  }

  /** A file name that starts with a digit and whose first part `parseInt`
      reads as a number; `getDocs` is modelled for these only. */
  predicate Numbered(path: string) {
    path != "" && IsDigit(path[0]) && ParseInt(FirstPart(path)).Some?
  }

  /** `parseInt(path.split("-")[0])`; 0 stands for `NaN`, which a numbered
      path never gives. */
  function Key(path: string): nat {
    ParseInt(FirstPart(path)).GetOr(0)
  }

  /** A doc with its key computed. */
  datatype Keyed = Keyed(key: nat, doc: Doc)

  /** Ordered by key. */
  predicate SortedByKey(s: seq<Keyed>) {
    forall i, j :: 0 <= i < j < |s| ==> s[i].key <= s[j].key
  }

  /** `x` placed before the first element whose key is not smaller. */
  function Insert(x: Keyed, sorted: seq<Keyed>): (r: seq<Keyed>)
    ensures |r| == |sorted| + 1
  {
    if sorted == [] then [x]
    else if x.key <= sorted[0].key then [x] + sorted
    else [sorted[0]] + Insert(x, sorted[1..])
  }

  /** The comparison sort of `getDocs` (`aNum - bNum`), which keeps elements
      with equal keys in their listed order. */
  function SortByKey(s: seq<Keyed>): (r: seq<Keyed>)
    ensures |r| == |s|
  {
    if s == [] then []
    else Insert(s[0], SortByKey(s[1..]))
  }

  /** Inserting adds exactly `x`. */
  lemma {:induction false} InsertPermutes(x: Keyed, sorted: seq<Keyed>)
    ensures multiset(Insert(x, sorted)) == multiset(sorted) + multiset{x}
    decreases |sorted|
  {
    if sorted != [] && x.key > sorted[0].key {
      InsertPermutes(x, sorted[1..]);
      assert sorted == [sorted[0]] + sorted[1..];
    }
  }

  /** Sorting is a permutation. */
  lemma {:induction false} SortByKeyPermutes(s: seq<Keyed>)
    ensures multiset(SortByKey(s)) == multiset(s)
    decreases |s|
  {
    if s != [] {
      SortByKeyPermutes(s[1..]);
      InsertPermutes(s[0], SortByKey(s[1..]));
      assert s == [s[0]] + s[1..];
    }
  }

  lemma {:induction false} InsertSorted(x: Keyed, sorted: seq<Keyed>)
    requires SortedByKey(sorted)
    ensures SortedByKey(Insert(x, sorted))
    decreases |sorted|
  {
    if sorted != [] && x.key > sorted[0].key {
      var rest := Insert(x, sorted[1..]);
      InsertSorted(x, sorted[1..]);
      forall i | 0 <= i < |sorted[1..]|
        ensures sorted[1..][i].key >= sorted[0].key
      {
        assert sorted[1..][i] == sorted[i + 1];
      }
      InsertLowerBound(x, sorted[1..], sorted[0].key);
      var r := [sorted[0]] + rest;
      forall i, j | 0 <= i < j < |r|
        ensures r[i].key <= r[j].key
      {
        assert r[j] == rest[j - 1];
        if i > 0 {
          assert r[i] == rest[i - 1];
        }
      }
    }
  }

  /** A bound below `x` and every element bounds the insertion too. */
  lemma {:induction false} InsertLowerBound(x: Keyed, sorted: seq<Keyed>, b: nat)
    requires x.key >= b
    requires forall i :: 0 <= i < |sorted| ==> sorted[i].key >= b
    ensures forall i :: 0 <= i < |Insert(x, sorted)| ==> Insert(x, sorted)[i].key >= b
    decreases |sorted|
  {
    if sorted != [] && x.key > sorted[0].key {
      forall i | 0 <= i < |sorted[1..]|
        ensures sorted[1..][i].key >= b
      {
        assert sorted[1..][i] == sorted[i + 1];
      }
      InsertLowerBound(x, sorted[1..], b);
      var rest := Insert(x, sorted[1..]);
      forall i | 0 <= i < |[sorted[0]] + rest|
        ensures ([sorted[0]] + rest)[i].key >= b
      {
        if i > 0 {
          assert ([sorted[0]] + rest)[i] == rest[i - 1];
        }
      }
    }
  }

  lemma {:induction false} SortByKeySorted(s: seq<Keyed>)
    ensures SortedByKey(SortByKey(s))
    decreases |s|
  {
    if s != [] {
      SortByKeySorted(s[1..]);
      InsertSorted(s[0], SortByKey(s[1..]));
    }
  }

  /** The elements with key `k`, in order. */
  function WithKey(s: seq<Keyed>, k: nat): seq<Keyed> {
    if s == [] then []
    else (if s[0].key == k then [s[0]] else []) + WithKey(s[1..], k)
  }

  lemma {:induction false} InsertStable(x: Keyed, sorted: seq<Keyed>, k: nat)
    ensures WithKey(Insert(x, sorted), k) == (if x.key == k then [x] else []) + WithKey(sorted, k)
    decreases |sorted|
  {
    if sorted != [] {
      if x.key <= sorted[0].key {
        assert ([x] + sorted)[1..] == sorted;
      } else {
        InsertStable(x, sorted[1..], k);
        var rest := Insert(x, sorted[1..]);
        var w := WithKey(sorted[1..], k);
        var a := if sorted[0].key == k then [sorted[0]] else [];
        var b := if x.key == k then [x] else [];
        assert Insert(x, sorted) == [sorted[0]] + rest;
        assert ([sorted[0]] + rest)[1..] == rest;
        assert WithKey([sorted[0]] + rest, k) == a + (b + w);
        assert WithKey(sorted, k) == a + w;
        if a == [] {
          assert a + (b + w) == b + w && b + (a + w) == b + w;
        } else {
          assert b == [];
          assert a + (b + w) == a + w && b + (a + w) == a + w;
        }
      }
    }
  }

  /** Elements with the same key keep their listed order. */
  lemma {:induction false} SortByKeyStable(s: seq<Keyed>, k: nat)
    ensures WithKey(SortByKey(s), k) == WithKey(s, k)
    decreases |s|
  {
    if s != [] {
      SortByKeyStable(s[1..], k);
      InsertStable(s[0], SortByKey(s[1..]), k);
    }
  }

  /** A path's key is the number its name starts with. */
  /** For a name that starts with a digit: after a `0x` or `0X` prefix the
      key is the hexadecimal number that follows, and the name is numbered
      exactly when one follows; otherwise the key is the decimal number the
      name starts with, and the name is numbered. The `-` that ends the first
      part never matters, since it is no digit. */
  lemma KeyIsLeadingNumber(path: string)
    requires path != "" && IsDigit(path[0])
    ensures HexPrefixed(path) ==>
      && (Numbered(path) <==> LeadingHexDigits(path[2..]) != "")
      && (Numbered(path) ==> Key(path) == HexValue(LeadingHexDigits(path[2..])))
    ensures !HexPrefixed(path) ==> Numbered(path) && Key(path) == DigitsValue(LeadingDigits(path))
  {
    var i := FirstPartEnd(path);
    if HexPrefixed(path) {
      HexFirstPart(path, i);
    } else {
      DecimalFirstPart(path, i);
    }
  }

  /** The first part ends at the first `-`, or at the end. */
  lemma FirstPartEnd(path: string) returns (i: nat)
    ensures i <= |path| && FirstPart(path) == path[..i]
    ensures i == |path| || path[i] == '-'
    ensures NoChar(path[..i], '-')
  {
    IndexOfChar(path, '-');
    match IndexOf(path, "-")
    case None =>
      i := |path|;
      assert path[..i] == path;
    case Some(k) =>
      i := k;
  }

  lemma HexFirstPart(path: string, i: nat)
    requires HexPrefixed(path)
    requires i <= |path| && FirstPart(path) == path[..i]
    requires i == |path| || path[i] == '-'
    requires NoChar(path[..i], '-')
    ensures ParseInt(FirstPart(path)) == ParseInt(path)
  {
    assert i >= 2 by {
      assert path[..i] == FirstPart(path);
      assert path[0] != '-' && path[1] != '-';
    }
    var first := path[..i];
    assert HexPrefixed(first);
    assert first[2..] == path[2..][..i - 2];
    LeadingHexPrefix(path[2..], i - 2);
  }

  lemma DecimalFirstPart(path: string, i: nat)
    requires path != "" && IsDigit(path[0]) && !HexPrefixed(path)
    requires i <= |path| && FirstPart(path) == path[..i]
    requires i == |path| || path[i] == '-'
    ensures ParseInt(FirstPart(path)) == ParseInt(path)
    ensures ParseInt(path).Some?
  {
    var first := path[..i];
    assert !HexPrefixed(first) by {
      if |first| >= 2 {
        assert first[0] == path[0] && first[1] == path[1];
      }
    }
    LeadingDigitsPrefix(path, i);
    assert LeadingDigits(path) != "";
  }

  /** Leading hexadecimal digits are not affected by cutting the text after
      a non-digit or after the digits end. */
  lemma {:induction false} LeadingHexPrefix(s: string, i: nat)
    requires i <= |s| && (i == |s| || !IsHexDigit(s[i]))
    ensures LeadingHexDigits(s[..i]) == LeadingHexDigits(s)
    decreases i
  {
    if i > 0 && IsHexDigit(s[0]) {
      assert s[..i][1..] == s[1..][..i - 1];
      LeadingHexPrefix(s[1..], i - 1);
    }
  }

  /** Leading digits are not affected by cutting the text after a
      non-digit or after the digits end. */
  lemma {:induction false} LeadingDigitsPrefix(s: string, i: nat)
    requires i <= |s| && (i == |s| || !IsDigit(s[i]))
    ensures LeadingDigits(s[..i]) == LeadingDigits(s)
    decreases i
  {
    if i > 0 && IsDigit(s[0]) {
      assert s[..i][1..] == s[1..][..i - 1];
      LeadingDigitsPrefix(s[1..], i - 1);
    }
  }

  // ---------------------------------------------------------------------
  // getDocs.

  datatype DocFile = DocFile(entry: DirEntry, platform: Option<string>)

  function AsDoc(f: DocFile): Doc {
    Doc(f.entry.name, f.platform)
  }

  /** Files shown on the current platform, as docs. */
  function ShownDocs(files: seq<DocFile>, current: Option<string>): seq<Doc> {
    if files == [] then []
    else
      (if files[0].entry.isFile && Shown(AsDoc(files[0]), current) then [AsDoc(files[0])] else [])
      + ShownDocs(files[1..], current)
  }

  lemma {:induction false} ShownDocsMembers(files: seq<DocFile>, current: Option<string>)
    ensures forall d :: d in ShownDocs(files, current) <==>
      exists f :: f in files && f.entry.isFile && Shown(AsDoc(f), current) && d == AsDoc(f)
    decreases |files|
  {
    if files != [] {
      ShownDocsMembers(files[1..], current);
      assert forall f :: f in files <==> f == files[0] || f in files[1..];
    }
  }

  /** Each doc with its key, in order. */
  function WithKeys(docs: seq<Doc>): (r: seq<Keyed>)
    ensures |r| == |docs|
    ensures forall i :: 0 <= i < |r| ==> r[i].doc == docs[i] && r[i].key == Key(docs[i].path)
  {
    seq(|docs|, i requires 0 <= i < |docs| => Keyed(Key(docs[i].path), docs[i]))
  }

  function DocsOf(s: seq<Keyed>): (r: seq<Doc>)
    ensures |r| == |s| && forall i :: 0 <= i < |s| ==> r[i] == s[i].doc
  {
    seq(|s|, i requires 0 <= i < |s| => s[i].doc)
  }

  /** Every shown file's name is numbered; directories and docs for another
      platform are dropped before the sort and may have any name. */
  predicate Sortable(files: seq<DocFile>, current: Option<string>) {
    forall i :: 0 <= i < |files| && files[i].entry.isFile && Shown(AsDoc(files[i]), current) ==>
      Numbered(files[i].entry.name)
  }

  /** `getDocs`: the shown files, sorted by their number. */
  function GetDocs(files: seq<DocFile>, current: Option<string>): seq<Doc>
    requires Sortable(files, current)
  {
    DocsOf(SortByKey(WithKeys(ShownDocs(files, current))))
  }

  /** The docs are sorted by their numbers, with equal numbers in listing
      order, and each key is its doc's number. */
  lemma GetDocsOrder(files: seq<DocFile>, current: Option<string>)
    requires Sortable(files, current)
    ensures var keyed := WithKeys(ShownDocs(files, current));
      var sorted := SortByKey(keyed);
      && GetDocs(files, current) == DocsOf(sorted)
      && SortedByKey(sorted)
      && multiset(sorted) == multiset(keyed)
      && (forall k :: WithKey(sorted, k) == WithKey(keyed, k))
      && (forall i :: 0 <= i < |sorted| ==> sorted[i].key == Key(sorted[i].doc.path))
  {
    var keyed := WithKeys(ShownDocs(files, current));
    var sorted := SortByKey(keyed);
    SortByKeySorted(keyed);
    SortByKeyPermutes(keyed);
    forall k: nat {
      SortByKeyStable(keyed, k);
    }
    forall i | 0 <= i < |sorted|
      ensures sorted[i].key == Key(sorted[i].doc.path)
    {
      assert sorted[i] in multiset(keyed);
    }
  }

  /** The docs listed are exactly the files shown on the current platform. */
  lemma GetDocsMembers(files: seq<DocFile>, current: Option<string>)
    requires Sortable(files, current)
    ensures forall d :: d in GetDocs(files, current) <==>
      exists f :: f in files && f.entry.isFile && Shown(AsDoc(f), current) && d == AsDoc(f)
  {
    ShownDocsMembers(files, current);
    var shown := ShownDocs(files, current);
    var keyed := WithKeys(shown);
    var sorted := SortByKey(keyed);
    SortByKeyPermutes(keyed);
    forall d
      ensures d in DocsOf(sorted) <==> d in shown
    {
      if d in DocsOf(sorted) {
        var i :| 0 <= i < |sorted| && sorted[i].doc == d;
        assert sorted[i] in multiset(keyed);
        var j :| 0 <= j < |keyed| && keyed[j] == sorted[i];
        assert shown[j] == d;
      }
      if d in shown {
        var j :| 0 <= j < |shown| && shown[j] == d;
        assert keyed[j] in multiset(sorted);
        var i :| 0 <= i < |sorted| && sorted[i] == keyed[j];
        assert DocsOf(sorted)[i] == d;
      }
    }
  }

  /** `parseInt` reads `0x10` as 16. */
  lemma HexKeyExample(p: string)
    requires p == "0x10-a.mdx"
    ensures Numbered(p) && Key(p) == 16
  {
    KeyIsLeadingNumber(p);
    var rest := p[2..];
    assert rest[0] == '1' && rest[1] == '0' && rest[2] == '-';
    LeadingHexPrefix(rest, 2);
    assert rest[..2] == "10";
    assert LeadingHexDigits("10") == "10" by {
      assert "10"[1..] == "0" && "0"[1..] == [];
    }
    assert "10"[..1] == "1";
  }

  /** `parseInt` reads `0x` alone as `NaN`. */
  lemma HexNaNExample(p: string)
    requires p == "0x-a.mdx"
    ensures !Numbered(p)
  {
    KeyIsLeadingNumber(p);
    assert p[2..][0] == '-';
  }

  /** A name that starts with a digit is numbered. */
  lemma IntroNumbered(p: string)
    requires p == "1-intro.mdx"
    ensures Numbered(p)
  {
    KeyIsLeadingNumber(p);
  }

  /** A `windows` doc is hidden on Linux. */
  lemma WindowsHiddenOnLinux(other: DocFile, current: Option<string>)
    requires other.platform == Some("windows") && current == Some("linux")
    ensures !Shown(AsDoc(other), current)
  {
    assert "windows" != "linux" by { assert "windows"[0] != "linux"[0]; }
  }

  /** On Linux only the numbered doc of that listing is shown. */
  lemma ShownOfListing(dir: DocFile, other: DocFile, intro: DocFile, current: Option<string>)
    requires !dir.entry.isFile && !Shown(AsDoc(other), current)
    requires intro.entry.isFile && intro.platform.None?
    ensures ShownDocs([dir, other, intro], current) == [AsDoc(intro)]
    ensures Numbered(intro.entry.name) ==> Sortable([dir, other, intro], current)
  {
    var files := [dir, other, intro];
    assert files[1..] == [other, intro] && [other, intro][1..] == [intro] && [intro][1..] == [];
    assert ShownDocs([intro], current) == [AsDoc(intro)];
  }

  /** A directory and a doc for another platform never reach the sort, so
      their names need no number. */
  lemma UnnumberedSkipped(dir: DocFile, other: DocFile, intro: DocFile)
    requires dir == DocFile(DirEntry("images", false), None)
    requires other == DocFile(DirEntry("windows-notes.mdx", true), Some("windows"))
    requires intro == DocFile(DirEntry("1-intro.mdx", true), None)
    ensures Sortable([dir, other, intro], Some("linux"))
         && GetDocs([dir, other, intro], Some("linux")) == [AsDoc(intro)]
  {
    IntroNumbered(intro.entry.name);
    WindowsHiddenOnLinux(other, Some("linux"));
    ShownOfListing(dir, other, intro, Some("linux"));
    var k := WithKeys([AsDoc(intro)]);
    assert SortByKey(k) == k by { assert k[1..] == []; }
  }

  /** The tutorial, numbered 0, comes before doc 2 and doc 10. */
  lemma OrderExample(a: Keyed, b: Keyed, c: Keyed)
    requires a.key == 10 && b.key == 0 && c.key == 2
    ensures SortByKey([a, b, c]) == [b, c, a]
  {
    assert [a, b, c][1..] == [b, c] && [b, c][1..] == [c] && [c][1..] == [];
    assert SortByKey([c]) == [c];
    assert SortByKey([b, c]) == Insert(b, [c]) == [b, c];
    assert Insert(a, [c]) == [c] + Insert(a, []) == [c, a];
    assert Insert(a, [b, c]) == [b] + Insert(a, [c]);
  }
}

=== FILE: sanitize.dfy ===
/** `sanitize_binary_name` of src-tauri/src/lib.rs: the name is trimmed and
    then checked, in order, for emptiness, for a UTF-8 length over 255
    bytes, for a character outside letters, digits, `-`, `_` and `.`, and
    for a leading `.` or `-`. The first failing check decides the error;
    a name passing all four is returned trimmed. Letters and digits are
    the ASCII ones. */
module Sanitize {
  import opened Strings

  datatype SanitizeError =
    | Empty
    | TooLong
    | InvalidChar(c: char)
    | LeadingDotOrDash

  datatype Outcome = Ok(name: string) | Err(error: SanitizeError)

  const MaxLen := 255

  /** The number of bytes `c` takes in UTF-8. */
  function Utf8Width(c: char): nat {
    if c as int < 0x80 then 1
    else if c as int < 0x800 then 2
    else if c as int < 0x1_0000 then 3
    else 4
  }

  /** `str::len`: the UTF-8 byte length. */
  function Utf8Len(s: string): nat {
    if s == [] then 0 else Utf8Width(s[0]) + Utf8Len(s[1..])
  }

  predicate IsAsciiAlphanumeric(c: char) {
    ('a' <= c <= 'z') || ('A' <= c <= 'Z') || ('0' <= c <= '9')
  }

  predicate Allowed(c: char) {
    IsAsciiAlphanumeric(c) || c == '-' || c == '_' || c == '.'
  }

  /** The index of the first character that is not allowed. */
  function FirstInvalid(s: string): (r: Option<nat>)
    ensures r.None? <==> forall i :: 0 <= i < |s| ==> Allowed(s[i])
    ensures r.Some? ==>
      && r.value < |s| && !Allowed(s[r.value])
      && (forall i :: 0 <= i < r.value ==> Allowed(s[i]))
  {
    if s == [] then None
    else if !Allowed(s[0]) then Some(0)
    else
      match FirstInvalid(s[1..])
      case None => None
      case Some(k) => Some(k + 1)
  }

  /** `sanitize_binary_name`. */
  function SanitizeBinaryName(binaryName: string): (r: Outcome) {
    var trimmed := Trim(binaryName);
    if trimmed == "" then Err(Empty)
    else if Utf8Len(trimmed) > MaxLen then Err(TooLong)
    else match FirstInvalid(trimmed)
      case Some(i) => Err(InvalidChar(trimmed[i]))
      case None =>
        if trimmed[0] == '.' || trimmed[0] == '-' then Err(LeadingDotOrDash)
        else Ok(trimmed)
  }

  /** A name that passes all four checks. */
  predicate Valid(name: string) {
    && name != ""
    && Utf8Len(name) <= MaxLen
    && (forall i :: 0 <= i < |name| ==> Allowed(name[i]))
    && name[0] != '.' && name[0] != '-'
  }

  /** The outcome is `Ok` exactly for names whose trimmed text is valid, and
      then it is that trimmed text. */
  lemma OkIffValid(binaryName: string)
    ensures var r := SanitizeBinaryName(binaryName);
      && (r.Ok? <==> Valid(Trim(binaryName)))
      && (r.Ok? ==> r.name == Trim(binaryName))
  {
  }

  /** The error is the first check that fails, in source order. */
  lemma ErrorIsFirstFailure(binaryName: string)
    ensures var t, r := Trim(binaryName), SanitizeBinaryName(binaryName);
      && (r == Err(Empty) <==> t == "")
      && (r == Err(TooLong) <==> t != "" && Utf8Len(t) > MaxLen)
      && (r.Err? && r.error.InvalidChar? <==>
            t != "" && Utf8Len(t) <= MaxLen && exists i :: 0 <= i < |t| && !Allowed(t[i]))
      && (r.Err? && r.error.InvalidChar? ==>
            exists i :: (0 <= i < |t| && r.error.c == t[i] && !Allowed(t[i])
                         && forall j :: 0 <= j < i ==> Allowed(t[j])))
      && (r == Err(LeadingDotOrDash) <==>
            t != "" && Utf8Len(t) <= MaxLen && (forall i :: 0 <= i < |t| ==> Allowed(t[i]))
            && (t[0] == '.' || t[0] == '-'))
  {
    var t := Trim(binaryName);
    if t != "" && Utf8Len(t) <= MaxLen {
      match FirstInvalid(t)
      case Some(i) =>
        assert !Allowed(t[i]);
      case None =>
    }
  }

  /** An accepted name contains no shell metacharacter, quote, slash or
      whitespace, and is not empty. */
  lemma OkNameIsInert(binaryName: string, c: char)
    requires SanitizeBinaryName(binaryName).Ok?
    requires c in ";|&$`<>*?/\\'\" \t\n"
    ensures c !in SanitizeBinaryName(binaryName).name
  {
    var name := SanitizeBinaryName(binaryName).name;
    assert forall i :: 0 <= i < |name| ==> Allowed(name[i]) by {
      OkIffValid(binaryName);
    }
    assert !Allowed(c);
    assert forall i :: 0 <= i < |name| ==> name[i] != c;
  }

  /** Trimming first makes surrounding whitespace irrelevant. */
  lemma TrimmedInputSameOutcome(binaryName: string)
    ensures SanitizeBinaryName(Trim(binaryName)) == SanitizeBinaryName(binaryName)
  {
    TrimShape(binaryName);
    TrimFixed(Trim(binaryName));
  }

  /** An ASCII text takes one byte per character. */
  lemma {:induction false} Utf8LenAscii(s: string)
    requires forall i :: 0 <= i < |s| ==> s[i] as int < 0x80
    ensures Utf8Len(s) == |s|
    decreases |s|
  {
    if s != [] {
      Utf8LenAscii(s[1..]);
    }
  }

  /** No text is shorter in bytes than in characters. */
  lemma {:induction false} Utf8LenAtLeast(s: string)
    ensures Utf8Len(s) >= |s|
    decreases |s|
  {
    if s != [] {
      Utf8LenAtLeast(s[1..]);
    }
  }

  /** A valid name with nothing to trim is accepted as it is. */
  lemma AcceptsValid(name: string)
    requires Valid(name)
    requires !IsSpace(name[0]) && !IsSpace(name[|name| - 1])
    ensures SanitizeBinaryName(name) == Ok(name)
  {
    TrimFixed(name);
  }

  /** Every allowed character is ASCII and not whitespace. */
  lemma {:induction false} AllowedIsAscii(s: string)
    requires forall i :: 0 <= i < |s| ==> Allowed(s[i])
    ensures Utf8Len(s) == |s|
    decreases |s|
  {
    if s != [] {
      AllowedIsAscii(s[1..]);
    }
  }

  /** Character by character, every character allowed. */
  predicate AllowedText(s: string) {
    s == [] || (Allowed(s[0]) && AllowedText(s[1..]))
  }

  lemma {:induction false} AllowedTextMeans(s: string)
    ensures AllowedText(s) <==> forall i :: 0 <= i < |s| ==> Allowed(s[i])
    decreases |s|
  {
    if s != [] {
      AllowedTextMeans(s[1..]);
      assert forall i :: 1 <= i < |s| ==> s[i] == s[1..][i - 1];
    }
  }

  /** A short name of allowed characters not starting with `.` or `-` is accepted. */
  lemma AcceptsWord(name: string)
    requires name != "" && |name| <= MaxLen && AllowedText(name)
    requires name[0] != '.' && name[0] != '-'
    ensures SanitizeBinaryName(name) == Ok(name)
  {
    AllowedTextMeans(name);
    AllowedIsAscii(name);
    AcceptsValid(name);
  }

  /** A name with a disallowed character, after allowed ones only, is
      refused for that character. */
  lemma RefusesFirstInvalid(name: string, i: nat)
    requires 0 < |name| <= MaxLen && !IsSpace(name[0]) && !IsSpace(name[|name| - 1])
    requires forall k :: 0 <= k < |name| ==> name[k] as int < 0x80
    requires i < |name| && !Allowed(name[i]) && forall k :: 0 <= k < i ==> Allowed(name[k])
    ensures SanitizeBinaryName(name) == Err(InvalidChar(name[i]))
  {
    TrimFixed(name);
    Utf8LenAscii(name);
    var j := FirstInvalid(name).value;
    assert !(j < i) && !(i < j);
  }

  lemma AcceptsGit(name: string)
    requires name == "git"
    ensures SanitizeBinaryName(name) == Ok(name)
  {
    AcceptsWord("git");
  }

  lemma AcceptsMyTool(name: string)
    requires name == "my_tool"
    ensures SanitizeBinaryName(name) == Ok(name)
  {
    AcceptsWord("my_tool");
  }

  lemma AcceptsToolExe(name: string)
    requires name == "tool.exe"
    ensures SanitizeBinaryName(name) == Ok(name)
  {
    AcceptsWord("tool.exe");
  }

  lemma AcceptsNode(name: string)
    requires name == "node"
    ensures SanitizeBinaryName(name) == Ok(name)
  {
    AcceptsWord("node");
  }

  lemma AcceptsPython3(name: string)
    requires name == "python3"
    ensures SanitizeBinaryName(name) == Ok(name)
  {
    AcceptsWord("python3");
  }

  lemma AcceptsMyDashTool(name: string)
    requires name == "my-tool"
    ensures SanitizeBinaryName(name) == Ok(name)
  {
    AcceptsWord("my-tool");
  }

  lemma AcceptsA1b2c3(name: string)
    requires name == "a1b2c3"
    ensures SanitizeBinaryName(name) == Ok(name)
  {
    AcceptsWord("a1b2c3");
  }

  /** Every name the valid-name test lists is accepted unchanged. */
  lemma AcceptedExamples(name: string)
    requires name in ["git", "node", "python3", "my-tool", "my_tool", "tool.exe", "a1b2c3"]
    ensures SanitizeBinaryName(name) == Ok(name)
  {
    if name == "git" {
      AcceptsGit(name);
    } else if name == "node" {
      AcceptsNode(name);
    } else if name == "python3" {
      AcceptsPython3(name);
    } else if name == "my-tool" {
      AcceptsMyDashTool(name);
    } else if name == "my_tool" {
      AcceptsMyTool(name);
    } else if name == "tool.exe" {
      AcceptsToolExe(name);
    } else {
      AcceptsA1b2c3(name);
    }
  }

  lemma PaddedNameIsTrimmed(name: string)
    requires name == "  git  "
    ensures SanitizeBinaryName(name) == Ok("git")
  {
    assert TrimStart(name) == "git  " by {
      assert name[1..] == " git  " && " git  "[1..] == "git  ";
      assert TrimStart(name) == TrimStart(" git  ") == TrimStart("git  ");
    }
    assert TrimEnd("git  ") == "git" by {
      assert "git  "[..4] == "git " && "git "[..3] == "git";
      assert TrimEnd("git  ") == TrimEnd("git ") == TrimEnd("git");
    }
    AcceptsWord("git");
  }

  lemma BlankNamesAreEmpty(name: string)
    requires name in ["", "   ", "\t", "\n"]
    ensures SanitizeBinaryName(name) == Err(Empty)
  {
    TrimEmptyIffAllSpace(name);
  }

  /** A name of allowed characters with nothing to trim, starting with `.`
      or `-`, is refused for that. */
  lemma RefusesLeadingDotOrDash(name: string)
    requires 0 < |name| <= MaxLen && AllowedText(name)
    requires name[0] == '.' || name[0] == '-'
    requires !IsSpace(name[|name| - 1])
    ensures SanitizeBinaryName(name) == Err(LeadingDotOrDash)
  {
    AllowedTextMeans(name);
    AllowedIsAscii(name);
    TrimFixed(name);
  }

  lemma LeadingDotOrDashExamples(name: string)
    requires name in [".hidden", "-flag"]
    ensures SanitizeBinaryName(name) == Err(LeadingDotOrDash)
  {
    if name == ".hidden" {
      RefusesLeadingDotOrDash(name);
    } else {
      RefusesLeadingDotOrDash(name);
    }
  }

  lemma InjectionExamples(name: string, i: nat)
    requires (name, i) in [("git;rm", 3), ("cmd|sh", 3), ("tool$(id)", 4), ("tool`id`", 4)]
    ensures SanitizeBinaryName(name) == Err(InvalidChar(name[i]))
  {
    if name == "git;rm" {
      RefusesFirstInvalid(name, i);
    } else if name == "cmd|sh" {
      RefusesFirstInvalid(name, i);
    } else if name == "tool$(id)" {
      RefusesFirstInvalid(name, i);
    } else {
      RefusesFirstInvalid(name, i);
    }
  }

  /** 256 letters are too long, 255 are accepted. */
  lemma LengthLimit(n: nat)
    requires 0 < n
    ensures var name := seq(n, _ => 'a');
      SanitizeBinaryName(name) == if n > MaxLen then Err(TooLong) else Ok(name)
  {
    var name := seq(n, _ => 'a');
    TrimFixed(name);
    Utf8LenAscii(name);
  }
}

=== FILE: settings.dfy ===
/** The settings store of src/features/Settings/settingsSlice.ts: the Ollama
    connection settings, replaced wholesale when loaded from disk and merged
    field by field on an update. A state read from disk may lack the
    `ollama` record, which the update then takes from the defaults. */
module Settings {
  import opened Strings

  datatype OllamaOptions = OllamaOptions(temperature: real, numPredict: int)

  datatype Ollama = Ollama(baseUrl: string, defaultModel: string, timeout: int, options: OllamaOptions)

  datatype SettingsState = SettingsState(ollama: Option<Ollama>)

  /** A partial `ollama` record: the fields present are the ones to set. */
  datatype OllamaPatch = OllamaPatch(
    baseUrl: Option<string>,
    defaultModel: Option<string>,
    timeout: Option<int>,
    options: Option<OllamaOptions>)

  const DefaultOllama := Ollama("http://localhost:11434", "qwen3:4b", 30000, OllamaOptions(0.3, 300))

  const InitialState := SettingsState(Some(DefaultOllama))

  /** `replaceSettings`: the loaded state, whatever was there. */
  function ReplaceSettings(st: SettingsState, payload: SettingsState): SettingsState {
    payload
  }

  /** `updateOllama`: the present fields over the existing record (or the
      defaults when there is none); `options` is replaced as a whole. */
  function UpdateOllama(st: SettingsState, patch: OllamaPatch): (r: SettingsState)
    ensures r.ollama.Some?
  {
    var existing := if st.ollama.Some? then st.ollama.value else DefaultOllama;
    SettingsState(Some(Ollama(
      patch.baseUrl.GetOr(existing.baseUrl),
      patch.defaultModel.GetOr(existing.defaultModel),
      patch.timeout.GetOr(existing.timeout),
      patch.options.GetOr(existing.options))))
  }

  /** The later patch wins field by field. */
  function Merge(first: OllamaPatch, second: OllamaPatch): OllamaPatch {
    OllamaPatch(
      if second.baseUrl.Some? then second.baseUrl else first.baseUrl,
      if second.defaultModel.Some? then second.defaultModel else first.defaultModel,
      if second.timeout.Some? then second.timeout else first.timeout,
      if second.options.Some? then second.options else first.options)
  }

  const EmptyPatch := OllamaPatch(None, None, None, None)

  // ---------------------------------------------------------------------
  // Properties.

  /** The defaults: the local Ollama server, `qwen3:4b`, a 30 s timeout,
      temperature 0.3 and at most 300 predicted tokens. */
  lemma Defaults()
    ensures InitialState.ollama.Some?
    ensures InitialState.ollama.value.baseUrl == "http://localhost:11434"
    ensures InitialState.ollama.value.defaultModel == "qwen3:4b"
    ensures InitialState.ollama.value.timeout == 30000
    ensures InitialState.ollama.value.options.temperature == 3.0 / 10.0
    ensures InitialState.ollama.value.options.numPredict == 300
  {
  }

  /** Each field is the patch's when present and the existing (or default)
      one otherwise. */
  lemma UpdateMeaning(st: SettingsState, patch: OllamaPatch)
    ensures var existing := if st.ollama.Some? then st.ollama.value else DefaultOllama;
      var o := UpdateOllama(st, patch).ollama.value;
      && (patch.baseUrl.Some? ==> o.baseUrl == patch.baseUrl.value)
      && (patch.baseUrl.None? ==> o.baseUrl == existing.baseUrl)
      && (patch.defaultModel.Some? ==> o.defaultModel == patch.defaultModel.value)
      && (patch.defaultModel.None? ==> o.defaultModel == existing.defaultModel)
      && (patch.timeout.Some? ==> o.timeout == patch.timeout.value)
      && (patch.timeout.None? ==> o.timeout == existing.timeout)
      && (patch.options.Some? ==> o.options == patch.options.value)
      && (patch.options.None? ==> o.options == existing.options)
  {
  }

  /** An empty update changes a loaded record not at all, and restores the
      defaults where the record was missing. */
  lemma EmptyUpdate(st: SettingsState)
    ensures UpdateOllama(st, EmptyPatch) == if st.ollama.Some? then st else InitialState
  {
  }

  /** Two updates are one update with the merged patch. */
  lemma UpdatesCompose(st: SettingsState, first: OllamaPatch, second: OllamaPatch)
    ensures UpdateOllama(UpdateOllama(st, first), second) == UpdateOllama(st, Merge(first, second))
  {
  }

  /** Applying the same update twice is applying it once. */
  lemma UpdateIdempotent(st: SettingsState, patch: OllamaPatch)
    ensures UpdateOllama(UpdateOllama(st, patch), patch) == UpdateOllama(st, patch)
  {
    UpdatesCompose(st, patch, patch);
    assert Merge(patch, patch) == patch;
  }

  /** Replacing discards the previous state: an update after a replace sees
      only the loaded state. */
  lemma ReplaceForgets(st1: SettingsState, st2: SettingsState, loaded: SettingsState, patch: OllamaPatch)
    ensures UpdateOllama(ReplaceSettings(st1, loaded), patch) == UpdateOllama(ReplaceSettings(st2, loaded), patch)
    ensures ReplaceSettings(st1, loaded).ollama == loaded.ollama
  {
  }

  /** A new `options` record replaces both of its fields, even when only one
      of them differs. */
  lemma OptionsReplacedWhole(st: SettingsState, temperature: real)
    requires st.ollama.Some?
    ensures var p := OllamaPatch(None, None, None, Some(OllamaOptions(temperature, 300)));
      UpdateOllama(st, p).ollama.value.options == OllamaOptions(temperature, 300)
  {
  }
}

=== FILE: strings.dfy ===
/** Text helpers shared by the whole model: the optional value, whitespace
    trimming, substring search, and the JavaScript `split`/`join` pair.

    Whitespace is the ASCII set that JavaScript's `trim`/`\s` and Rust's
    `str::trim` agree on: space, TAB, LF, VT, FF and CR. */
module Strings {

  datatype Option<+T> = None | Some(value: T) {
    /** The wrapped value, or `default` when there is none. */
    function GetOr(default: T): T {
      match this
      case Some(v) => v
      case None => default
    }
  }

  predicate IsSpace(c: char) {
    c == ' ' || c == '\t' || c == '\n' || c == '\U{0B}' || c == '\U{0C}' || c == '\r'
  }

  predicate NoSpace(s: string) {
    forall i :: 0 <= i < |s| ==> !IsSpace(s[i])
  }

  predicate AllSpace(s: string) {
    forall i :: 0 <= i < |s| ==> IsSpace(s[i])
  }

  /** `s` with its leading whitespace removed (`trimStart`). */
  function TrimStart(s: string): string {
    if s != [] && IsSpace(s[0]) then TrimStart(s[1..]) else s
  }

  /** `s` with its trailing whitespace removed (`trimEnd`). */
  function TrimEnd(s: string): string {
    if s != [] && IsSpace(s[|s| - 1]) then TrimEnd(s[..|s| - 1]) else s
  }

  /** `s` with whitespace removed at both ends (`trim`). */
  function Trim(s: string): string {
    TrimEnd(TrimStart(s))
  }

  /** `trimStart` removes exactly the whitespace run at the start. */
  lemma {:induction false} TrimStartShape(s: string)
    ensures var r := TrimStart(s);
      && |r| <= |s| && r == s[|s| - |r|..]
      && AllSpace(s[..|s| - |r|])
      && (r == [] || !IsSpace(r[0]))
  {
    if s != [] && IsSpace(s[0]) {
      TrimStartShape(s[1..]);
      var r := TrimStart(s[1..]);
      assert s[..|s| - |r|] == [s[0]] + s[1..][..|s| - 1 - |r|];
    }
  }

  /** `trimEnd` removes exactly the whitespace run at the end. */
  lemma {:induction false} TrimEndShape(s: string)
    ensures var r := TrimEnd(s);
      && |r| <= |s| && r == s[..|r|]
      && AllSpace(s[|r|..])
      && (r == [] || !IsSpace(r[|r| - 1]))
  {
    if s != [] && IsSpace(s[|s| - 1]) {
      var p := s[..|s| - 1];
      TrimEndShape(p);
      var r := TrimEnd(p);
      assert s[|r|..] == p[|r|..] + [s[|s| - 1]];
    }
  }

  /** The trimmed text is the slice of the original left after removing the
      whitespace runs at both ends: only whitespace goes, and what is left
      neither starts nor ends with whitespace. */
  lemma TrimShape(s: string)
    ensures var r := Trim(s);
      var k := |s| - |TrimStart(s)|;
      && |r| <= |s| && 0 <= k && k + |r| <= |s|
      && r == s[k..k + |r|]
      && AllSpace(s[..k]) && AllSpace(s[k + |r|..])
      && (r == [] || (!IsSpace(r[0]) && !IsSpace(r[|r| - 1])))
  {
    TrimStartShape(s);
    var a := TrimStart(s);
    var k := |s| - |a|;
    TrimEndShape(a);
    var r := TrimEnd(a);
    assert a == s[k..];
    assert s[k..][..|r|] == s[k..k + |r|];
    assert s[k + |r|..] == a[|r|..];
  }

  /** Whitespace around a text with no whitespace at its ends is exactly what
      `trim` removes. */
  lemma TrimPadded(front: string, s: string, back: string)
    requires AllSpace(front) && AllSpace(back)
    requires s == [] || (!IsSpace(s[0]) && !IsSpace(s[|s| - 1]))
    ensures Trim(front + s + back) == s
  {
    var x := front + s + back;
    TrimShape(x);
    var r := Trim(x);
    var k := |x| - |TrimStart(x)|;
    if s == [] {
      assert AllSpace(x) by {
        assert forall i :: 0 <= i < |x| ==> x[i] == (if i < |front| then front[i] else back[i - |front|]);
      }
      TrimEmptyIffAllSpace(x);
    } else {
      assert x[|front|] == s[0] && x[|front| + |s| - 1] == s[|s| - 1];
      assert forall i :: |front| <= i < |front| + |s| ==> x[i] == s[i - |front|];
      assert forall i :: 0 <= i < |front| ==> IsSpace(x[i]);
      assert forall i :: |front| + |s| <= i < |x| ==> IsSpace(x[i]);
      // The leading run stops exactly at the end of `front`.
      assert forall i :: 0 <= i < k ==> IsSpace(x[i]) by {
        assert forall i :: 0 <= i < k ==> x[..k][i] == x[i];
      }
      assert k <= |front|;
      TrimStartShape(x);
      assert TrimStart(x) == x[k..] && TrimStart(x)[0] == x[k];
      assert k == |front|;
      // The trailing run starts exactly at the end of `s`.
      var e := k + |r|;
      assert forall i :: e <= i < |x| ==> IsSpace(x[i]) by {
        assert forall i :: e <= i < |x| ==> x[e..][i - e] == x[i];
      }
      assert e >= |front| + |s|;
      assert r[|r| - 1] == x[e - 1];
      assert e == |front| + |s|;
      assert x[|front|..|front| + |s|] == s;
    }
  }

  lemma TrimStartFixed(s: string)
    requires s == [] || !IsSpace(s[0])
    ensures TrimStart(s) == s
  {
  }

  lemma TrimEndFixed(s: string)
    requires s == [] || !IsSpace(s[|s| - 1])
    ensures TrimEnd(s) == s
  {
  }

  /** A string that begins and ends with a non-space is its own trim. */
  lemma TrimFixed(s: string)
    requires s == [] || (!IsSpace(s[0]) && !IsSpace(s[|s| - 1]))
    ensures Trim(s) == s
  {
    TrimStartFixed(s);
    TrimEndFixed(s);
  }

  /** The trim of a string is empty exactly when the string is all whitespace. */
  lemma TrimEmptyIffAllSpace(s: string)
    ensures Trim(s) == [] <==> AllSpace(s)
  {
    TrimStartShape(s);
    var a := TrimStart(s);
    var k := |s| - |a|;
    TrimEndShape(a);
    if a != [] {
      assert a[0] == s[k] && !IsSpace(s[k]);
      assert TrimEnd(a) != [] && !AllSpace(s);
    } else {
      assert s[..k] == s;
    }
  }

  predicate OccursAt(s: string, pat: string, i: int) {
    0 <= i && i + |pat| <= |s| && s[i..i + |pat|] == pat
  }

  /** The first index at or after `from` where `pat` occurs in `s`. */
  function IndexFrom(s: string, pat: string, from: nat): (r: Option<nat>)
    decreases |s| - from
    ensures r.Some? ==> from <= r.value && OccursAt(s, pat, r.value)
  {
    if from + |pat| > |s| then None
    else if s[from..from + |pat|] == pat then Some(from)
    else IndexFrom(s, pat, from + 1)
  }

  /** The search finds the first occurrence at or after `from`, and reports
      none only when there is none. */
  lemma {:induction false} IndexFromSpec(s: string, pat: string, from: nat)
    ensures var r := IndexFrom(s, pat, from);
      && (r.Some? ==> forall k :: from <= k < r.value ==> !OccursAt(s, pat, k))
      && (r.None? ==> forall k :: from <= k ==> !OccursAt(s, pat, k))
    decreases |s| - from
  {
    if from + |pat| <= |s| && s[from..from + |pat|] != pat {
      IndexFromSpec(s, pat, from + 1);
    }
  }

  /** `indexOf`: the first occurrence of `pat` in `s`, if any. */
  function IndexOf(s: string, pat: string): (r: Option<nat>)
  {
    IndexFrom(s, pat, 0)
  }

  /** `IndexOf` reports the first occurrence, or none when there is none. */
  lemma IndexOfSpec(s: string, pat: string)
    ensures var r := IndexOf(s, pat);
      && (r.Some? ==> OccursAt(s, pat, r.value))
      && (r.Some? ==> forall k :: 0 <= k < r.value ==> !OccursAt(s, pat, k))
      && (r.None? ==> forall k :: !OccursAt(s, pat, k))
  {
    IndexFromSpec(s, pat, 0);
  }

  /** `includes`. */
  predicate Contains(s: string, pat: string) {
    IndexOf(s, pat).Some?
  }

  lemma ContainsAt(s: string, pat: string, i: int)
    requires OccursAt(s, pat, i)
    ensures Contains(s, pat)
  {
    IndexOfSpec(s, pat);
  }

  /** A first occurrence is the one `IndexOf` reports. */
  lemma IndexOfUnique(s: string, pat: string, i: nat)
    requires OccursAt(s, pat, i)
    requires forall k :: 0 <= k < i ==> !OccursAt(s, pat, k)
    ensures IndexOf(s, pat) == Some(i)
  {
    IndexOfSpec(s, pat);
  }

  predicate StartsWith(s: string, p: string) {
    |p| <= |s| && s[..|p|] == p
  }

  /** `replace(pat, rep)` with a string pattern: only the first occurrence is replaced. */
  function ReplaceFirst(s: string, pat: string, rep: string): (r: string)
    ensures !Contains(s, pat) ==> r == s
    ensures Contains(s, pat) ==>
      var i := IndexOf(s, pat).value;
      s == s[..i] + pat + s[i + |pat|..] && r == s[..i] + rep + s[i + |pat|..]
  {
    match IndexOf(s, pat)
    case None => s
    case Some(i) =>
      assert s == s[..i] + s[i..i + |pat|] + s[i + |pat|..];
      s[..i] + rep + s[i + |pat|..]
  }

  /** Replacing a pattern that the string starts with drops that prefix. */
  lemma ReplaceLeadingPrefix(s: string, pat: string)
    requires StartsWith(s, pat)
    ensures ReplaceFirst(s, pat, "") == s[|pat|..]
  {
    assert OccursAt(s, pat, 0);
    IndexOfUnique(s, pat, 0);
  }

  /** `parts.join(sep)`. */
  function Join(parts: seq<string>, sep: string): string {
    if parts == [] then ""
    else if |parts| == 1 then parts[0]
    else parts[0] + sep + Join(parts[1..], sep)
  }

  /** `s.split(sep)` for a string separator: an empty separator splits into
      single characters (and the empty string into no parts); otherwise the
      parts between successive first occurrences of `sep`. */
  function Split(s: string, sep: string): (r: seq<string>)
    decreases |s|
    ensures sep != [] ==> |r| >= 1
    ensures sep == [] ==> |r| == |s|
  {
    if sep == [] then
      if s == [] then [] else [[s[0]]] + Split(s[1..], sep)
    else
      match IndexOf(s, sep)
      case None => [s]
      case Some(i) => [s[..i]] + Split(s[i + |sep|..], sep)
  }

  lemma JoinCons(a: string, rest: seq<string>, sep: string)
    requires rest != []
    ensures Join([a] + rest, sep) == a + sep + Join(rest, sep)
  {
    assert ([a] + rest)[1..] == rest;
  }

  /** Joining the parts of a split with the same separator restores the string. */
  lemma {:induction false} JoinSplit(s: string, sep: string)
    requires sep != []
    ensures Join(Split(s, sep), sep) == s
    decreases |s|
  {
    match IndexOf(s, sep)
    case None =>
    case Some(i) =>
      var rest := s[i + |sep|..];
      JoinSplit(rest, sep);
      JoinCons(s[..i], Split(rest, sep), sep);
      assert s == s[..i] + sep + rest;
  }

  predicate NoChar(s: string, c: char) {
    forall i :: 0 <= i < |s| ==> s[i] != c
  }

  lemma OccursAtChar(s: string, c: char, k: int)
    ensures OccursAt(s, [c], k) <==> 0 <= k < |s| && s[k] == c
  {
    if 0 <= k < |s| {
      assert s[k..k + 1] == [s[k]];
    }
  }

  /** With a one-character separator, `IndexOf` finds the first position of that character. */
  lemma IndexOfChar(s: string, c: char)
    ensures NoChar(s, c) <==> IndexOf(s, [c]).None?
    ensures IndexOf(s, [c]).Some? ==>
      var i := IndexOf(s, [c]).value; i < |s| && s[i] == c && NoChar(s[..i], c)
  {
    IndexOfSpec(s, [c]);
    forall k | true
      ensures OccursAt(s, [c], k) <==> 0 <= k < |s| && s[k] == c
    {
      OccursAtChar(s, c, k);
    }
  }

  /** A separator character preceded by a separator-free text is the first
      split point. */
  lemma SplitFirstSep(a: string, c: char, b: string)
    requires NoChar(a, c)
    ensures Split(a + [c] + b, [c]) == [a] + Split(b, [c])
  {
    var s := a + [c] + b;
    forall k | 0 <= k < |a|
      ensures !OccursAt(s, [c], k)
    {
      OccursAtChar(s, c, k);
    }
    OccursAtChar(s, c, |a|);
    IndexOfUnique(s, [c], |a|);
    assert s[..|a|] == a;
    assert s[|a| + 1..] == b;
  }

  /** Splitting at a separator character distributes over the pieces around it. */
  lemma {:induction false} SplitAround(a: string, c: char, b: string)
    ensures Split(a + [c] + b, [c]) == Split(a, [c]) + Split(b, [c])
    decreases |a|
  {
    IndexOfChar(a, c);
    if NoChar(a, c) {
      SplitFirstSep(a, c, b);
      SplitNoSep(a, c);
    } else {
      var i := IndexOf(a, [c]).value;
      var head, a' := a[..i], a[i + 1..];
      assert a == head + [c] + a';
      SplitAround(a', c, b);
      SplitAroundStep(head, a', c, b);
    }
  }

  /** The inductive step of `SplitAround`: a separator-free head in front. */
  lemma SplitAroundStep(head: string, a': string, c: char, b: string)
    requires NoChar(head, c)
    requires Split(a' + [c] + b, [c]) == Split(a', [c]) + Split(b, [c])
    ensures Split(head + [c] + a' + [c] + b, [c]) == Split(head + [c] + a', [c]) + Split(b, [c])
  {
    Assoc(head + [c] + a', [c], b);
    Assoc(head + [c], a', [c] + b);
    Assoc(a', [c], b);
    SplitFirstSep(head, c, a' + [c] + b);
    SplitFirstSep(head, c, a');
    Assoc([head], Split(a', [c]), Split(b, [c]));
  }

  lemma Assoc<T>(x: seq<T>, y: seq<T>, z: seq<T>)
    ensures x + (y + z) == x + y + z
  {
  }

  /** A string without the separator character splits into itself alone. */
  lemma SplitNoSep(s: string, c: char)
    requires NoChar(s, c)
    ensures Split(s, [c]) == [s]
  {
    IndexOfChar(s, c);
  }

  /** Splitting the join of separator-free parts recovers the parts. */
  lemma {:induction false} SplitJoin(parts: seq<string>, c: char)
    requires parts != []
    requires forall i :: 0 <= i < |parts| ==> NoChar(parts[i], c)
    ensures Split(Join(parts, [c]), [c]) == parts
    decreases |parts|
  {
    if |parts| == 1 {
      SplitNoSep(parts[0], c);
    } else {
      var rest := parts[1..];
      SplitJoin(rest, c);
      JoinCons(parts[0], rest, [c]);
      assert [parts[0]] + rest == parts;
      SplitAround(parts[0], c, Join(rest, [c]));
      SplitNoSep(parts[0], c);
    }
  }

  /** No part of a split on a character contains that character. */
  lemma {:induction false} SplitPartsNoChar(s: string, c: char)
    ensures forall i :: 0 <= i < |Split(s, [c])| ==> NoChar(Split(s, [c])[i], c)
    decreases |s|
  {
    IndexOfChar(s, c);
    match IndexOf(s, [c])
    case None =>
    case Some(i) =>
      SplitPartsNoChar(s[i + 1..], c);
      assert Split(s, [c]) == [s[..i]] + Split(s[i + 1..], [c]);
  }

  /** Joining non-empty parts gives the empty text only for no parts. */
  lemma {:induction false} JoinEmptyIff(parts: seq<string>, sep: string)
    requires forall i :: 0 <= i < |parts| ==> parts[i] != ""
    ensures Join(parts, sep) == "" <==> parts == []
  {
    if |parts| > 1 {
      assert |Join(parts, sep)| >= |parts[0]| > 0;
    }
  }

  /** Joining two non-empty lists puts one separator between their joins. */
  lemma {:induction false} JoinConcat(a: seq<string>, b: seq<string>, sep: string)
    requires a != [] && b != []
    ensures Join(a + b, sep) == Join(a, sep) + sep + Join(b, sep)
    decreases |a|
  {
    if |a| == 1 {
      assert (a + b)[0] == a[0] && (a + b)[1..] == b;
    } else {
      assert (a + b)[0] == a[0] && (a + b)[1..] == a[1..] + b;
      JoinConcat(a[1..], b, sep);
    }
  }

  predicate IsDigit(c: char) {
    '0' <= c <= '9'
  }

  predicate AllDigits(s: string) {
    forall i :: 0 <= i < |s| ==> IsDigit(s[i])
  }

  /** The decimal value of a digit string (empty gives 0). */
  function DigitsValue(s: string): nat
    requires AllDigits(s)
  {
    if s == [] then 0
    else 10 * DigitsValue(s[..|s| - 1]) + (s[|s| - 1] as int - '0' as int)
  }

  /** The longest run of decimal digits at the start of `s`. */
  function LeadingDigits(s: string): (r: string)
    ensures AllDigits(r) && StartsWith(s, r)
    ensures |r| == |s| || !IsDigit(s[|r|])
  {
    if s != [] && IsDigit(s[0]) then [s[0]] + LeadingDigits(s[1..]) else ""
  }
}

=== FILE: terminal.dfy ===
/** The shell-integration decoder of src/features/Terminal/useTerminal.tsx.

    The hook's refs and React states become one `Decoder` record, and each
    handler becomes a pure step `(decoder, environment, event) -> (decoder,
    effects)`. The xterm.js collaborator is folded into the `Env` a step
    receives: the scrollback as already-translated lines (`None` where
    `getLine` finds nothing), the current line of each marker the decoder
    holds, and the line of the marker registered during the step (`None` when
    `registerMarker` yields no marker). The 200 ms prompt-finalise timer is the
    `TimerFired` event; the clock is `Env.now`. Dispatches to the history
    store, resolver calls and PTY/terminal writes are returned as effects. */
module TerminalDecoder {
  import opened Strings
  import H = TerminalHistory

  /** What a finished command yields to a captured caller and to `lastCommand`. */
  datatype CommandResult = CommandResult(output: string, exitCode: int)

  datatype Decoder = Decoder(
    collecting: bool,                 // collectingRef
    lastExitCode: int,                // lastExitCodeRef
    pending: Option<nat>,             // pendingCaptureResolveRef, by resolver identity
    commandInProgress: bool,          // commandInProgressRef
    startMarker: bool,                // startMarkerRef is set
    promptStartMarker: bool,          // promptStartMarkerRef is set
    promptLastLine: string,           // promptLastLineRef
    timerArmed: bool,                 // promptFinalizeTimerRef is pending
    lastUserPrompt: string,           // lastUserPromptRef (and its state twin)
    lastUserCommand: string,          // lastUserCommandRef (and its state twin)
    commandStartTime: Option<int>,    // commandStartTimeRef; None for ""
    collectingPrompt: bool,           // collectingPromptRef
    promptBuffer: string,             // promptBufferRef
    cwd: string,                      // cwd state
    currentPrompt: string,            // currentPrompt state
    lastCommand: Option<CommandResult>) // lastCommand state

  const Initial := Decoder(false, 0, None, false, false, false, "", false, "", "", None, false, "", "", "", None)

  /** What the terminal shows at the moment of a step. */
  datatype Env = Env(
    lines: seq<Option<string>>,
    heldPromptLine: Option<int>,   // current line of the prompt-start marker
    heldStartLine: Option<int>,    // current line of the output-start marker
    newMarker: Option<int>,        // line of the marker registered in this step
    now: int)

  datatype Event =
    | Osc133(payload: string)
    | Osc7(payload: string)
    | Data(chunk: string)
    | TimerFired
    | RunCaptured(cmd: string, id: nat)
    | RunCommand(cmd: string)

  datatype Effect =
    | WritePty(data: string)
    | WriteTerminal(data: string)
    | PromptChanged(prompt: string)              // dispatch(setLatestPrompt(...))
    | CommandStarted(start: H.StartPayload)      // dispatch(startCommand(...))
    | CommandFinished(run: H.RunPayload)         // dispatch(recordRun(...))
    | Resolve(id: nat, result: CommandResult)    // the pending resolver is called
    | Reject(id: nat, message: string)           // runCaptured's rejected promise

  datatype Step = Step(st: Decoder, effects: seq<Effect>)

  const PendingMessage := "A captured command is already pending"
  const PasteStart := "\U{1B}[200~"
  const PasteEnd := "\U{1B}[201~"

  // ---------------------------------------------------------------------
  // Reading the scrollback.

  /** `buffer.getLine(i)?.translateToString(true)`. */
  function LineAt(lines: seq<Option<string>>, i: int): Option<string> {
    if 0 <= i < |lines| then lines[i] else None
  }

  /** The lines `lo..hi` inclusive that exist, in order (the `for` loops of
      the B and D branches). */
  function CollectLines(lines: seq<Option<string>>, lo: int, hi: int): (r: seq<string>)
    decreases if hi < lo then 0 else hi - lo + 1
    ensures |r| <= if hi < lo then 0 else hi - lo + 1
    ensures forall k :: 0 <= k < |r| ==> exists i :: lo <= i <= hi && LineAt(lines, i) == Some(r[k])
  {
    if hi < lo then []
    else
      var rest := CollectLines(lines, lo + 1, hi);
      match LineAt(lines, lo)
      case Some(l) =>
        var r := [l] + rest;
        assert forall k :: 0 < k < |r| ==> r[k] == rest[k - 1];
        r
      case None => rest
  }

  /** When every line of the range exists, all of them are collected. */
  lemma {:induction false} CollectLinesPresent(lines: seq<Option<string>>, lo: int, hi: int)
    requires lo <= hi + 1
    requires forall i :: lo <= i <= hi ==> (LineAt(lines, i).Some?)
    decreases hi - lo + 1
    ensures |CollectLines(lines, lo, hi)| == hi - lo + 1
    ensures forall k :: 0 <= k <= hi - lo ==> (CollectLines(lines, lo, hi)[k] == LineAt(lines, lo + k).value)
  {
    if lo <= hi {
      CollectLinesPresent(lines, lo + 1, hi);
      var rest := CollectLines(lines, lo + 1, hi);
      assert CollectLines(lines, lo, hi) == [LineAt(lines, lo).value] + rest;
      forall k | 0 < k <= hi - lo
        ensures CollectLines(lines, lo, hi)[k] == LineAt(lines, lo + k).value
      {
        assert rest[k - 1] == LineAt(lines, lo + 1 + (k - 1)).value;
      }
    }
  }

  /** The last element of `s.split("\n")`. */
  function LastPart(s: string): string {
    var parts := Split(s, "\n");
    parts[|parts| - 1]
  }

  /** The last part of the split is the text after the last newline: it has
      no newline, ends the string, and is preceded by a newline unless it is
      the whole string. */
  lemma {:induction false} LastPartShape(s: string)
    ensures var l := LastPart(s);
      && NoChar(l, '\n') && |l| <= |s| && l == s[|s| - |l|..]
      && (|l| < |s| ==> s[|s| - |l| - 1] == '\n')
    decreases |s|
  {
    IndexOfChar(s, '\n');
    match IndexOf(s, "\n")
    case None =>
      assert Split(s, "\n") == [s];
    case Some(i) =>
      var rest := s[i + 1..];
      var parts := Split(rest, "\n");
      assert Split(s, "\n") == [s[..i]] + parts;
      assert LastPart(s) == LastPart(rest);
      LastPartShape(rest);
  }

  // ---------------------------------------------------------------------
  // Values the branches compute.

  /** `Number(s) || 0` for the exit-code text after `D;`: a decimal digit
      string gives its value, anything else 0. */
  function ExitCode(s: string): (r: nat)
    ensures s != [] && AllDigits(s) ==> r == DigitsValue(s)
    ensures !AllDigits(s) ==> r == 0
  {
    if s != [] && AllDigits(s) then DigitsValue(s) else 0
  }

  /** The prompt a `B` computes: the lines between the markers, or the
      streamed buffer when the markers do not give a range. */
  function MarkedPrompt(lines: seq<Option<string>>, startLine: Option<int>, endLine: Option<int>, buffer: string): string {
    if startLine.Some? && endLine.Some? && endLine.value >= startLine.value then
      TrimEnd(Join(CollectLines(lines, startLine.value, endLine.value), "\n"))
    else TrimEnd(buffer)
  }

  /** The output a `D` computes: the lines after the start marker up to the
      end marker, or nothing when the markers do not give a range. */
  function MarkedOutput(lines: seq<Option<string>>, startLine: Option<int>, endLine: Option<int>): string {
    if startLine.Some? && endLine.Some? && endLine.value >= startLine.value then
      Join(CollectLines(lines, startLine.value + 1, endLine.value), "\n")
    else ""
  }

  /** `B` stores only a prompt that is non-empty and not the `>>` continuation. */
  predicate AcceptablePrompt(p: string) {
    p != "" && p != ">>"
  }

  /** The command typed on a line: the text after the first occurrence of the
      known prompt line when that occurs in it, otherwise the whole line,
      trimmed. */
  function CommandFromLine(lineText: string, known: string): (r: string)
    ensures known != "" && Contains(lineText, known) ==>
      exists i :: OccursAt(lineText, known, i) && r == Trim(lineText[i + |known|..])
        && forall j :: 0 <= j < i ==> !OccursAt(lineText, known, j)
    ensures !(known != "" && Contains(lineText, known)) ==> r == Trim(lineText)
  {
    if known != "" && Contains(lineText, known) then
      IndexOfSpec(lineText, known);
      var i := IndexOf(lineText, known).value;
      Trim(lineText[i + |known|..])
    else Trim(lineText)
  }

  /** The text of the line a marker points at, or "" without one. */
  function ReadMarkedLine(lines: seq<Option<string>>, marker: Option<int>): string {
    match marker
    case None => ""
    case Some(i) => LineAt(lines, i).GetOr("")
  }

  /** The leading run of characters other than `/`. */
  function HostLen(s: string): (n: nat)
    ensures n <= |s| && NoChar(s[..n], '/')
    ensures n == |s| || s[n] == '/'
  {
    if s != [] && s[0] != '/' then
      var n := HostLen(s[1..]);
      assert s[..n + 1] == [s[0]] + s[1..][..n];
      n + 1
    else 0
  }

  /** `data.replace(/^file:\/\/[^/]+/, "")`. */
  function StripFileHost(data: string): (r: string)
    ensures !StartsWith(data, "file://") ==> r == data
    ensures StartsWith(data, "file://") && HostLen(data[7..]) == 0 ==> r == data
    ensures StartsWith(data, "file://") && HostLen(data[7..]) > 0 ==>
      && r == data[7 + HostLen(data[7..])..]
      && (r == [] || r[0] == '/')
  {
    if StartsWith(data, "file://") then
      var rest := data[7..];
      var n := HostLen(rest);
      if n > 0 then rest[n..] else data
    else data
  }

  // ---------------------------------------------------------------------
  // The handlers.

  function StorePrompt(st: Decoder, prompt: string): Decoder {
    st.(currentPrompt := prompt, lastUserPrompt := prompt, promptLastLine := LastPart(prompt))
  }

  /** `A`: mark the prompt start, start collecting the prompt, arm the timer. */
  function OnPromptStart(st: Decoder, env: Env): (r: Step)
    ensures r.effects == []
    ensures r.st.collectingPrompt && r.st.promptBuffer == "" && r.st.timerArmed
    ensures r.st.promptStartMarker <==> env.newMarker.Some?
    ensures r.st.collecting == (st.pending.Some? && st.collecting)
    ensures r.st.pending == st.pending && r.st.lastUserPrompt == st.lastUserPrompt
  {
    Step(st.(promptStartMarker := env.newMarker.Some?,
             collectingPrompt := true,
             promptBuffer := "",
             collecting := if st.pending.None? then false else st.collecting,
             timerArmed := true),
         [])
  }

  /** The timer armed by `A` fires: if the prompt is still being collected,
      store the streamed buffer, trimmed, without filtering it. */
  function OnTimer(st: Decoder): (r: Step)
    ensures !r.st.timerArmed
    ensures st.timerArmed && st.collectingPrompt ==>
      && r.st.lastUserPrompt == TrimEnd(st.promptBuffer)
      && r.st.currentPrompt == TrimEnd(st.promptBuffer)
      && r.effects == [PromptChanged(TrimEnd(st.promptBuffer))]
      && !r.st.collectingPrompt && !r.st.promptStartMarker
    ensures !(st.timerArmed && st.collectingPrompt) ==> r.effects == [] && r.st == st.(timerArmed := false)
  {
    if st.timerArmed && st.collectingPrompt then
      var prompt := TrimEnd(st.promptBuffer);
      Step(StorePrompt(st, prompt).(collectingPrompt := false, promptStartMarker := false, timerArmed := false),
           [PromptChanged(prompt)])
    else Step(st.(timerArmed := false), [])
  }

  /** `B`: stop collecting the prompt, cancel the timer, read the prompt
      between the markers (or from the buffer) and store it if acceptable;
      the prompt-start marker is released on every path. */
  function OnPromptEnd(st: Decoder, env: Env): (r: Step)
    ensures !r.st.collectingPrompt && !r.st.timerArmed && !r.st.promptStartMarker
    ensures var p := MarkedPrompt(env.lines, if st.promptStartMarker then env.heldPromptLine else None,
                                  env.newMarker, st.promptBuffer);
      if AcceptablePrompt(p) then
        r.st.lastUserPrompt == p && r.st.currentPrompt == p && r.st.promptLastLine == LastPart(p)
        && r.effects == [PromptChanged(p)]
      else
        r.st.lastUserPrompt == st.lastUserPrompt && r.st.currentPrompt == st.currentPrompt
        && r.st.promptLastLine == st.promptLastLine && r.effects == []
  {
    var startLine := if st.promptStartMarker then env.heldPromptLine else None;
    var prompt := MarkedPrompt(env.lines, startLine, env.newMarker, st.promptBuffer);
    var st1 := st.(collectingPrompt := false, timerArmed := false, promptStartMarker := false);
    if AcceptablePrompt(prompt) then Step(StorePrompt(st1, prompt), [PromptChanged(prompt)])
    else Step(st1, [])
  }

  /** `C`: recover the typed command from the line above the cursor, start
      collecting output, and report the command as started when there is one. */
  function OnCommandStart(st: Decoder, env: Env): (r: Step)
    ensures r.st.collecting && r.st.commandInProgress && r.st.lastExitCode == 0
    ensures r.st.commandStartTime == Some(env.now)
    ensures r.st.startMarker <==> env.newMarker.Some?
    ensures var lineText := ReadMarkedLine(env.lines, env.newMarker);
      r.st.lastUserCommand ==
        if env.newMarker.Some? && lineText != "" then CommandFromLine(lineText, LastPart(st.lastUserPrompt))
        else st.lastUserCommand
    ensures r.st.lastUserCommand != "" ==>
      r.effects == [CommandStarted(H.StartPayload(st.lastUserPrompt, r.st.lastUserCommand, env.now))]
    ensures r.st.lastUserCommand == "" ==> r.effects == []
    ensures r.st.pending == st.pending && r.st.lastUserPrompt == st.lastUserPrompt
  {
    var known := LastPart(st.lastUserPrompt);
    var lineText := ReadMarkedLine(env.lines, env.newMarker);
    // The retry registers a second marker at the same offset -1, so it reads the same line.
    var lineText := if lineText != "" && !Contains(lineText, known) && known != ""
                    then ReadMarkedLine(env.lines, env.newMarker) else lineText;
    var command := if env.newMarker.Some? && lineText != "" then CommandFromLine(lineText, known)
                   else st.lastUserCommand;
    var st1 := st.(lastUserCommand := command,
                   startMarker := env.newMarker.Some?,
                   collecting := true,
                   lastExitCode := 0,
                   commandInProgress := true,
                   commandStartTime := Some(env.now));
    if command != "" then Step(st1, [CommandStarted(H.StartPayload(st.lastUserPrompt, command, env.now))])
    else Step(st1, [])
  }

  /** The `recordRun` payload a `D` dispatches. */
  function FinishedRun(st: Decoder, env: Env, result: CommandResult): H.RunPayload {
    H.RunPayload(st.lastUserPrompt, st.lastUserCommand, result.output, result.exitCode,
                 st.commandStartTime.GetOr(env.now), env.now)
  }

  /** `D;<code>`: read the output between the markers, release the output
      marker, resolve a pending capture when one is being collected, and
      record the run on both paths. */
  function OnCommandEnd(st: Decoder, env: Env, code: string): (r: Step)
    ensures !r.st.collecting && !r.st.startMarker
    ensures var result := CommandResult(
        MarkedOutput(env.lines, if st.startMarker then env.heldStartLine else None, env.newMarker),
        ExitCode(code));
      && r.st.lastCommand == Some(result)
      && (if st.collecting && st.commandInProgress && st.pending.Some? then
            && r.effects == [Resolve(st.pending.value, result), CommandFinished(FinishedRun(st, env, result))]
            && r.st.pending.None? && !r.st.commandInProgress
          else
            && r.effects == [CommandFinished(FinishedRun(st, env, result))]
            && r.st.pending == st.pending && r.st.commandInProgress == st.commandInProgress)
  {
    var startLine := if st.startMarker then env.heldStartLine else None;
    var output := MarkedOutput(env.lines, startLine, env.newMarker);
    var result := CommandResult(output, ExitCode(code));
    var finished := CommandFinished(FinishedRun(st, env, result));
    if st.collecting && st.commandInProgress && st.pending.Some? then
      Step(st.(collecting := false, commandInProgress := false, startMarker := false,
               pending := None, lastCommand := Some(result)),
           [Resolve(st.pending.value, result), finished])
    else
      Step(st.(collecting := false, startMarker := false, lastCommand := Some(result)), [finished])
  }

  /** The OSC 133 handler: dispatch on the payload's leading code. */
  function OnOsc133(st: Decoder, env: Env, data: string): (r: Step)
    ensures (!StartsWith(data, "A") && !StartsWith(data, "B") && !StartsWith(data, "C") && !StartsWith(data, "D;"))
      ==> r == Step(st, [])
  {
    if StartsWith(data, "A") then OnPromptStart(st, env)
    else if StartsWith(data, "B") then OnPromptEnd(st, env)
    else if StartsWith(data, "C") then OnCommandStart(st, env)
    else if StartsWith(data, "D;") then OnCommandEnd(st, env, data[2..])
    else Step(st, [])
  }

  /** The OSC 7 handler: the path after `file://<host>` becomes the cwd when
      it is not empty. */
  function OnOsc7(st: Decoder, data: string): (r: Step)
    ensures r.effects == []
    ensures StripFileHost(data) != "" ==> r.st == st.(cwd := StripFileHost(data))
    ensures StripFileHost(data) == "" ==> r.st == st
  {
    var path := StripFileHost(data);
    if path != "" then Step(st.(cwd := path), []) else Step(st, [])
  }

  /** `processIncomingData`: a chunk feeds the prompt buffer while the prompt
      (and not output) is being collected, and always goes to the terminal. */
  function OnData(st: Decoder, chunk: string): (r: Step)
    ensures chunk != "" && !st.collecting && st.collectingPrompt ==>
      r.st == st.(promptBuffer := st.promptBuffer + chunk)
    ensures !(chunk != "" && !st.collecting && st.collectingPrompt) ==> r.st == st
    ensures r.effects == if chunk != "" then [WriteTerminal(chunk)] else []
  {
    var st1 := if chunk != "" && !st.collecting && st.collectingPrompt
               then st.(promptBuffer := st.promptBuffer + chunk) else st;
    Step(st1, if chunk != "" then [WriteTerminal(chunk)] else [])
  }

  /** What `runCaptured` sends to the PTY: the command, in bracketed-paste
      markers when it spans lines, and a newline. */
  function CaptureText(cmd: string): string {
    if '\n' in cmd then PasteStart + cmd + PasteEnd + "\n" else cmd + "\n"
  }

  /** `runCaptured(cmd)` with a fresh resolver `id`: refused while another is
      pending; otherwise reset the capture flags, install the resolver and
      send the command. */
  function OnRunCaptured(st: Decoder, cmd: string, id: nat): (r: Step)
    ensures st.pending.Some? ==> r == Step(st, [Reject(id, PendingMessage)])
    ensures st.pending.None? ==>
      && r.st == st.(collecting := false, lastExitCode := 0, commandInProgress := false, pending := Some(id))
      && r.effects == [WritePty(CaptureText(cmd))]
  {
    if st.pending.Some? then Step(st, [Reject(id, PendingMessage)])
    else
      Step(st.(collecting := false, lastExitCode := 0, commandInProgress := false, pending := Some(id)),
           [WritePty(CaptureText(cmd))])
  }

  /** One event. */
  function Next(st: Decoder, env: Env, ev: Event): Step {
    match ev
    case Osc133(data) => OnOsc133(st, env, data)
    case Osc7(data) => OnOsc7(st, data)
    case Data(chunk) => OnData(st, chunk)
    case TimerFired => OnTimer(st)
    case RunCaptured(cmd, id) => OnRunCaptured(st, cmd, id)
    case RunCommand(cmd) => Step(st, [WritePty(cmd + "\n")])
  }

  datatype Input = Input(env: Env, ev: Event)

  /** A sequence of events, in stream order, with all their effects. */
  function Run(st: Decoder, inputs: seq<Input>): Step
    decreases |inputs|
  {
    if inputs == [] then Step(st, [])
    else
      var s := Next(st, inputs[0].env, inputs[0].ev);
      var rest := Run(s.st, inputs[1..]);
      Step(rest.st, s.effects + rest.effects)
  }

  // ---------------------------------------------------------------------
  // Properties of the decoder.

  /** The paste wrapping is undone by dropping the markers: the command is
      recovered from what was sent. */
  lemma CaptureTextRecoversCommand(cmd: string)
    ensures var t := CaptureText(cmd);
      && |t| > 0 && t[|t| - 1] == '\n'
      && ('\n' in cmd ==> t[..|PasteStart|] == PasteStart && t[|PasteStart|..|t| - 1 - |PasteEnd|] == cmd)
      && ('\n' !in cmd ==> t[..|t| - 1] == cmd)
  {
    var t := CaptureText(cmd);
    if '\n' in cmd {
      assert t == PasteStart + cmd + PasteEnd + "\n";
      assert t[|PasteStart|..|t| - 1 - |PasteEnd|] == cmd;
    }
  }

  /** Prompt collection and the prompt marker and timer go together: the
      marker and the timer only exist while the prompt is being collected. */
  predicate Inv(st: Decoder) {
    && (st.promptStartMarker ==> st.collectingPrompt)
    && (st.timerArmed ==> st.collectingPrompt)
  }

  lemma InitialInv()
    ensures Inv(Initial)
  {
  }

  lemma NextKeepsInv(st: Decoder, env: Env, ev: Event)
    requires Inv(st)
    ensures Inv(Next(st, env, ev).st)
  {
    match ev
    case Osc133(data) =>
      if StartsWith(data, "A") {
      } else if StartsWith(data, "B") {
      } else if StartsWith(data, "C") {
      } else if StartsWith(data, "D;") {
      }
    case _ =>
  }

  lemma {:induction false} RunKeepsInv(st: Decoder, inputs: seq<Input>)
    requires Inv(st)
    ensures Inv(Run(st, inputs).st)
    decreases |inputs|
  {
    if inputs != [] {
      NextKeepsInv(st, inputs[0].env, inputs[0].ev);
      RunKeepsInv(Next(st, inputs[0].env, inputs[0].ev).st, inputs[1..]);
    }
  }

  /** Outside the timer, the stored prompt only ever changes to an
      acceptable one. */
  lemma PromptGuard(st: Decoder, env: Env, ev: Event)
    requires !ev.TimerFired?
    ensures var r := Next(st, env, ev).st;
      r.lastUserPrompt == st.lastUserPrompt || AcceptablePrompt(r.lastUserPrompt)
  {
    match ev
    case Osc133(data) =>
      if StartsWith(data, "A") {
      } else if StartsWith(data, "B") {
        var r := OnPromptEnd(st, env);
        assert r.st.lastUserPrompt == st.lastUserPrompt || AcceptablePrompt(r.st.lastUserPrompt);
      } else if StartsWith(data, "C") {
      } else if StartsWith(data, "D;") {
      }
    case _ =>
  }

  function CountResolves(effects: seq<Effect>): nat {
    if effects == [] then 0
    else (if effects[0].Resolve? then 1 else 0) + CountResolves(effects[1..])
  }

  function CountRejects(effects: seq<Effect>): nat {
    if effects == [] then 0
    else (if effects[0].Reject? then 1 else 0) + CountRejects(effects[1..])
  }

  function CountCaptures(inputs: seq<Input>): nat {
    if inputs == [] then 0
    else (if inputs[0].ev.RunCaptured? then 1 else 0) + CountCaptures(inputs[1..])
  }

  function Pending(st: Decoder): nat {
    if st.pending.Some? then 1 else 0
  }

  lemma {:induction false} CountConcat(a: seq<Effect>, b: seq<Effect>)
    ensures CountResolves(a + b) == CountResolves(a) + CountResolves(b)
    ensures CountRejects(a + b) == CountRejects(a) + CountRejects(b)
    decreases |a|
  {
    if a != [] {
      assert (a + b)[0] == a[0] && (a + b)[1..] == a[1..] + b;
      CountConcat(a[1..], b);
    } else {
      assert a + b == b;
    }
  }

  lemma CountTwo(x: Effect, y: Effect)
    ensures CountResolves([x, y]) == (if x.Resolve? then 1 else 0) + (if y.Resolve? then 1 else 0)
    ensures CountRejects([x, y]) == (if x.Reject? then 1 else 0) + (if y.Reject? then 1 else 0)
  {
    assert [x, y][1..] == [y];
    assert [y][1..] == [];
    assert CountResolves([y]) == (if y.Resolve? then 1 else 0);
    assert CountRejects([y]) == (if y.Reject? then 1 else 0);
  }

  /** Effects without resolver calls count nothing. */
  lemma {:induction false} CountNone(effects: seq<Effect>)
    requires forall i :: 0 <= i < |effects| ==> !effects[i].Resolve? && !effects[i].Reject?
    ensures CountResolves(effects) == 0 && CountRejects(effects) == 0
  {
    if effects != [] {
      CountNone(effects[1..]);
    }
  }

  /** The OSC 133 part of `NextCaptureAccounting`: only `D;` can resolve. */
  lemma Osc133CaptureAccounting(st: Decoder, env: Env, data: string)
    ensures var s := OnOsc133(st, env, data);
      CountResolves(s.effects) + Pending(s.st) + CountRejects(s.effects) == Pending(st)
    ensures var s := OnOsc133(st, env, data);
      forall e :: e in s.effects && e.Resolve? ==> st.pending == Some(e.id) && s.st.pending.None?
  {
    var s := OnOsc133(st, env, data);
    if StartsWith(data, "A") {
      assert s == OnPromptStart(st, env);
    } else if StartsWith(data, "B") {
      assert s == OnPromptEnd(st, env);
      assert s.st.pending == st.pending && (s.effects == [] || (|s.effects| == 1 && s.effects[0].PromptChanged?));
      CountNone(s.effects);
    } else if StartsWith(data, "C") {
      assert s == OnCommandStart(st, env);
      assert s.st.pending == st.pending && (s.effects == [] || (|s.effects| == 1 && s.effects[0].CommandStarted?));
      CountNone(s.effects);
    } else if StartsWith(data, "D;") {
      assert s == OnCommandEnd(st, env, data[2..]);
      if st.collecting && st.commandInProgress && st.pending.Some? {
        CountTwo(s.effects[0], s.effects[1]);
        assert s.effects == [s.effects[0], s.effects[1]];
      } else {
        assert s.st.pending == st.pending && |s.effects| == 1 && s.effects[0].CommandFinished?;
        CountNone(s.effects);
      }
    } else {
      assert s == Step(st, []);
    }
  }

  /** One event resolves or rejects at most one capture, and a capture that
      is resolved is the one pending, which is then cleared. */
  lemma NextCaptureAccounting(st: Decoder, env: Env, ev: Event)
    ensures var s := Next(st, env, ev);
      CountResolves(s.effects) + Pending(s.st) + CountRejects(s.effects)
        == Pending(st) + (if ev.RunCaptured? then 1 else 0)
    ensures var s := Next(st, env, ev);
      forall e :: e in s.effects && e.Resolve? ==> st.pending == Some(e.id) && s.st.pending.None?
  {
    var s := Next(st, env, ev);
    if ev.Osc133? {
      Osc133CaptureAccounting(st, env, ev.payload);
    } else if ev.RunCaptured? {
      assert |s.effects| == 1 && !s.effects[0].Resolve?;
      assert s.effects[1..] == [];
    } else {
      assert s.st.pending == st.pending;
      CountNone(s.effects);
    }
  }

  /** Over any stream, every `runCaptured` call is either rejected at once,
      resolved exactly once, or is the one still pending. */
  lemma {:induction false} CaptureAccounting(st: Decoder, inputs: seq<Input>)
    ensures var r := Run(st, inputs);
      CountResolves(r.effects) + CountRejects(r.effects) + Pending(r.st) == Pending(st) + CountCaptures(inputs)
    decreases |inputs|
  {
    if inputs != [] {
      var s := Next(st, inputs[0].env, inputs[0].ev);
      NextCaptureAccounting(st, inputs[0].env, inputs[0].ev);
      CaptureAccounting(s.st, inputs[1..]);
      CountConcat(s.effects, Run(s.st, inputs[1..]).effects);
    }
  }

  /** A refused `runCaptured` changes nothing, so the pending capture
      continues exactly as if the call had not been made. */
  lemma RefusedCaptureIsInvisible(st: Decoder, env: Env, cmd: string, id: nat, rest: seq<Input>)
    requires st.pending.Some?
    ensures var r := Run(st, [Input(env, RunCaptured(cmd, id))] + rest);
      r.st == Run(st, rest).st && r.effects == [Reject(id, PendingMessage)] + Run(st, rest).effects
  {
    assert ([Input(env, RunCaptured(cmd, id))] + rest)[1..] == rest;
  }

  /** The result handed to a captured caller is the one recorded in history. */
  lemma ResolvedIsRecorded(st: Decoder, env: Env, code: string)
    requires st.collecting && st.commandInProgress && st.pending.Some?
    ensures var r := OnCommandEnd(st, env, code);
      |r.effects| == 2 && r.effects[0].Resolve? && r.effects[1].CommandFinished?
      && r.effects[0].result.output == r.effects[1].run.output
      && r.effects[0].result.exitCode == r.effects[1].run.exitCode
  {
  }

  /** With both markers on existing lines, the prompt of a `B` is exactly the
      joined lines between them, trimmed at the end. */
  lemma PromptFromMarkers(lines: seq<Option<string>>, s: int, e: int, buffer: string)
    requires s <= e
    requires forall i :: s <= i <= e ==> LineAt(lines, i).Some?
    ensures var ls := seq(e - s + 1, k requires 0 <= k <= e - s => LineAt(lines, s + k).value);
      MarkedPrompt(lines, Some(s), Some(e), buffer) == TrimEnd(Join(ls, "\n"))
  {
    CollectLinesPresent(lines, s, e);
    var ls := seq(e - s + 1, k requires 0 <= k <= e - s => LineAt(lines, s + k).value);
    assert CollectLines(lines, s, e) == ls;
  }

  /** The stored prompt's last line has no newline and ends the prompt. */
  lemma PromptLastLineShape(st: Decoder, prompt: string)
    ensures var l := StorePrompt(st, prompt).promptLastLine;
      NoChar(l, '\n') && |l| <= |prompt| && l == prompt[|prompt| - |l|..]
  {
    LastPartShape(prompt);
  }

  /** The host part ends at the first `/`. */
  lemma {:induction false} HostLenOfHost(host: string, path: string)
    requires NoChar(host, '/') && (path == [] || path[0] == '/')
    ensures HostLen(host + path) == |host|
    decreases |host|
  {
    if host != [] {
      assert (host + path)[0] == host[0] && (host + path)[1..] == host[1..] + path;
      HostLenOfHost(host[1..], path);
    } else {
      assert host + path == path;
    }
  }

  /** A `file://` URL with a non-empty host leaves exactly the path after it. */
  lemma Osc7StripsHost(host: string, path: string)
    requires host != [] && NoChar(host, '/') && (path == [] || path[0] == '/')
    ensures StripFileHost("file://" + host + path) == path
  {
    var d := "file://" + host + path;
    assert d[..7] == "file://" && d[7..] == host + path;
    HostLenOfHost(host, path);
    assert (host + path)[|host|..] == path;
  }

  /** An empty host (`file:///path`) does not match the pattern, so the
      payload is kept whole. */
  lemma Osc7EmptyHost(path: string)
    ensures StripFileHost("file://" + "/" + path) == "file://" + "/" + path
  {
    var d := "file://" + "/" + path;
    assert d[..7] == "file://" && d[7..][0] == '/';
  }

  /** On a line that starts with the known prompt line, the command is the
      trimmed text after it. */
  lemma CommandAfterPrompt(known: string, rest: string)
    requires known != ""
    ensures CommandFromLine(known + rest, known) == Trim(rest)
  {
    var line := known + rest;
    assert OccursAt(line, known, 0);
    ContainsAt(line, known, 0);
    assert line[|known|..] == rest;
  }

  /** `D;1` reports exit code 1, and a code that is not a number reports 0. */
  lemma ExitCodeExamples()
    ensures ExitCode("1") == 1 && ExitCode("127") == 127
    ensures ExitCode("") == 0 && ExitCode("x") == 0
  {
    assert "127"[..2] == "12" && "12"[..1] == "1" && "1"[..0] == "";
    assert !IsDigit("x"[0]);
  }

  /** The `C` and `D;<code>` payloads reach their handlers. */
  lemma Osc133Dispatch(st: Decoder, env: Env, code: string)
    ensures Next(st, env, Osc133("C")) == OnCommandStart(st, env)
    ensures Next(st, env, Osc133("D;" + code)) == OnCommandEnd(st, env, code)
  {
    assert "C"[..1] == "C";
    var d := "D;" + code;
    assert d[..1] == "D" && d[..2] == "D;" && d[2..] == code;
  }

  /** A captured `false` whose end marker gives no output range resolves the
      caller with an empty output and exit code 1, records the run, and
      leaves nothing pending. */
  lemma CapturedFalseResolves(st: Decoder, id: nat, env1: Env, env2: Env, env3: Env)
    requires st.pending.None?
    requires env3.newMarker.None?
    ensures var s1 := Next(st, env1, RunCaptured("false", id));
      var s2 := Next(s1.st, env2, Osc133("C"));
      var s3 := Next(s2.st, env3, Osc133("D;1"));
      && s1.effects == [WritePty("false\n")]
      && |s3.effects| == 2 && s3.effects[0] == Resolve(id, CommandResult("", 1))
      && s3.effects[1] == CommandFinished(H.RunPayload(st.lastUserPrompt, s2.st.lastUserCommand, "", 1,
                                                      env2.now, env3.now))
      && s3.st.pending.None? && s3.st.lastCommand == Some(CommandResult("", 1))
  {
    var s1 := Next(st, env1, RunCaptured("false", id));
    assert '\n' !in "false" && "false" + "\n" == "false\n";
    assert s1.effects == [WritePty("false\n")];
    Osc133Dispatch(s1.st, env2, "1");
    var s2 := Next(s1.st, env2, Osc133("C"));
    assert s2.st.collecting && s2.st.commandInProgress && s2.st.pending == Some(id);
    Osc133Dispatch(s2.st, env3, "1");
    assert "D;" + "1" == "D;1";
    ExitCodeExamples();
    assert MarkedOutput(env3.lines, if s2.st.startMarker then env3.heldStartLine else None, env3.newMarker) == "";
    var s3 := Next(s2.st, env3, Osc133("D;1"));
    assert s3.effects[0] == Resolve(id, CommandResult("", 1));
    assert s3.st.pending.None?;
  }

  /** A prompt of one line is its own last line. */
  lemma LastPartOneLine(p: string)
    requires NoChar(p, '\n')
    ensures LastPart(p) == p
  {
    IndexOfChar(p, '\n');
    assert Split(p, "\n") == [p];
  }

  /** `C` on a line that repeats a one-line prompt followed by the typed text
      reports the trimmed text as the started command, with the prompt it
      was typed at. */
  lemma CommandStartReadsTypedText(st: Decoder, env: Env, rest: string)
    requires st.lastUserPrompt != "" && NoChar(st.lastUserPrompt, '\n')
    requires env.newMarker.Some? && LineAt(env.lines, env.newMarker.value) == Some(st.lastUserPrompt + rest)
    requires Trim(rest) != ""
    ensures var r := OnCommandStart(st, env);
      && r.st.lastUserCommand == Trim(rest)
      && r.effects == [CommandStarted(H.StartPayload(st.lastUserPrompt, Trim(rest), env.now))]
  {
    LastPartOneLine(st.lastUserPrompt);
    CommandAfterPrompt(st.lastUserPrompt, rest);
  }

  /** With both output markers on existing lines, a `D` reports exactly the
      lines after the start marker up to the end marker, joined by newlines. */
  lemma OutputFromMarkers(lines: seq<Option<string>>, s: int, e: int)
    requires s <= e
    requires forall i :: s < i <= e ==> LineAt(lines, i).Some?
    ensures var ls := seq(e - s, k requires 0 <= k < e - s => LineAt(lines, s + 1 + k).value);
      MarkedOutput(lines, Some(s), Some(e)) == Join(ls, "\n")
  {
    CollectLinesPresent(lines, s + 1, e);
    var ls := seq(e - s, k requires 0 <= k < e - s => LineAt(lines, s + 1 + k).value);
    assert CollectLines(lines, s + 1, e) == ls;
  }
}

=== FILE: ui.dfy ===
/** The layout store of src/features/UI/uiSlice.ts. */
module UI {
  datatype Layout = Horizontal | Vertical

  datatype UIState = UIState(pageTitleInView: bool, panelVisible: bool, layout: Layout)

  /** The title starts in view, the terminal panel hidden, side by side. */
  const InitialState := UIState(true, false, Horizontal)

  function SetPageTitleInView(st: UIState, v: bool): (r: UIState)
    ensures r.pageTitleInView == v
    ensures r.panelVisible == st.panelVisible && r.layout == st.layout
  {
    st.(pageTitleInView := v)
  }

  function SetPanelVisible(st: UIState, v: bool): (r: UIState)
    ensures r.panelVisible == v
    ensures r.pageTitleInView == st.pageTitleInView && r.layout == st.layout
  {
    st.(panelVisible := v)
  }

  function SetLayout(st: UIState, layout: Layout): (r: UIState)
    ensures r.layout == layout
    ensures r.pageTitleInView == st.pageTitleInView && r.panelVisible == st.panelVisible
  {
    st.(layout := layout)
  }

  /** Setters of different fields commute, and the last setting of a field
      wins. */
  lemma SettersCommute(st: UIState, a: bool, b: bool, l: Layout)
    ensures SetPanelVisible(SetPageTitleInView(st, a), b) == SetPageTitleInView(SetPanelVisible(st, b), a)
    ensures SetLayout(SetPanelVisible(st, b), l) == SetPanelVisible(SetLayout(st, l), b)
    ensures SetLayout(SetPageTitleInView(st, a), l) == SetPageTitleInView(SetLayout(st, l), a)
    ensures SetPanelVisible(SetPanelVisible(st, a), b) == SetPanelVisible(st, b)
  {
  }

  /** Setting all three fields reaches any state from any state. */
  lemma SettersReachAll(st: UIState, target: UIState)
    ensures SetLayout(SetPanelVisible(SetPageTitleInView(st, target.pageTitleInView), target.panelVisible), target.layout) == target
  {
  }
}
